=== FILE: README.md ===
# Lineo core, modelled in Dafny

Lineo is a desktop plotting application built with Preact and Tauri. Users
enter or import (x, y) series, fit a regression curve to each series, and
export the plot as an image. This project models the deterministic core of
the application and proves properties of it.

- **Fitting engine** (`src/regressionHelper.ts`):
  - closed-form least-squares lines, and lines through the origin;
  - Gaussian elimination with partial pivoting;
  - the normal equations of a polynomial through the origin;
  - the parameter dispatch and the prediction function;
  - the Catmull-Rom spline and the mean squared error;
  - the orchestrator that samples the fitted curve over the data's range.
- **Regression controls of the analysis tab**: each handler builds a new regression record.
- **Control-point editor and free-hand drawing** of the plot area.
- **Project store**: series, plot settings and view mode, with undo/redo history and transactions.
- **Notification store.**
- **Spreadsheet helpers**: column and cell-range parsing, new-series defaults, and the auto-crop box of an exported image.
- **Text data entry** of the data tab.
- **Plot-settings preset library.**
- **Rust spreadsheet reader** (`read_excel`).
- **Small controls**: export scale snapping, the export dialog, and the menu bar with its zoom.

Numbers are exact `real`s. Where the source can produce NaN or Infinity, the
model uses `Float = Finite(value) | NonFinite`:

- a missing parameter key;
- the logarithm of a non-positive number;
- a non-finite power;
- an error with no finite prediction.

This keeps the finite filters of the error and of the sampler meaningful.

### What the model takes as parameters

The model does not define these. They are passed in:

- **From the JavaScript runtime and third-party libraries** (the `Externals` record):
  - `Math.log`, `exp`, `sqrt`, `sin` and `pow`;
  - the `regression` package's polynomial fit;
  - the negative-exponential grid search.
- **As function parameters:**
  - `fit-curve`'s Bézier fitting;
  - `parseFloat`, and the printing of a number in a template literal;
  - Rust's `str::parse::<f64>`.
- **As plain values:**
  - clock readings (`Date.now()`);
  - random identifiers and colours;
  - the answer to a `confirm()` dialog;
  - the index of the control point under the pointer;
  - the chart value under the pointer.

### Pure code versus stateful code

Pure code is modelled as functions:

- the fitting engine's dispatch;
- the analysis-tab handlers;
- the snapping rule;
- the history transitions.

Code that changes state in place is modelled as classes:

- `ProjectStore.Store`;
- `Notifications.NotificationCenter`;
- `PlotArea.PlotEditor`;
- `DataTab.DataTabState`;
- `Presets.PresetManager`;
- `ExportModal.ExportDialog`;
- `MenuBar.MenuState`.

Each method's new state is tied to a specification function. Loops are kept as loops and proved against specification functions:

- the least-squares sums;
- elimination and back substitution over an `array` of rows;
- the power sums;
- the spline and Bézier sampling;
- the error;
- the curve sampler;
- `parseColumn`;
- the four crop scans;
- the text parsers;
- `read_excel`.

The source accumulates two loop variables in floating point: `t += 1/20` in `calculateSpline` and `x += step` in the sampler. The model replaces them with integer counters, `t = k/20` and `x = xMin + k*step`.

## Model

| member | source | states |
|---|---|---|
| LeastSquares.LinearFit | src/regressionHelper.ts:5-24 | empty data or a zero determinant n·Σx² − (Σx)² gives (m, c) = (0, 0) |
| LeastSquares.SimpleLinearRegression | src/regressionHelper.ts:5-24 | the one-pass loop over the four sums returns exactly LinearFit of the data |
| LeastSquares.ClosedForm | src/regressionHelper.ts:18-23 | from a positive count and the four sums, the closed form m = (nΣxy − ΣxΣy)/d, c = (Σy − mΣx)/n (zero d gives (0, 0)) |
| LeastSquares.LinearFitNormalEquations | src/regressionHelper.ts:18-23 | whenever the fit is not degenerate, (m, c) solves both normal equations of the least-squares line |
| LeastSquares.SumsOnLine | src/regressionHelper.ts:12-17 | points on y = m·x + c satisfy Σy = mΣx + cn and Σxy = mΣx² + cΣx |
| LeastSquares.DenominatorPositive | src/regressionHelper.ts:18-19 | the determinant is strictly positive as soon as two x values differ, so the (0, 0) fallback is not taken |
| LeastSquares.LinearFitRecoversLine | src/regressionHelper.ts:5-24 | points lying exactly on y = m·x + c with two distinct x are fitted by exactly (m, c) |
| LeastSquares.OriginFit | src/regressionHelper.ts:26-35 | m solves m·Σx² = Σxy when Σx² ≠ 0, and is 0 when Σx² = 0 |
| LeastSquares.LinearRegressionOrigin | src/regressionHelper.ts:26-35 | the one-pass loop returns exactly OriginFit of the data |
| LeastSquares.SumXXPositive | src/regressionHelper.ts:31-33 | Σx² is positive once some x is non-zero |
| LeastSquares.OriginFitRecoversSlope | src/regressionHelper.ts:26-35 | points on y = k·x with some x ≠ 0 are fitted with slope exactly k |
| Gaussian.TriangularNonSingular | src/regressionHelper.ts:42-68 | an elimination that ends with every pivot non-zero proves A non-singular |
| Gaussian.NullVector | src/regressionHelper.ts:52 | a zero pivot at column i yields a vector with 1 at i, zeros below, that every earlier row annihilates |
| Gaussian.GaussSolution | src/regressionHelper.ts:37-69 | the specification: a solution of A·x = b for a non-singular A, None for a singular one |
| Gaussian.SolveGaussian | src/regressionHelper.ts:37-69 | the result has length n and solves A·x = b; None is returned exactly when A is singular; the result equals GaussSolution |
| Gaussian.Triangulate | src/regressionHelper.ts:42-57 | the forward phase keeps the solution set of [A \| b] and, unless it reports a zero pivot (then A is singular), leaves an upper-triangular matrix with non-zero pivots |
| Gaussian.PivotRow | src/regressionHelper.ts:44-47 | the pivot row has the largest magnitude in column i at or below row i, and is the first such row |
| Gaussian.SwapKeeps | src/regressionHelper.ts:48 | swapping two rows at or below i only permutes the rows (multiset equality), keeping the solution set and the triangular shape built so far |
| Gaussian.EliminateBelow | src/regressionHelper.ts:51-56 | clearing column i below the pivot extends the zero lower triangle by one column and keeps the solution set |
| Gaussian.EliminateRow | src/regressionHelper.ts:52-55 | subtracting factor × pivot row changes only row k, zeroes M[k][i], leaves its first i entries and keeps the solution set |
| Gaussian.ZeroPivotColumn | src/regressionHelper.ts:44-48 | after the pivot search a zero pivot means the whole column below is zero |
| Gaussian.ZeroPivotSingular | src/regressionHelper.ts:52 | a zero column at the pivot position makes A singular (a non-zero null vector is built) |
| Gaussian.BackSubstitute | src/regressionHelper.ts:59-67 | on an upper-triangular system with non-zero pivots every row is satisfied by the computed x |
| Gaussian.TriangularSolves | src/regressionHelper.ts:59-68 | a solution of the triangular system solves the original system A·x = b |
| Gaussian.SolutionUnique | src/regressionHelper.ts:37-69 | a non-singular system has exactly one solution, and GaussSolution returns it |
| PolynomialOrigin.NormalMatrix | src/regressionHelper.ts:104-111 | the normal matrix is n×n and symmetric |
| PolynomialOrigin.NormalRow | src/regressionHelper.ts:104-107 | row i of the normal matrix holds Σx^(i+j+2) in column j |
| PolynomialOrigin.Basis | src/regressionHelper.ts:74-75 | the design row of a point is x, x², …, x^n |
| PolynomialOrigin.NormalVector | src/regressionHelper.ts:104-111 | entry i of the right-hand side is Σ y·x^(i+1) |
| PolynomialOrigin.PowerSums | src/regressionHelper.ts:89-102 | after the pass over the data, sumX[k] = Σx^k for k = 1..2n and sumXY[k] = Σy·x^k for k = 1..n |
| PolynomialOrigin.AddPowers | src/regressionHelper.ts:93-101 | the inner loop for one point adds its powers to every running sum |
| PolynomialOrigin.NormalSystem | src/regressionHelper.ts:104-111 | A[i][j] = sumX[i+j+2] and b[i] = sumXY[i+1] build exactly NormalMatrix and NormalVector |
| PolynomialOrigin.BuildRow | src/regressionHelper.ts:105-109 | the inner loop fills row i with sumX[i+j+2], which is exactly row i of NormalMatrix |
| PolynomialOrigin.PolynomialRegressionOrigin | src/regressionHelper.ts:71-114 | the coefficients a1..an are the solution of the normal equations, None when they are singular |
| PolynomialOrigin.NormalRowOnPolynomial | src/regressionHelper.ts:104-111 | each normal equation holds at the true coefficients of data lying on a polynomial through the origin |
| PolynomialOrigin.OriginFitRecoversPolynomial | src/regressionHelper.ts:71-114 | data lying on a1·x + … + an·x^n are fitted by exactly those coefficients whenever the normal equations are non-singular |
| Prediction.KeyName | src/regressionHelper.ts:225-235 | the property name of each parameter key is non-empty |
| Prediction.KeyNameInjective | src/regressionHelper.ts:225-235 | distinct keys have distinct property names, so a record over keys is the source's record over names |
| Prediction.EvalPolynomial | src/regressionHelper.ts:298-313 | the while loop over a0, a1, … sums a_i·x^i up to the first missing key |
| Prediction.CoefficientParams | src/regressionHelper.ts:226-228 | the forEach fills exactly the keys a(offset)..a(offset+n−1) with the coefficients in order |
| Prediction.AddCoefficients | src/regressionHelper.ts:226-228 | the forEach loop over the coefficients adds CoefficientParams to the starting record |
| Prediction.OriginParams | src/regressionHelper.ts:224-229 | the forced-origin record has exactly keys a0..an with a0 = 0 and a(i+1) = coefficient i |
| Prediction.PolyOfOriginParams | src/regressionHelper.ts:224-229 | reading that record back through the polynomial predictor gives a1·x + … + an·x^n |
| Prediction.LinearThroughOrigin | src/regressionHelper.ts:295-296 | the line is finite wherever m is set; a missing or zero c makes it m·x |
| Prediction.OriginPolynomialAtZero | src/regressionHelper.ts:297-313 | a forced-origin polynomial record predicts 0 at x = 0 |
| Regression.Transform | src/regressionHelper.ts:239-261 | filter-then-map keeps only transformed images of kept points and never lengthens the data |
| Regression.Order | src/regressionHelper.ts:224-231 | `order \|\| 2`: a missing or zero order becomes 2, so the degree is at least 1 |
| Regression.GetAutoParameters | src/regressionHelper.ts:206-289 | the dispatch returns exactly the AutoParameters record of its family |
| Regression.ForcedOriginInterceptZero | src/regressionHelper.ts:214-217 | forced-origin linear, square-root and sine fits give exactly {m, c} with c = 0 and m the origin fit of their points |
| Regression.ForcedOriginPolynomialKeys | src/regressionHelper.ts:222-229 | a forced-origin polynomial (order 2 when unset) has a0 = 0 and keys a0..an holding the normal-equation solution; the record is empty exactly when the equations are singular |
| Regression.TooFewPointsGiveEmpty | src/regressionHelper.ts:238-257 | exponential, logarithmic and power fits give {} exactly when at most one transformed point is usable |
| Regression.FixedParameters | src/regressionHelper.ts:285-288 | spline gives exactly {tension: 0.5}; none and manual give {} |
| Regression.CalculateError | src/regressionHelper.ts:410-422 | the accumulating loop returns exactly the mean squared error Mse |
| Regression.SquaredErrorsZero | src/regressionHelper.ts:414-419 | the sum of squared residuals is non-negative, and zero exactly when every finitely predicted point lies on the curve |
| Regression.MseMeaning | src/regressionHelper.ts:410-422 | 0 on no data; Infinity exactly when no prediction is finite; otherwise non-negative, and 0 exactly when every finitely predicted point is exact |
| Regression.FiniteCountPositive | src/regressionHelper.ts:414-421 | some point is counted exactly when the prediction is finite at one of the data's x values |
| Regression.MinX | src/regressionHelper.ts:451 | Math.min over the x values: attained and below every x |
| Regression.MaxX | src/regressionHelper.ts:452 | Math.max over the x values: attained and above every x |
| Regression.DomainWidening | src/regressionHelper.ts:447-459 | the interval is [min x, max x] ([0, 10] without data), widened to contain 0 only for a forced origin in the four families, and always contains the data's x range |
| Regression.Domain | src/regressionHelper.ts:447-459 | the sampling interval is never reversed |
| Regression.StepBound | src/regressionHelper.ts:461-462 | with step = range/100, xMin + k·step stays within xMax exactly for k ≤ 100 |
| Regression.SampleCurve | src/regressionHelper.ts:487-501 | the sampling loop returns exactly Curve: one sample for a zero range, else the finite samples at xMin + k·range/100 |
| Regression.SampleRange | src/regressionHelper.ts:494-500 | for a positive range, the loop from xMin in steps of range/100 visits exactly k = 0..100 and keeps the finite samples in that order |
| Regression.SamplesShape | src/regressionHelper.ts:495-500 | samples lie on the prediction, inside the stepped interval and in strictly ascending x |
| Regression.SamplesAscending | src/regressionHelper.ts:494-500 | the x of the kept samples strictly ascend |
| Regression.CurveShape | src/regressionHelper.ts:487-501 | the curve has at most 101 points, all on the prediction, inside [xMin, xMax] and strictly ascending; a zero range samples only xMin |
| Regression.CurveComplete | src/regressionHelper.ts:487-501 | a prediction finite everywhere yields all 101 samples, or the single sample of a zero range |
| Regression.SamplesComplete | src/regressionHelper.ts:495-500 | a prediction finite everywhere keeps every sample |
| Regression.CalculateRegressionDetails | src/regressionHelper.ts:424-521 | the orchestrator returns exactly RegressionDetails |
| Regression.FitChosen | src/regressionHelper.ts:447-521 | with data or manual parameters, the interval, the manual or automatic parameters and the fit give exactly FitOutcome |
| Regression.SamplingDomain | src/regressionHelper.ts:447-459 | computes exactly Domain: the x range of the data or [0, 10], widened to 0 for a forced origin |
| Regression.FitWithParams | src/regressionHelper.ts:469-521 | the part after the parameters are chosen returns exactly FitOutcome |
| Regression.ManualOutcome | src/regressionHelper.ts:432-435 | 'manual' always succeeds, with the spline through the control points or no points without them |
| Regression.SplineOutcome | src/regressionHelper.ts:437-441 | 'spline' always succeeds with the spline through the data at the given tension, 0.5 when none is given |
| Regression.NoDataOutcome | src/regressionHelper.ts:443-445 | a fitted family without data and without manual parameters fails with "No data points" |
| Regression.FittedOutcome | src/regressionHelper.ts:443-521 | a failure has no points and one of the four messages; a success carries the non-empty record used, 1..101 ascending points inside the interval on the prediction, and the MSE of the data; a zero range gives the single point at xMin |
| Regression.ExactOutcome | src/regressionHelper.ts:469-521 | a prediction finite everywhere and exact on the data succeeds with error 0 and all samples on the prediction |
| Regression.ExactLineOutcome | src/regressionHelper.ts:424-521 | data exactly on y = m·x + c with two distinct x: the automatic linear fit succeeds with {m, c}, error 0 and 101 points on the line |
| Regression.LinePredict | src/regressionHelper.ts:295-296 | the linear predictor of {m, c} is m·x + c |
| Regression.ExactLineFit | src/regressionHelper.ts:469-521 | with {m, c} of data exactly on the line and a proper interval the outcome succeeds with error 0 and 101 points on the line |
| Regression.ExactOriginPolynomialOutcome | src/regressionHelper.ts:424-521 | data exactly on a polynomial through the origin with non-singular normal equations: the forced-origin fit succeeds with a0 = 0 and those coefficients, error 0, every drawn point on the polynomial |
| Sorting.InsertByX | src/regressionHelper.ts:333 | inserting into a sorted list adds exactly one element, as a multiset, and keeps it sorted by x |
| Sorting.SortByX | src/regressionHelper.ts:333 | the sort by x is a permutation of its input and sorted by x |
| Sorting.SortByXStable | src/regressionHelper.ts:333 | the sort is stable: for every x, the points with that x appear in their input order |
| Sorting.SortByXExtremes | src/regressionHelper.ts:333 | the first sorted point is an input point of least x, the last one of greatest x |
| Spline.WeightsSumToOne | src/regressionHelper.ts:352-355 | at every t the four Catmull-Rom weights sum to 1 |
| Spline.SegmentSamples | src/regressionHelper.ts:348-361 | the inner loop produces the 20 samples of one window at t = k/20 |
| Spline.Padded | src/regressionHelper.ts:338 | the padded list repeats the first and the last point around the sorted ones |
| Spline.SamplePoint | src/regressionHelper.ts:347-360 | one sample is the tension-weighted Catmull-Rom blend of the four window points |
| Spline.Segments | src/regressionHelper.ts:342-362 | each of the m windows contributes 20 samples |
| Spline.SegmentsAt | src/regressionHelper.ts:342-362 | sample 20i + k is sample k of window i |
| Spline.WindowStart | src/regressionHelper.ts:342-362 | window i starts exactly at its second point, padded point i+1 |
| Spline.CurveThrough | src/regressionHelper.ts:338-363 | after padding and the final point, sample 20i is input point i |
| Spline.CalculateSpline | src/regressionHelper.ts:330-366 | the nested loops return exactly SplineOf |
| Spline.SplineLength | src/regressionHelper.ts:330-366 | fewer than 2 points give []; otherwise 20·(n − 1) + 1 points |
| Spline.SplineInterpolates | src/regressionHelper.ts:333-363 | sample 20·i is the i-th point in x order: the curve passes through every input point |
| Spline.SplineEndpoints | src/regressionHelper.ts:330-366 | the curve starts at an input point of least x and ends at one of greatest x |
| AnalysisTab.ValuesOf | src/components/tabs/AnalysisTab.tsx:31-37 | the values handed to the engine have exactly the slider keys, each with its slider's value |
| AnalysisTab.UpdateRegressionEffect | src/components/tabs/AnalysisTab.tsx:28-66 | the update stores the record and the engine's points (none for 'none'); a toast is raised exactly when notify is set and the type is neither manual nor spline, a success toast exactly when the engine succeeded |
| AnalysisTab.UpdateOnlyTouchesRegression | src/components/tabs/AnalysisTab.tsx:62-65 | merging the update changes only the regression record and the fitted points of the series |
| AnalysisTab.RegressionChangeReset | src/components/tabs/AnalysisTab.tsx:68-86 | a change of type, order or forceOrigin resets to auto mode without sliders; re-selecting the same three keeps the record; colour, width, style and control points are always kept |
| AnalysisTab.SeedRange | src/components/tabs/AnalysisTab.tsx:100 | the slider half-range is positive (2·\|v\|, or 10 when v = 0) |
| AnalysisTab.SeedWithinRange | src/components/tabs/AnalysisTab.tsx:98-106 | seeded sliders cover exactly the automatic keys, start at the automatic value, are centred in their range and lie strictly inside it |
| AnalysisTab.ModeChangeSliders | src/components/tabs/AnalysisTab.tsx:88-111 | only mode and sliders change; existing sliders are kept in both directions; switching to manual without sliders seeds them from the automatic fit |
| AnalysisTab.ParamChangeOnly | src/components/tabs/AnalysisTab.tsx:113-117 | a slider edit sets exactly one key; every other slider and field is unchanged and no toast is raised |
| PlotArea.FirstIndexOf | src/components/PlotArea.tsx:228 | findIndex of a present point returns its first occurrence |
| PlotArea.RemoveAt | src/components/PlotArea.tsx:208-209 | splice(i, 1) removes the point at i and keeps the others in order |
| PlotArea.RemoveAtMultiset | src/components/PlotArea.tsx:208-209 | removal takes exactly that one point out of the collection |
| PlotArea.WithPointAdds | src/components/PlotArea.tsx:218-229 | adding a point grows the list by one, is the old points plus the new one, is sorted by x, and the index then dragged holds the new point |
| PlotArea.MovedReplaces | src/components/PlotArea.tsx:289-291 | dragging keeps the length, replaces exactly the dragged point by the new one and re-sorts by x |
| PlotArea.FitTolerance | src/components/PlotArea.tsx:353-357 | the tolerance is positive, and equals 1 exactly when xRange/50 is 0 or 1 |
| PlotArea.SegmentCurve | src/components/PlotArea.tsx:362-383 | each segment contributes 21 samples |
| PlotArea.BezierLength | src/components/PlotArea.tsx:360-384 | the resampled stroke has 21 points per segment, segment k occupying 21k..21k+20 |
| PlotArea.SegmentEndpoints | src/components/PlotArea.tsx:366-381 | a linear, quadratic or cubic segment starts at its first and ends at its last control point |
| PlotArea.OddSegment | src/components/PlotArea.tsx:362-383 | a segment of any other length samples only (0, 0) |
| PlotArea.LinearSegmentBetween | src/components/PlotArea.tsx:376-379 | the samples of a linear segment lie between its end points |
| PlotArea.SampleSegments | src/components/PlotArea.tsx:360-384 | the nested loops produce exactly BezierSamples |
| PlotArea.PlotEditor.constructor | src/components/PlotArea.tsx:34-52 | the editor starts with the series' control points and curve, nothing dragged, not drawing |
| PlotArea.PlotEditor.UpdateManualPoints | src/components/PlotArea.tsx:250-264 | stores the control points and redraws the manual spline through them; nothing else changes |
| PlotArea.PlotEditor.EditPress | src/components/PlotArea.tsx:190-241 | the first click starts a one-point list dragged at 0; right click on a hit removes it, elsewhere nothing; a click on a hit drags it; elsewhere adds the point sorted and drags it |
| PlotArea.PlotEditor.DrawPress | src/components/PlotArea.tsx:244-247 | in draw mode a new stroke starts empty; outside it nothing changes |
| PlotArea.PlotEditor.DragTo | src/components/PlotArea.tsx:283-320 | while dragging, the dragged point follows the pointer and the list is re-sorted and redrawn |
| PlotArea.PlotEditor.DrawTo | src/components/PlotArea.tsx:321-329 | while drawing in draw mode the stroke grows by the pointer's point |
| PlotArea.PlotEditor.Release | src/components/PlotArea.tsx:331-345 | a drag ends; otherwise a stroke in progress ends and is fitted and resampled, the previous resampling staying when the fit throws |
| PlotArea.PlotEditor.ProcessBezier | src/components/PlotArea.tsx:348-389 | nothing for fewer than two drawn points; otherwise the resampled fit at tolerance FitTolerance, or the previous resampling when the fit throws |
| PlotArea.PlotEditor.SaveDrawnCurve | src/components/PlotArea.tsx:391-398 | a non-empty resampling becomes a "Drawn Curve" series, clears the stroke and ends draw mode; an empty one changes nothing |
| Project.Restore | src/contexts/ProjectContext.tsx:106-115 | running a snapshot's closure leaves both stacks and the transaction start unchanged |
| Project.RecordAction | src/contexts/ProjectContext.tsx:106-115 | appends exactly the new action to history and empties future; the values are untouched |
| Project.UndoMoves | src/contexts/ProjectContext.tsx:154-166 | no-op on an empty history; otherwise pops the last action, restores its "before" value and puts it in front of future; keeps the total and coherence |
| Project.RedoMoves | src/contexts/ProjectContext.tsx:168-180 | no-op on an empty future; otherwise shifts the first action, applies its "after" value and appends it to history |
| Project.RestoreBack | src/contexts/ProjectContext.tsx:106-115 | the two closures of an action undo each other |
| Project.UndoThenRedo | src/contexts/ProjectContext.tsx:154-180 | undo then redo restores both stacks, and the state when it still shows the last action's result |
| Project.RedoThenUndo | src/contexts/ProjectContext.tsx:154-180 | redo then undo restores both stacks, and the state when it shows the action's "before" value |
| Project.CommitOutcome | src/contexts/ProjectContext.tsx:124-152 | the start is always cleared and the values kept; no start means no change; no change since the start records nothing; otherwise one action leads back to the start |
| Project.EmptyTransaction | src/contexts/ProjectContext.tsx:117-152 | starting then committing with nothing done in between records nothing |
| Project.Find | src/contexts/ProjectContext.tsx:197 | find returns the first series with that id, and None exactly when no series has it |
| Project.ReplaceId | src/contexts/ProjectContext.tsx:201 | map replaces exactly the series with that id, keeping length and order |
| Project.WithoutId | src/contexts/ProjectContext.tsx:219 | filter keeps exactly the series whose id differs; their order is given by WithoutIdAppend |
| Project.WithoutIdAppend | src/contexts/ProjectContext.tsx:219 | filtering distributes over concatenation: the remaining series keep their order, once each |
| Project.WithoutAbsent | src/contexts/ProjectContext.tsx:219 | filtering an id nobody has keeps the list |
| Project.WithoutCount | src/contexts/ProjectContext.tsx:219 | filtering removes exactly as many series as carry the id |
| Project.CountPositive | src/contexts/ProjectContext.tsx:216-219 | a present id is carried by at least one series |
| Project.OperationsCoherent | src/contexts/ProjectContext.tsx:106-277 | every store operation (add, update, remove and set series, view mode, plot settings, commit, start of a transaction, undo and redo) keeps every recorded action's two closures on the same part of the state |
| Project.AddSeriesEffect | src/contexts/ProjectContext.tsx:182-194 | appends exactly the new series and one action whose undo gives back the old list |
| Project.UpdateSeriesEffect | src/contexts/ProjectContext.tsx:196-213 | unknown id: no change; otherwise the matching series become the merge, others stay in place, history grows by one unless skipHistory |
| Project.RemoveSeriesEffect | src/contexts/ProjectContext.tsx:215-229 | unknown id: no change and no entry; otherwise exactly the matching series go, the others keep their order, and one action undoes it |
| Project.NoOpUpdates | src/contexts/ProjectContext.tsx:242-266 | re-selecting the view mode, or a settings update giving equal settings, changes nothing; otherwise the settings are updated and recorded unless skipHistory |
| ProjectStore.Store.constructor | src/contexts/ProjectContext.tsx:46-78 | the store starts with no series, DEFAULT_PLOT_SETTINGS, auto view and empty stacks |
| ProjectStore.Store.RecordAction | src/contexts/ProjectContext.tsx:106-115 | the new state is Project.RecordAction of the old |
| ProjectStore.Store.Apply | src/contexts/ProjectContext.tsx:91-104 | the new state is Project.Restore of the old with that snapshot |
| ProjectStore.Store.Undo | src/contexts/ProjectContext.tsx:154-166 | the new state is Project.Undo of the old |
| ProjectStore.Store.Redo | src/contexts/ProjectContext.tsx:168-180 | the new state is Project.Redo of the old |
| ProjectStore.Store.StartTransaction | src/contexts/ProjectContext.tsx:117-122 | the new state is Project.StartTransaction of the old |
| ProjectStore.Store.CommitTransaction | src/contexts/ProjectContext.tsx:124-152 | the new state is Project.CommitTransaction of the old |
| ProjectStore.Store.AddSeries | src/contexts/ProjectContext.tsx:182-194 | the new state is Project.AddSeries of the old |
| ProjectStore.Store.UpdateSeries | src/contexts/ProjectContext.tsx:196-213 | the new state is Project.UpdateSeries of the old |
| ProjectStore.Store.RemoveSeries | src/contexts/ProjectContext.tsx:215-229 | the new state is Project.RemoveSeries of the old |
| ProjectStore.Store.SetSeries | src/contexts/ProjectContext.tsx:231-240 | the new state is Project.SetSeries of the old |
| ProjectStore.Store.SetViewMode | src/contexts/ProjectContext.tsx:242-253 | the new state is Project.SetViewMode of the old |
| ProjectStore.Store.UpdatePlotSettings | src/contexts/ProjectContext.tsx:255-277 | the new state is Project.UpdatePlotSettings of the old |
| Notifications.Without | src/contexts/NotificationContext.tsx:45-50 | filter keeps exactly the entries whose id differs |
| Notifications.FindId | src/contexts/NotificationContext.tsx:40 | find returns the first entry with that id, None exactly when there is none |
| Notifications.MarkRead | src/contexts/NotificationContext.tsx:58 | sets read on exactly the entries with that id |
| Notifications.UnreadCount | src/contexts/NotificationContext.tsx:64 | the unread count never exceeds the list length |
| Notifications.WithoutAppend | src/contexts/NotificationContext.tsx:50 | filtering keeps the remaining entries in order |
| Notifications.WithoutCount | src/contexts/NotificationContext.tsx:50 | filtering removes exactly the entries with that id |
| Notifications.WithoutAbsent | src/contexts/NotificationContext.tsx:50 | filtering an id nobody has keeps the list |
| Notifications.MarkReadIdempotent | src/contexts/NotificationContext.tsx:57-59 | marking twice equals marking once |
| Notifications.MarkReadUnread | src/contexts/NotificationContext.tsx:57-64 | marking lowers the unread count by exactly the unread entries with that id, never raising it |
| Notifications.WithoutUnread | src/contexts/NotificationContext.tsx:49-51 | removal never raises the unread count |
| Notifications.PrependUnread | src/contexts/NotificationContext.tsx:43 | prepending adds one to the unread count exactly when the entry is unread |
| Notifications.NotificationCenter.constructor | src/contexts/NotificationContext.tsx:22-24 | both lists start empty and the panel closed |
| Notifications.NotificationCenter.Unread | src/contexts/NotificationContext.tsx:64 | the unread count never exceeds the history length |
| Notifications.NotificationCenter.AddNotification | src/contexts/NotificationContext.tsx:26-36 | prepends one unread toast; the history and panel are unchanged |
| Notifications.NotificationCenter.DismissToast | src/contexts/NotificationContext.tsx:38-47 | removes every toast with the id; the first of them goes in front of the history exactly when it existed and saveToHistory is set |
| Notifications.NotificationCenter.RemoveNotification | src/contexts/NotificationContext.tsx:49-51 | removes exactly the matching history entries; toasts untouched |
| Notifications.NotificationCenter.ClearAll | src/contexts/NotificationContext.tsx:53-55 | empties the history and leaves toasts alone |
| Notifications.NotificationCenter.MarkAsRead | src/contexts/NotificationContext.tsx:57-59 | marks the matching entries read and never raises the unread count |
| Notifications.NotificationCenter.TogglePanel | src/contexts/NotificationContext.tsx:61 | flips the panel flag |
| Notifications.NotificationCenter.ClosePanel | src/contexts/NotificationContext.tsx:62 | closes the panel |
| Utils.ParseColumn | src/utils.ts:72-79 | the loop returns the base-26 letter value minus one |
| Utils.ColumnExamples | src/utils.ts:72-79 | "A" is 0, "Z" is 25 and "AA" is 26 |
| Utils.ColumnAppend | src/utils.ts:72-79 | appending a letter c to s gives 26·(parseColumn(s) + 1) + (c − 'A') |
| Utils.ColumnPositive | src/utils.ts:72-79 | a non-empty run of capitals names a column index of at least 0 |
| Utils.ColumnInjective | src/utils.ts:72-79 | different capital strings name different columns |
| Utils.MatchRange | src/utils.ts:84-86 | a match yields four well-formed groups whose concatenation is the input |
| Utils.Upper | src/utils.ts:84 | toUpperCase keeps the length and maps every character on its own |
| Utils.LetterRun | src/utils.ts:84 | `[A-Z]+` takes the longest run of capitals |
| Utils.DigitRun | src/utils.ts:84 | `[0-9]+` takes the longest run of digits |
| Utils.MatchRangeComplete | src/utils.ts:84-86 | every string of the form A1:B2 is matched with exactly its four groups |
| Utils.ParseCellRange | src/utils.ts:81-102 | a parsed range has rowStart ≤ rowEnd |
| Utils.ParseCellRangeNeedsForm | src/utils.ts:81-87 | only inputs whose upper-case form matches the pattern parse |
| Utils.ParseJoined | src/utils.ts:81-102 | parsing a well-formed range gives the range its groups describe |
| Utils.UpperOfJoined | src/utils.ts:84 | a well-formed range is already upper case |
| Utils.RangeOf | src/utils.ts:88-101 | a range read from the groups has rowStart ≤ rowEnd |
| Utils.RangeOfCases | src/utils.ts:88-101 | different columns give null; one column gives its index and the smaller and larger row, 0-based |
| Utils.RangeOfSymmetric | src/utils.ts:88-101 | writing the two ends the other way round gives the same range |
| Utils.ToHex | src/utils.ts:52 | toString(16) has one digit below 16 and one more digit per factor 16 |
| Utils.SeriesColor | src/utils.ts:52 | the random colour is '#' followed by six hex digits |
| Utils.PadStart | src/utils.ts:55 | padStart gives the longer of the string and the target length |
| Utils.CreateSeries | src/utils.ts:45-70 | a visible series with the given id and data, no fit, auto mode, no points; an empty name becomes "Series n+1" |
| Utils.ParseHexPair | src/utils.ts:119-125 | parseInt(…, 16) of two characters after skipping whitespace and a sign: two hex digits give 16·h0 + h1, a digit then a non-digit gives the digit (except "0x", which is NaN), and the value lies in (-16, 256) |
| Utils.ParseHexPairExamples | src/utils.ts:119-125 | " f" and "+f" give 15, "-f" gives -15, "-0" gives 0, "0x" is NaN, "fg" gives 15 |
| Utils.NegativeZeroBackground | src/utils.ts:116-125 | "#-0-0-0" is read as black, since -0 === 0 |
| Utils.BackgroundOf | src/utils.ts:113-127 | "#rrggbb" gives the three byte values, "#rgb" each digit doubled, anything else white |
| Utils.RowHasContent | src/utils.ts:143-149 | the inner row scan finds content exactly when the row is not all background |
| Utils.PixelInRange | src/utils.ts:129-135 | the four bytes of a pixel inside the image lie inside its data array |
| Utils.ColHasContent | src/utils.ts:171-177 | the inner column scan finds content exactly when the column is not all background between the rows |
| Utils.TopRow | src/utils.ts:142-154 | rows above top are background; with content, top is the first content row, otherwise 0 |
| Utils.BottomRow | src/utils.ts:156-168 | rows from bottom on are background; with content, bottom − 1 is the last content row, otherwise the height |
| Utils.LeftColumn | src/utils.ts:170-182 | columns left of left are background within the rows kept; otherwise the first content column |
| Utils.RightColumn | src/utils.ts:184-196 | columns from right on are background within the rows kept; otherwise one past the last content column |
| Utils.ContentBox | src/utils.ts:137-196 | the box encloses every non-background pixel, its four edges touch content, and an all-background image keeps the full box |
| Utils.Crop | src/utils.ts:198-208 | a padded crop lies inside the image and contains the content box; the original canvas is returned exactly for a zero width or height |
| Utils.TrimCanvas | src/utils.ts:104-208 | the result is the crop of a box enclosing all content under the parsed background colour whose four edges touch content whenever there is any; an all-background image gives the full-image crop |
| Utils.TightBoxUnique | src/utils.ts:137-196 | at most one box encloses the content with every edge touching it, so the four scans fix the crop |
| DataTab.PairOf | src/components/tabs/DataTab.tsx:198-203 | a line gives a point only from its first two tokens, when there are two and both parse |
| DataTab.PairsData | src/components/tabs/DataTab.tsx:197-204 | at most one point per line |
| DataTab.PairsDataAppend | src/components/tabs/DataTab.tsx:197-204 | each line is read on its own: the points of two blocks are those of each, in order |
| DataTab.ParsePairs | src/components/tabs/DataTab.tsx:193-204 | the loop returns exactly PairsData of the trimmed, split text |
| DataTab.Numbers | src/components/tabs/DataTab.tsx:208-215 | one parsed value per token |
| DataTab.Zip | src/components/tabs/DataTab.tsx:216-221 | at most n pairs |
| DataTab.ZipAllNumbers | src/components/tabs/DataTab.tsx:216-221 | when every value parses, pair i is (xs[i], ys[i]) for every i < n |
| DataTab.ListsData | src/components/tabs/DataTab.tsx:205-223 | fewer than two lines give no points |
| DataTab.ListsDataFirstTwo | src/components/tabs/DataTab.tsx:207-215 | only the first two lines matter |
| DataTab.ParseLists | src/components/tabs/DataTab.tsx:205-223 | the loop returns exactly ListsData of the lines |
| DataTab.PointLineShape | src/components/tabs/DataTab.tsx:59 | when both coordinates print back, a point's editor line has no outer spaces or newline and parses back to the point |
| DataTab.PairsOfPointLines | src/components/tabs/DataTab.tsx:59-75 | when every coordinate prints back, every point line gives back its own point |
| DataTab.JoinTrimmed | src/components/tabs/DataTab.tsx:59-66 | joined point lines begin and end with non-space characters, so trimming keeps them |
| DataTab.EditRoundTrip | src/components/tabs/DataTab.tsx:57-76 | when every coordinate of the data prints back, parsing the editor text of that data gives back that data |
| DataTab.LastSegment | src/components/tabs/DataTab.tsx:45 | the text after the last '/' or '\\', a separator-free suffix |
| DataTab.FileNameOfPath | src/components/tabs/DataTab.tsx:43-47 | a path shows its file name after either separator; a path ending in a separator shows whole |
| DataTab.DataTabState.constructor | src/components/tabs/DataTab.tsx:36-41 | nothing edited, empty boxes, pairs format |
| DataTab.DataTabState.RemoveSeries | src/components/tabs/DataTab.tsx:49-55 | the list without that id; the editor is closed exactly when it held that series |
| DataTab.DataTabState.StartEditing | src/components/tabs/DataTab.tsx:57-61 | the editor holds the series id and its serialised points |
| DataTab.DataTabState.SaveEdit | src/components/tabs/DataTab.tsx:63-80 | no editing id: nothing; otherwise the parsed points go to that id and the editor closes |
| DataTab.DataTabState.LoadManual | src/components/tabs/DataTab.tsx:192-226 | "Manual Data" with the points of the chosen format; the input box is cleared |
| DataTab.EditThenSave | src/components/tabs/DataTab.tsx:57-80 | opening a series whose coordinates print back and saving unchanged hands back exactly its own points |
| Presets.Normalize | src/components/layout/GlobalSettingsModal.tsx:63-75 | empty slots are dropped, every filled slot kept, and isStartup holds exactly for the stored startup id; their order is given by NormalizeAppend |
| Presets.NormalizeAppend | src/components/layout/GlobalSettingsModal.tsx:63-75 | loading distributes over concatenation: filled slots keep their stored order, once each |
| Presets.FirstStartup | src/components/layout/GlobalSettingsModal.tsx:88-93 | the startup key names the id of the first startup preset, and is removed exactly when none is |
| Presets.Stored | src/components/layout/GlobalSettingsModal.tsx:85 | every preset is written with its id, name and settings |
| Presets.NormalizeStored | src/components/layout/GlobalSettingsModal.tsx:63-85 | reading back a saved list whose flags match the startup id gives that list |
| Presets.LoadSaved | src/components/layout/GlobalSettingsModal.tsx:58-94 | with distinct ids and at most one startup preset, whose id is a whole number, loading what was saved gives the same presets back |
| Presets.ParseIntOfId | src/components/layout/GlobalSettingsModal.tsx:61 | the startup id read back is the id truncated toward zero, a whole number within 1 of it, and a whole-number id comes back unchanged |
| Presets.FractionalStartupLost | src/components/layout/GlobalSettingsModal.tsx:61-90 | a startup preset with id 0.5 is reloaded without its startup flag |
| Presets.ImportedPresets | src/components/layout/GlobalSettingsModal.tsx:207-216 | the imported presets number at most the entries, none is the startup one, and every entry with settings appears with its fresh id and its name or "Imported"; ImportedFromEntries and ImportedPresetsAppend give the converse and the order |
| Presets.ImportedFromEntries | src/components/layout/GlobalSettingsModal.tsx:209-216 | every imported preset is made from an entry with settings, with that entry's id |
| Presets.ImportedPresetsAppend | src/components/layout/GlobalSettingsModal.tsx:209-216 | the import distributes over concatenation: presets come in the order of their entries, once each |
| Presets.FirstStartupAppend | src/components/layout/GlobalSettingsModal.tsx:88-93 | appending presets without the startup flag leaves the startup key unchanged |
| Presets.PresetManager.ImportArray | src/components/layout/GlobalSettingsModal.tsx:207-219 | unconfirmed: nothing; confirmed: the imported presets are appended and stored, and the startup key stays the same; a well-formed list stays well formed when the ids are fresh and distinct |
| Presets.WithSettings | src/components/layout/GlobalSettingsModal.tsx:114-119 | only the presets with that id get the new settings |
| Presets.Renamed | src/components/layout/GlobalSettingsModal.tsx:136-139 | only the presets with that id get the new name |
| Presets.WithStartup | src/components/layout/GlobalSettingsModal.tsx:144-147 | every preset's flag becomes "is the chosen id and the flag is set" |
| Presets.WithoutPreset | src/components/layout/GlobalSettingsModal.tsx:127 | exactly the presets with a different id remain; their order is given by WithoutPresetAppend |
| Presets.WithoutPresetAppend | src/components/layout/GlobalSettingsModal.tsx:127 | filtering distributes over concatenation: the remaining presets keep their order, once each |
| Presets.SetStartupEffect | src/components/layout/GlobalSettingsModal.tsx:143-149 | only the chosen id can be flagged and it carries the requested flag; with distinct ids at most one preset is startup and the key names it |
| Presets.RenameOnly | src/components/layout/GlobalSettingsModal.tsx:135-141 | renaming changes only the name of the matching presets and not the startup key |
| Presets.RenamedFirstStartup | src/components/layout/GlobalSettingsModal.tsx:88-93 | renaming never changes which preset is the first startup one |
| Presets.PresetManager.constructor | src/components/layout/GlobalSettingsModal.tsx:48-55 | no presets, no active id, the current settings in the form; the empty list is well formed |
| Presets.PresetManager.Load | src/components/layout/GlobalSettingsModal.tsx:58-80 | a readable stored list becomes its normalised form, flagged by the startup key read back through parseInt, and is well formed when the stored ids are distinct; otherwise nothing changes |
| Presets.PresetManager.Save | src/components/layout/GlobalSettingsModal.tsx:83-94 | the list is stored and the startup key names its first startup preset |
| Presets.PresetManager.AddPreset | src/components/layout/GlobalSettingsModal.tsx:98-110 | appends one "New Preset" with the form settings, not startup, selected, form clean; a well-formed list stays well formed when the Date.now() id is new |
| Presets.PresetManager.UpdateActivePreset | src/components/layout/GlobalSettingsModal.tsx:112-122 | no active id: nothing; otherwise only that preset takes the form settings; well-formedness is kept in both directions |
| Presets.PresetManager.DeletePreset | src/components/layout/GlobalSettingsModal.tsx:124-133 | unconfirmed: nothing; confirmed: the preset goes and the active id clears if it named it; a well-formed list stays well formed |
| Presets.PresetManager.RenamePreset | src/components/layout/GlobalSettingsModal.tsx:135-141 | the list is Renamed and stored; well-formedness is kept in both directions |
| Presets.PresetManager.SetStartup | src/components/layout/GlobalSettingsModal.tsx:143-149 | the list is WithStartup and stored; with distinct ids the result is well formed |
| Presets.PresetManager.FinalizeImport | src/components/layout/GlobalSettingsModal.tsx:239-267 | nothing pending: nothing; overwrite with an active id replaces that preset's settings; otherwise one "Imported Preset" is appended and selected; the import is cleared; a well-formed list stays well formed when the new id is fresh |
| Presets.AppendWellFormed | src/components/layout/GlobalSettingsModal.tsx:98-110 | appending flag-free presets with ids new to the list gives a well-formed list exactly when the list was well formed and the new ids are distinct |
| Presets.ConsWellFormed | src/components/layout/GlobalSettingsModal.tsx:63-75 | a preset with a new id and no second startup flag put in front of a well-formed list keeps it well formed |
| Presets.NormalizeWellFormed | src/components/layout/GlobalSettingsModal.tsx:63-75 | loading a stored list with distinct ids gives distinct ids and at most one startup preset, whatever the startup key |
| Presets.WithoutPresetWellFormed | src/components/layout/GlobalSettingsModal.tsx:127 | deleting from a well-formed list keeps it well formed and leaves no preset with that id |
| Presets.WithSettingsWellFormed | src/components/layout/GlobalSettingsModal.tsx:114-119 | replacing settings keeps a list well formed, and a list that was not stays not |
| Presets.RenamedWellFormed | src/components/layout/GlobalSettingsModal.tsx:136-139 | renaming keeps a list well formed, and a list that was not stays not |
| Presets.ImportedIds | src/components/layout/GlobalSettingsModal.tsx:209-216 | with pairwise distinct fresh ids the imported presets have distinct ids, each one of the given ids |
| Presets.ImportWellFormed | src/components/layout/GlobalSettingsModal.tsx:207-217 | appending imported presets with ids fresh for the list and pairwise distinct keeps a well-formed list well formed |
| Presets.PresetManager.StageImport | src/components/layout/GlobalSettingsModal.tsx:220-228 | a single imported object waits as the pending import: a preset's settings, or the object itself as settings; nothing else changes |
| Presets.PresetManager.CancelImport | src/components/layout/GlobalSettingsModal.tsx:384-389 | the pending import is dropped and nothing else changes |
| Excel.U32 | src-tauri/src/lib.rs:58-59 | the u32 cast is the identity below 2^32 and stays below it |
| Excel.RowCount | src-tauri/src/lib.rs:53-54 | end − start + 1 when end ≥ start, else 0 |
| Excel.CellValue | src-tauri/src/lib.rs:61-73 | floats as they are, integers cast, strings parsed, anything else fails |
| Excel.Points | src-tauri/src/lib.rs:57-78 | at most one point per pair examined |
| Excel.ReadExcel | src-tauri/src/lib.rs:51-80 | the loop returns exactly Points of the min(x_count, y_count) pairs, so never more than either count |
| Excel.AllPairsConvert | src-tauri/src/lib.rs:57-78 | when every pair converts, point i is pair i, in row order |
| Excel.PointsFromPairs | src-tauri/src/lib.rs:57-78 | every point comes from a pair whose cells both convert |
| Excel.PointsPrefix | src-tauri/src/lib.rs:57-78 | points appear in increasing pair index: fewer pairs give a prefix |
| Excel.PairReadsRows | src-tauri/src/lib.rs:58-77 | pair i reads row x_row_start+i of the x column and row y_row_start+i of the y column, and converts exactly when both cells exist and convert |
| Resolution.Round | src/components/plot/ResolutionControl.tsx:53 | Math.round: the nearest integer, halves up |
| Resolution.Snap | src/components/plot/ResolutionControl.tsx:50-58 | the number box always emits a scale in [0.1, 10], and exactly 0.1 for input within 0.01 of it |
| Resolution.OnInput | src/components/plot/ResolutionControl.tsx:48-60 | undefined input emits nothing |
| Resolution.SnapOnGrid | src/components/plot/ResolutionControl.tsx:48-58 | every emitted scale is in [0.1, 10] and is 0.1 or a multiple of 0.5 |
| Resolution.SnapPreview | src/components/plot/ResolutionControl.tsx:50-51 | input within 0.01 of 0.1 becomes exactly 0.1 |
| Resolution.SnapNearest | src/components/plot/ResolutionControl.tsx:52-55 | other input in [0.5, 10] goes to the nearest half, a tie going up as Math.round does |
| Resolution.SnapLow | src/components/plot/ResolutionControl.tsx:52-56 | other input below 0.75, which rounds below 0.5, becomes 0.5 |
| Resolution.SnapIdempotent | src/components/plot/ResolutionControl.tsx:48-58 | snapping a snapped value changes nothing |
| Resolution.Toggle | src/components/plot/ResolutionControl.tsx:31 | the button always emits a grid scale |
| Resolution.ToggleTwice | src/components/plot/ResolutionControl.tsx:31 | the button switches between 0.1 and 0.5 and back |
| Resolution.InputBounds | src/components/plot/ResolutionControl.tsx:61-62 | min and step are (0.1, 0.4) at 0.1 and (0.5, 0.5) otherwise: the min is on the grid and never above a grid scale |
| Resolution.StepFromMinimum | src/components/plot/ResolutionControl.tsx:61-62 | one step from the min lands on the 0.5 grid |
| ExportModal.SavedFlag | src/components/plot/ExportModal.tsx:25-35 | an absent or empty entry gives the default, otherwise "true" exactly |
| ExportModal.ExportDialog.constructor | src/components/plot/ExportModal.tsx:21-40 | saved preferences or the defaults png, global scale, opaque, 0.9; custom scale 2 |
| ExportModal.ExportDialog.Options | src/components/plot/ExportModal.tsx:63-69 | global scale when asked, custom otherwise; no transparency for jpg; quality 1.0 for png |
| ExportModal.ExportDialog.SyncScale | src/components/plot/ExportModal.tsx:53-59 | while open and using the global scale, the custom scale follows it; nothing else changes |
| ExportModal.ExportDialog.ToggleLowResolution | src/components/plot/ExportModal.tsx:161 | the 0.1x button toggles the custom scale between 0.1 and 0.5 |
| ExportModal.ExportDialog.TypeScale | src/components/plot/ExportModal.tsx:178-191 | the number box applies the same snap and [0.1, 10] clamp as the resolution control |
| MenuBar.MenuState.ToggleMenu | src/components/layout/MenuBar.tsx:53-55 | the open menu's title closes it, any other opens that menu |
| MenuBar.MenuState.constructor | src/components/layout/MenuBar.tsx:29 | no menu is open at first |
| MenuBar.MenuState.MouseEnter | src/components/layout/MenuBar.tsx:57-61 | hovering switches menus only while one is open |
| MenuBar.MenuState.Choose | src/components/layout/MenuBar.tsx:63-66 | an option runs exactly when enabled (Save needs a saved path, Undo/Redo something to undo/redo) and then closes the menu |
| MenuBar.Enabled | src/components/layout/MenuBar.tsx:96-127 | an option is enabled unless it is Save without a saved path, Undo with nothing to undo or Redo with nothing to redo |
| MenuBar.MenuState.Dismiss | src/components/layout/MenuBar.tsx:33-51 | an outside click or window blur closes the menu |
| MenuBar.ToTenth | src/components/layout/MenuBar.tsx:70 | toFixed(1): within half a tenth, and on a tenth |
| MenuBar.Zoom | src/components/layout/MenuBar.tsx:68-71 | the zoom lies in [0.5, 2.0] and on a tenth |
| MenuBar.ZoomSteady | src/components/layout/MenuBar.tsx:68-71 | an in-range tenth is unchanged by a zero step |
| MenuBar.ZoomStep | src/components/layout/MenuBar.tsx:68-71 | ±0.1 moves exactly one tenth unless the limit is reached |
| Text.NatToString | src/utils.ts:47 | the printed counter is non-empty and all decimal digits; DigitsValueOfNatToString reads it back as n |
| Text.NatToStringInjective | src/utils.ts:47 | different numbers print differently, so default series names differ |
| Text.DigitsValueOfNatToString | src/utils.ts:47 | the decimal digits of n read back as n |
| Text.Trim | src/components/tabs/DataTab.tsx:66 | trim never lengthens the text, and a non-empty result starts and ends with a non-space |
| Text.TrimUnchanged | src/components/tabs/DataTab.tsx:66 | a line with no outer spaces is its own trim |
| Text.SplitOn | src/components/tabs/DataTab.tsx:66 | split always yields at least one piece |
| Text.Tokens | src/components/tabs/DataTab.tsx:69 | splitting on runs of spaces and commas always yields at least one piece |
| Text.SplitOnJoin | src/components/tabs/DataTab.tsx:66 | splitting a join of separator-free lines gives the lines back |
| Text.TokensOfPair | src/components/tabs/DataTab.tsx:69 | two words separated by a space split into exactly those two tokens |

## Left out

- The transcendental fits are not modelled beyond their dispatch: exponential, logarithmic, power, square root, sine and negative exponential (src/regressionHelper.ts:116-204). `Math.log`, `exp`, `sqrt`, `sin` and `pow` are arbitrary functions in `Externals`, so nothing is proved about the quality of those fits.
- The grid search `fitNegativeExponential` is an `Externals` function. Its result is taken as given.
- The unconstrained polynomial fit of the `regression` package is an `Externals` function. Its coefficients are taken as given.
- Bézier fitting by `fit-curve` is a parameter of `PlotArea.PlotEditor.Release` and `PlotArea.PlotEditor.ProcessBezier`.
- `formatEquation` and the `equation` text of a result are not modelled. They are `toExponential` formatting only.
- NaN and ±Infinity are collapsed into one `NonFinite` value. Arithmetic is exact, so rounding, overflow and the accumulated error of `x += step` and `t += 1/20` are not modelled. The loops run on integer counters (k/20, xMin + k·step), which is what they compute over exact numbers.
- Gaussian.SolveGaussian stops at the first zero pivot and returns None. The source divides by zero and carries NaN onward. As a result a forced-origin polynomial with singular normal equations gives the empty record here. The source gives a record of NaN coefficients. Both paths end in a failed result, but this one fails with "Could not calculate parameters" where the source fails with "Calculation resulted in invalid values".
- Regression.MseMeaning: the "exact fit" direction is stated over the finitely predicted points, because non-finite predictions are skipped by the source as well.
- Object-spread equality and `JSON.stringify` comparisons are modelled as structural equality of values.
- Undo and redo closures are modelled as snapshots. Each action holds the value before and the value after, and the closure's effect is `Project.Restore`.
- Project save and load, with their JSON and file dialogs (src/contexts/ProjectContext.tsx:279-415), are I/O and are not modelled.
- `localStorage` writes of the export preferences are not modelled.
- The preset store is modelled as two fields of `Presets.PresetManager`. Parsing its JSON is the `Option` given to `Load`.
- Presets.PresetManager.AddPreset: keeps the list well formed only when the `Date.now()` id is new to it. The source does not check this, and two presets made within the same millisecond would share an id.
- Presets.PresetManager.FinalizeImport: keeps the list well formed only when the `Date.now()` id of a new preset is new to it, for the same reason.
- Presets.PresetManager.ImportArray: keeps the list well formed only when the `Date.now() + Math.random()` ids are new to the list and pairwise distinct, which the source does not check.
- Presets.PresetManager.Load: gives a well-formed list only when the stored ids are distinct. The dialog only writes lists it built, but the stored value is not checked on load.
- DEFAULT_PLOT_SETTINGS also sets title and label styles and a `hideSystemLegend` key. These are not fields of `PlotSettings` (src/types.ts:55-77), so `ProjectStore.DefaultPlotSettings` leaves them out.
- CSV import, workbook opening and sheet selection are not modelled (src-tauri/src/lib.rs:16-49). Neither are the canvas capture and the clipboard.
- `read_excel` counts are `nat`. A `usize` overflow of `end - start + 1` is not modelled. The `i64` to `f64` cast is taken as exact.
- Chart.js pixel/value conversion and the hit test (src/components/PlotArea.tsx:199-204) are not modelled. The handlers receive the hit index and the value under the pointer.
- Dataset building, the legend drag, view-scale sync and theming are presentation and are not modelled.
- PlotArea.PlotEditor.EditPress requires that no drag is in progress, as a press always follows a release.
- The effect that resets draw mode when the editing series changes is not modelled.
- Dragging follows the code: the drag handler re-sorts the control points by x on every move (src/components/PlotArea.tsx:291). It does not keep the order until release. The dragged index is kept as it is.
- `parseInt` of a cell-range row is modelled on plain decimal digits. Leading whitespace, signs and `0x` prefixes are not modelled there.
- `parseInt` of the stored startup id is modelled as truncation of the id toward zero (`Presets.ParseIntOfId`). That is its effect on the plain decimal text `toString` writes for ids below 10^21. The exponent notation of larger ids is not modelled.
- Presets.LoadSaved: holds only when the startup preset's id is a whole number. The array import gives its presets the fractional ids `Date.now() + Math.random()` (src/components/layout/GlobalSettingsModal.tsx:212). When such a preset is later marked as the startup one, its id is read back truncated, so it loses the flag on reload (`Presets.FractionalStartupLost`).
- The alert that reports how many presets were imported is not modelled.
- `toUpperCase` is modelled on ASCII letters only.
- A missing 2D context in `trimCanvas` returns the canvas unchanged. That path and the drawing of the cropped image are not modelled. The model returns the crop rectangle.
- Number parsing and printing in the data tab are the abstract pair `DataTab.NumberText`. The round trip is a hypothesis about each printed value (`DataTab.PrintsBack`), required only for the coordinates of the data a lemma speaks of; JavaScript's printing gives it for every finite number, which this model does not prove.
- `Date.now()`, `crypto.randomUUID()`, the random colour and `confirm()` are parameters.
- Timers, debouncing, focus traps and resize observers are not modelled.
- Toast auto-dismissal timers are not modelled.
- The menu's keyboard shortcuts and the platform check are not modelled.
- Pure presentation components are not modelled.

=== FILE: analysis_tab.dfy ===
/**
 * The regression controls of the analysis tab
 * (src/components/tabs/AnalysisTab.tsx): each handler builds a new
 * regression record by object spread, recomputes the fitted points, and
 * hands {regression, regressionPoints} to updateSeries, possibly with a
 * toast about the outcome.
 */
module AnalysisTab {
  import opened Types
  import opened Prediction
  import opened Regression

  /** The toast updateRegression raises: success, or failure with the engine's message. */
  datatype Notice = Approximated | ApproximationFailed(message: string)

  /** The updateSeries call a handler makes, and the toast it raises. */
  datatype AnalysisUpdate = AnalysisUpdate(id: string, patch: SeriesPatch, notice: Option<Notice>)

  /** The slider values, one per key: Object.entries(parameters).forEach(([k, v]) => values[k] = v.value). */
  function ValuesOf(parameters: map<ParamKey, ManualParameter>): (values: Params)
    ensures values.Keys == parameters.Keys
    ensures forall k :: k in values ==> values[k] == parameters[k].value
  {
    map k | k in parameters :: parameters[k].value
  }

  /** The manual parameter values handed to the engine: only in manual mode with sliders present. */
  function ManualValues(regression: RegressionSettings): Option<Params>
  {
    if regression.mode == ManualMode && regression.parameters.Some? then Some(ValuesOf(regression.parameters.value))
    else None
  }

  /** The engine's result for a series under a regression record. */
  ghost function Details(s: Series, regression: RegressionSettings, ext: Externals): RegressionResult
  {
    RegressionDetails(s.data, regression.kind, regression.order, regression.forceOrigin,
                      ManualValues(regression), regression.manualPoints, ext)
  }

  /** The families whose outcome is announced (manual and spline curves are not approximations). */
  predicate Announced(kind: RegressionType)
  {
    kind != NoRegression && kind != Manual && kind != Spline
  }

  /** updateRegression(s, regression, notify) */
  ghost function UpdateRegression(s: Series, regression: RegressionSettings, notify: bool, ext: Externals)
    : AnalysisUpdate
  {
    if regression.kind == NoRegression then AnalysisUpdate(s.id, RegressionPatch(regression, []), None)
    else
      var r := Details(s, regression, ext);
      var notice :=
        if notify && Announced(regression.kind) then
          if r.success then Some(Approximated)
          else Some(ApproximationFailed("Approximation failed for " + s.name + ": "
                                        + (if r.errorMessage.Some? then r.errorMessage.value else "undefined")))
        else None;
      AnalysisUpdate(s.id, RegressionPatch(regression, r.points), notice)
  }

  /**
   * updateRegression stores the record and the engine's points for that
   * series (none for 'none'), passing only the slider values in manual mode;
   * it raises a toast exactly when asked to and the family is announced, a
   * success toast exactly when the engine succeeded.
   */
  lemma UpdateRegressionEffect(s: Series, regression: RegressionSettings, notify: bool, ext: Externals)
    ensures var u := UpdateRegression(s, regression, notify, ext);
      u.id == s.id && u.patch.regression == Some(regression)
      && u.patch == RegressionPatch(regression, u.patch.regressionPoints.value)
      && u.patch.regressionPoints == Some(if regression.kind == NoRegression then [] else Details(s, regression, ext).points)
    ensures var u := UpdateRegression(s, regression, notify, ext);
      (u.notice.Some? <==> notify && Announced(regression.kind))
      && (u.notice == Some(Approximated) <==> notify && Announced(regression.kind) && Details(s, regression, ext).success)
  {
  }

  /** Merging the update into the series replaces its regression record and points and nothing else. */
  lemma UpdateOnlyTouchesRegression(s: Series, regression: RegressionSettings, notify: bool, ext: Externals)
    ensures var u := UpdateRegression(s, regression, notify, ext);
      Merge(s, u.patch) == s.(regression := regression, regressionPoints := u.patch.regressionPoints.value)
  {
  }

  /** handleRegressionChange(s, type, order, forceOrigin) */
  ghost function HandleRegressionChange(s: Series, kind: RegressionType, order: Option<nat>,
                                        forceOrigin: Option<bool>, ext: Externals): AnalysisUpdate
  {
    UpdateRegression(s, ChangedRegression(s.regression, kind, order, forceOrigin), true, ext)
  }

  /** The record handleRegressionChange builds: a structural change resets to automatic mode without sliders. */
  function ChangedRegression(old_: RegressionSettings, kind: RegressionType, order: Option<nat>,
                             forceOrigin: Option<bool>): RegressionSettings
  {
    var reset := kind != old_.kind || order != old_.order || forceOrigin != old_.forceOrigin;
    old_.(kind := kind, order := order, forceOrigin := forceOrigin,
          mode := if reset then AutoMode else old_.mode,
          parameters := if reset then None else old_.parameters)
  }

  /**
   * A change of type, order or forceOrigin resets the fit to automatic mode
   * and drops the sliders; re-selecting the same three values keeps the
   * record exactly as it was. Colour, width, style and control points are
   * always kept.
   */
  lemma RegressionChangeReset(s: Series, kind: RegressionType, order: Option<nat>, forceOrigin: Option<bool>,
                              ext: Externals)
    ensures var r := HandleRegressionChange(s, kind, order, forceOrigin, ext).patch.regression.value;
      r.kind == kind && r.order == order && r.forceOrigin == forceOrigin
      && r.color == s.regression.color && r.width == s.regression.width && r.style == s.regression.style
      && r.manualPoints == s.regression.manualPoints
    ensures var r := HandleRegressionChange(s, kind, order, forceOrigin, ext).patch.regression.value;
      (kind != s.regression.kind || order != s.regression.order || forceOrigin != s.regression.forceOrigin)
      ==> r.mode == AutoMode && r.parameters == None
    ensures var r := HandleRegressionChange(s, kind, order, forceOrigin, ext).patch.regression.value;
      (kind == s.regression.kind && order == s.regression.order && forceOrigin == s.regression.forceOrigin)
      ==> r == s.regression
  {
  }

  /** The slider range for an automatic value v: twice |v|, or 10 when v is 0. */
  function SeedRange(v: real): (r: real)
    ensures r > 0.0
  {
    var a := if v < 0.0 then -v else v;
    if a == 0.0 then 10.0 else a * 2.0
  }

  /** One slider per automatic parameter, centred on its value. */
  function Seed(auto: Params): (sliders: map<ParamKey, ManualParameter>)
  {
    map k | k in auto :: ManualParameter(auto[k], auto[k] - SeedRange(auto[k]), auto[k] + SeedRange(auto[k]))
  }

  /** Seeded sliders cover the automatic keys, start at the automatic value and lie strictly inside their range. */
  lemma SeedWithinRange(auto: Params)
    ensures Seed(auto).Keys == auto.Keys
    ensures forall k :: k in auto ==>
      var p := Seed(auto)[k];
      p.value == auto[k] && p.min < p.value < p.max && p.max - p.value == p.value - p.min
      && (auto[k] == 0.0 ==> p.min == -10.0 && p.max == 10.0)
  {
  }

  /** handleModeChange(s, mode) */
  ghost function HandleModeChange(s: Series, mode: FitMode, ext: Externals): AnalysisUpdate
  {
    var r := s.regression;
    var params :=
      if mode == ManualMode && r.parameters.None? then
        Some(Seed(AutoParameters(s.data, r.kind, r.order, r.forceOrigin, ext)))
      else r.parameters;
    UpdateRegression(s, r.(mode := mode, parameters := params), true, ext)
  }

  /**
   * Switching to manual mode without sliders seeds them from the automatic
   * fit; existing sliders are kept in either direction. Only the mode and
   * the sliders change.
   */
  lemma ModeChangeSliders(s: Series, mode: FitMode, ext: Externals)
    ensures var r := HandleModeChange(s, mode, ext).patch.regression.value;
      r == s.regression.(mode := mode, parameters := r.parameters)
    ensures var r := HandleModeChange(s, mode, ext).patch.regression.value;
      s.regression.parameters.Some? ==> r.parameters == s.regression.parameters
    ensures var r := HandleModeChange(s, mode, ext).patch.regression.value;
      var g := s.regression;
      mode == ManualMode && g.parameters.None? ==>
        r.parameters == Some(Seed(AutoParameters(s.data, g.kind, g.order, g.forceOrigin, ext)))
    ensures var r := HandleModeChange(s, mode, ext).patch.regression.value;
      mode == AutoMode ==> r.parameters == s.regression.parameters
  {
  }

  /** handleParamChange(s, key, newParam) */
  ghost function HandleParamChange(s: Series, key: ParamKey, param: ManualParameter, ext: Externals): AnalysisUpdate
  {
    var old_ := if s.regression.parameters.Some? then s.regression.parameters.value else map[];
    UpdateRegression(s, s.regression.(parameters := Some(old_[key := param])), false, ext)
  }

  /**
   * A slider edit replaces exactly one slider: every other slider and every
   * other field of the record is unchanged, and no toast is raised.
   */
  lemma ParamChangeOnly(s: Series, key: ParamKey, param: ManualParameter, ext: Externals)
    ensures var u := HandleParamChange(s, key, param, ext);
      var r := u.patch.regression.value;
      u.notice.None?
      && r == s.regression.(parameters := r.parameters)
      && r.parameters.Some? && key in r.parameters.value && r.parameters.value[key] == param
      && (forall k :: k != key ==> (k in r.parameters.value <==>
            s.regression.parameters.Some? && k in s.regression.parameters.value))
      && (forall k :: k != key && k in r.parameters.value ==> r.parameters.value[k] == s.regression.parameters.value[k])
  {
  }
}

=== FILE: data_tab.dfy ===
/**
 * The data tab (src/components/tabs/DataTab.tsx): typed-in data in the
 * "pairs" format (one "x y" or "x, y" per line) or the "lists" format (all
 * x values on the first line, all y values on the second), the text editor
 * for a series' points, removal of a series and the file-name label.
 *
 * parseFloat and the printing of a number in a template literal are given
 * as a pair of functions (NumberText); NaN is the parser's None.
 */
module DataTab {
  import opened Types
  import opened Text
  import Project

  /** parseFloat and `${x}`. */
  datatype NumberText = NumberText(show: real -> string, parse: string -> Option<real>)

  /**
   * x prints as a non-empty word without spaces or commas that parses back
   * to x, as JavaScript's shortest round-trip printing does for every finite
   * number.
   */
  predicate PrintsBack(num: NumberText, x: real)
  {
    num.show(x) != [] && NoSeparator(num.show(x)) && num.parse(num.show(x)) == Some(x)
  }

  /** Both coordinates of every point print back. */
  predicate AllPrintBack(num: NumberText, data: seq<DataPoint>)
  {
    forall i :: 0 <= i < |data| ==> PrintsBack(num, data[i].x) && PrintsBack(num, data[i].y)
  }

  // ---------------------------------------------------------------------------
  // "pairs"

  /** One line of the pairs format: the first two tokens, when there are two and both parse. */
  function PairOf(line: string, num: NumberText): (p: Option<DataPoint>)
    ensures p.Some? ==>
      |Tokens(Trim(line))| >= 2
      && num.parse(Tokens(Trim(line))[0]) == Some(p.value.x)
      && num.parse(Tokens(Trim(line))[1]) == Some(p.value.y)
  {
    var parts := Tokens(Trim(line));
    if |parts| >= 2 then
      var x := num.parse(parts[0]);
      var y := num.parse(parts[1]);
      if x.Some? && y.Some? then Some(DataPoint(x.value, y.value)) else None
    else None
  }

  /** The points of a sequence of lines, one at most from each, in line order. */
  function PairsData(lines: seq<string>, num: NumberText): (data: seq<DataPoint>)
    ensures |data| <= |lines|
  {
    if lines == [] then []
    else
      var p := PairOf(lines[|lines| - 1], num);
      PairsData(lines[..|lines| - 1], num) + (if p.Some? then [p.value] else [])
  }

  /** The lines of a text box: `text.trim().split("\n")`. */
  function Lines(text: string): seq<string>
  {
    SplitOn(Trim(text), '\n')
  }

  /** Each line is read on its own: the points of two blocks of lines are the points of each, in order. */
  lemma {:induction false} PairsDataAppend(a: seq<string>, b: seq<string>, num: NumberText)
    ensures PairsData(a + b, num) == PairsData(a, num) + PairsData(b, num)
  {
    if b == [] {
      assert a + b == a;
    } else {
      assert (a + b)[..|a + b| - 1] == a + b[..|b| - 1];
      assert (a + b)[|a + b| - 1] == b[|b| - 1];
      PairsDataAppend(a, b[..|b| - 1], num);
    }
  }

  /** The pairs loop of loadManual and saveEdit: a point pushed for every line that yields one. */
  method ParsePairs(text: string, num: NumberText) returns (data: seq<DataPoint>)
    ensures data == PairsData(Lines(text), num)
  {
    var lines := Lines(text);
    data := [];
    var i := 0;
    while i < |lines|
      invariant 0 <= i <= |lines|
      invariant data == PairsData(lines[..i], num)
    {
      assert lines[..i + 1][..i] == lines[..i];
      var p := PairOf(lines[i], num);
      if p.Some? {
        data := data + [p.value];
      }
      i := i + 1;
    }
    assert lines[..|lines|] == lines;
  }

  // ---------------------------------------------------------------------------
  // "lists"

  /** `line.trim().split(/[\s,]+/).map(parseFloat)` */
  function Numbers(line: string, num: NumberText): (r: seq<Option<real>>)
    ensures |r| == |Tokens(Trim(line))|
  {
    var parts := Tokens(Trim(line));
    seq(|parts|, i requires 0 <= i < |parts| => num.parse(parts[i]))
  }

  /** The pairs (xs[i], ys[i]) for i < n in order, skipping those where either is NaN. */
  function Zip(xs: seq<Option<real>>, ys: seq<Option<real>>, n: nat): (data: seq<DataPoint>)
    requires n <= |xs| && n <= |ys|
    ensures |data| <= n
  {
    if n == 0 then []
    else
      var x := xs[n - 1];
      var y := ys[n - 1];
      Zip(xs, ys, n - 1) + (if x.Some? && y.Some? then [DataPoint(x.value, y.value)] else [])
  }

  function Min(a: nat, b: nat): nat { if a <= b then a else b }

  /** The lists format: nothing with fewer than two lines; otherwise the first two lines zipped. */
  function ListsData(lines: seq<string>, num: NumberText): (data: seq<DataPoint>)
    ensures |lines| < 2 ==> data == []
  {
    if |lines| < 2 then []
    else
      var xs := Numbers(lines[0], num);
      var ys := Numbers(lines[1], num);
      Zip(xs, ys, Min(|xs|, |ys|))
  }

  /** When every value parses, the zip pairs xs[i] with ys[i] for every i < n. */
  lemma {:induction false} ZipAllNumbers(xs: seq<Option<real>>, ys: seq<Option<real>>, n: nat)
    requires n <= |xs| && n <= |ys|
    requires forall i :: 0 <= i < n ==> xs[i].Some? && ys[i].Some?
    ensures |Zip(xs, ys, n)| == n
    ensures forall i :: 0 <= i < n ==> Zip(xs, ys, n)[i] == DataPoint(xs[i].value, ys[i].value)
  {
    if n > 0 {
      ZipAllNumbers(xs, ys, n - 1);
    }
  }

  /** Only the first two lines matter. */
  lemma ListsDataFirstTwo(lines: seq<string>, num: NumberText)
    requires |lines| >= 2
    ensures ListsData(lines, num) == ListsData(lines[..2], num)
  {
  }

  /** The lists loop of loadManual. */
  method ParseLists(text: string, num: NumberText) returns (data: seq<DataPoint>)
    ensures data == ListsData(Lines(text), num)
  {
    var lines := Lines(text);
    data := [];
    if |lines| < 2 {
      return;
    }
    var xs := Numbers(lines[0], num);
    var ys := Numbers(lines[1], num);
    var count := if |xs| <= |ys| then |xs| else |ys|;
    var i := 0;
    while i < count
      invariant 0 <= i <= count
      invariant data == Zip(xs, ys, i)
    {
      if xs[i].Some? && ys[i].Some? {
        data := data + [DataPoint(xs[i].value, ys[i].value)];
      }
      i := i + 1;
    }
  }

  // ---------------------------------------------------------------------------
  // The editor

  /** The editor line of one point: `${p.x} ${p.y}`. */
  function PointLine(p: DataPoint, num: NumberText): string
  {
    num.show(p.x) + " " + num.show(p.y)
  }

  /** startEditing's text: one line per point, joined by newlines. */
  function Serialize(data: seq<DataPoint>, num: NumberText): (text: string)
  {
    JoinWith(seq(|data|, i requires 0 <= i < |data| => PointLine(data[i], num)), '\n')
  }

  lemma PointLineShape(p: DataPoint, num: NumberText)
    requires PrintsBack(num, p.x) && PrintsBack(num, p.y)
    ensures var l := PointLine(p, num);
      l != [] && !IsSpace(l[0]) && !IsSpace(l[|l| - 1]) && Free(l, '\n')
    ensures PairOf(PointLine(p, num), num) == Some(p)
  {
    var u, v := num.show(p.x), num.show(p.y);
    var l := PointLine(p, num);
    assert l[0] == u[0] && l[|l| - 1] == v[|v| - 1];
    assert forall i :: 0 <= i < |l| ==> l[i] == if i < |u| then u[i] else if i == |u| then ' ' else v[i - |u| - 1];
    TrimUnchanged(l);
    TokensOfPair(u, v);
  }

  /** A join of lines that start and end with a non-space character is its own trim. */
  lemma {:induction false} JoinTrimmed(lines: seq<string>)
    requires |lines| >= 1
    requires forall i :: 0 <= i < |lines| ==> lines[i] != [] && !IsSpace(lines[i][0]) && !IsSpace(lines[i][|lines[i]| - 1])
    ensures var t := JoinWith(lines, '\n');
      t != [] && t[0] == lines[0][0] && t[|t| - 1] == lines[|lines| - 1][|lines[|lines| - 1]| - 1]
  {
    if |lines| > 1 {
      JoinTrimmed(lines[1..]);
    }
  }

  /** Every point line yields its own point. */
  lemma {:induction false} PairsOfPointLines(data: seq<DataPoint>, num: NumberText)
    requires AllPrintBack(num, data)
    ensures PairsData(seq(|data|, i requires 0 <= i < |data| => PointLine(data[i], num)), num) == data
  {
    var lines := seq(|data|, i requires 0 <= i < |data| => PointLine(data[i], num));
    if data != [] {
      var front := data[..|data| - 1];
      assert lines[..|lines| - 1] == seq(|front|, i requires 0 <= i < |front| => PointLine(front[i], num));
      PairsOfPointLines(front, num);
      PointLineShape(data[|data| - 1], num);
      assert front + [data[|data| - 1]] == data;
    }
  }

  /**
   * saveEdit of the text startEditing produced gives back the same points,
   * when every coordinate prints back.
   */
  lemma EditRoundTrip(data: seq<DataPoint>, num: NumberText)
    requires AllPrintBack(num, data)
    ensures PairsData(Lines(Serialize(data, num)), num) == data
  {
    var lines := seq(|data|, i requires 0 <= i < |data| => PointLine(data[i], num));
    if data == [] {
      assert Lines(Serialize(data, num)) == [""];
      assert PairsData([""], num) == PairsData([], num) + [];
    } else {
      forall i | 0 <= i < |lines|
        ensures lines[i] != [] && !IsSpace(lines[i][0]) && !IsSpace(lines[i][|lines[i]| - 1]) && Free(lines[i], '\n')
      {
        PointLineShape(data[i], num);
      }
      JoinTrimmed(lines);
      TrimUnchanged(JoinWith(lines, '\n'));
      SplitOnJoin(lines, '\n');
      PairsOfPointLines(data, num);
    }
  }

  // ---------------------------------------------------------------------------
  // The file label

  datatype FileResult = PathResult(path: string) | NamedFile(name: string)

  predicate IsPathSeparator(c: char) { c == '/' || c == '\\' }

  /** `path.split(/[/\\]/).pop()`: the text after the last separator. */
  function LastSegment(path: string): (r: string)
    ensures |r| <= |path| && r == path[|path| - |r|..]
    ensures forall i :: 0 <= i < |r| ==> !IsPathSeparator(r[i])
    ensures |r| < |path| ==> IsPathSeparator(path[|path| - |r| - 1])
  {
    if path == [] || IsPathSeparator(path[|path| - 1]) then ""
    else LastSegment(path[..|path| - 1]) + [path[|path| - 1]]
  }

  /** getFileName: a placeholder for no file (an empty path is falsy too), the name of a picked file, the last segment of a path or the whole path when that is empty. */
  function FileName(file: Option<FileResult>): (shown: string)
  {
    if file.None? then "No file selected"
    else match file.value
      case NamedFile(name) => name
      case PathResult(path) =>
        if path == "" then "No file selected"
        else
          var seg := LastSegment(path);
          if seg == "" then path else seg
  }

  /** The file name after a directory, with either separator, is what the label shows; a path ending in a separator shows whole. */
  lemma {:induction false} FileNameOfPath(dir: string, sep: char, name: string)
    requires IsPathSeparator(sep) && name != []
    requires forall i :: 0 <= i < |name| ==> !IsPathSeparator(name[i])
    ensures FileName(Some(PathResult(dir + [sep] + name))) == name
    ensures FileName(Some(PathResult(dir + [sep]))) == dir + [sep]
  {
    var path := dir + [sep] + name;
    var seg := LastSegment(path);
    assert path[|path| - |name| - 1] == sep;
    assert path[|path| - |name|..] == name;
    assert |seg| == |name|;
  }

  // ---------------------------------------------------------------------------
  // The tab's own state

  datatype ManualFormat = PairsFormat | ListsFormat

  class DataTabState {
    var editingId: Option<string>
    var editData: string
    var manualInput: string
    var manualFormat: ManualFormat

    constructor ()
      ensures editingId == None && editData == "" && manualInput == "" && manualFormat == PairsFormat
    {
      editingId, editData, manualInput, manualFormat := None, "", "", PairsFormat;
    }

    /** removeSeries: the list handed to setSeries, and the editor closed if it held that series. */
    method RemoveSeries(series: seq<Series>, id: string) returns (remaining: seq<Series>)
      modifies this
      ensures remaining == Project.WithoutId(series, id)
      ensures old(editingId) == Some(id) ==> editingId == None && editData == ""
      ensures old(editingId) != Some(id) ==> editingId == old(editingId) && editData == old(editData)
      ensures manualInput == old(manualInput) && manualFormat == old(manualFormat)
    {
      remaining := Project.WithoutId(series, id);
      if editingId == Some(id) {
        editingId, editData := None, "";
      }
    }

    /** startEditing */
    method StartEditing(s: Series, num: NumberText)
      modifies this
      ensures editingId == Some(s.id) && editData == Serialize(s.data, num)
      ensures manualInput == old(manualInput) && manualFormat == old(manualFormat)
    {
      editingId := Some(s.id);
      editData := Serialize(s.data, num);
    }

    /** saveEdit: the updateSeries call it makes, if any; the editor is closed after it. */
    method SaveEdit(num: NumberText) returns (update: Option<(string, seq<DataPoint>)>)
      modifies this
      ensures old(editingId).None? || old(editingId) == Some("") ==>
        update.None? && editingId == old(editingId) && editData == old(editData)
      ensures old(editingId).Some? && old(editingId) != Some("") ==>
        update == Some((old(editingId).value, PairsData(Lines(old(editData)), num)))
        && editingId == None && editData == ""
      ensures manualInput == old(manualInput) && manualFormat == old(manualFormat)
    {
      if editingId.None? || editingId == Some("") {
        return None;
      }
      var data := ParsePairs(editData, num);
      update := Some((editingId.value, data));
      editingId, editData := None, "";
    }

    /** loadManual: the onAddSeries call it makes; the input box is cleared. */
    method LoadManual(num: NumberText) returns (name: string, data: seq<DataPoint>)
      modifies this
      ensures name == "Manual Data"
      ensures data == if old(manualFormat) == PairsFormat then PairsData(Lines(old(manualInput)), num)
                      else ListsData(Lines(old(manualInput)), num)
      ensures manualInput == "" && manualFormat == old(manualFormat)
      ensures editingId == old(editingId) && editData == old(editData)
    {
      if manualFormat == PairsFormat {
        data := ParsePairs(manualInput, num);
      } else {
        data := ParseLists(manualInput, num);
      }
      name := "Manual Data";
      manualInput := "";
    }
  }

  /** Opening a series in the editor and saving without changes hands back its own points. */
  method EditThenSave(tab: DataTabState, s: Series, num: NumberText) returns (update: Option<(string, seq<DataPoint>)>)
    requires AllPrintBack(num, s.data) && s.id != ""
    modifies tab
    ensures update == Some((s.id, s.data))
  {
    tab.StartEditing(s, num);
    update := tab.SaveEdit(num);
    EditRoundTrip(s.data, num);
  }
}

=== FILE: excel.dfy ===
/**
 * The spreadsheet reader behind "Load Excel" (src-tauri/src/lib.rs,
 * read_excel): x values from one column range and y values from another,
 * paired row by row. Opening the workbook and choosing the sheet are not
 * part of this model; the sheet is given as a map from (row, column) to
 * cell, and Rust's `str::parse::<f64>` as a function.
 */
module Excel {
  import opened Types

  /** The calamine cell kinds the reader tells apart; booleans, dates, errors and empties are Other. */
  datatype Cell = FloatCell(f: real) | IntCell(i: int) | StringCell(s: string) | OtherCell

  type Sheet = map<(nat, nat), Cell>

  /** The `as u32` cast: the value modulo 2^32. */
  function U32(n: nat): (r: nat)
    ensures r < 0x1_0000_0000 && (n < 0x1_0000_0000 ==> r == n)
  {
    n % 0x1_0000_0000
  }

  /** The number of rows in start..=end, 0 when the range is reversed. */
  function RowCount(start: nat, end: nat): (count: nat)
    ensures end >= start ==> count == end - start + 1
    ensures end < start ==> count == 0
  {
    if end >= start then end - start + 1 else 0
  }

  /** A cell as a number: floats as they are, integers cast, strings parsed, anything else nothing. */
  function CellValue(c: Cell, parse: string -> Option<real>): (v: Option<real>)
    ensures c.FloatCell? ==> v == Some(c.f)
    ensures c.IntCell? ==> v == Some(c.i as real)
    ensures c.StringCell? ==> v == parse(c.s)
    ensures c.OtherCell? ==> v.None?
  {
    match c
    case FloatCell(f) => Some(f)
    case IntCell(i) => Some(i as real)
    case StringCell(s) => parse(s)
    case OtherCell => None
  }

  /** `sheet.get_value((row as u32, col as u32)).and_then(convert)`: nothing for a missing cell. */
  function ValueAt(sheet: Sheet, row: nat, col: nat, parse: string -> Option<real>): Option<real>
  {
    var key := (U32(row), U32(col));
    if key in sheet then CellValue(sheet[key], parse) else None
  }

  /** The two column ranges of one call. */
  datatype Ranges = Ranges(xCol: nat, xRowStart: nat, xRowEnd: nat, yCol: nat, yRowStart: nat, yRowEnd: nat)

  function PairCount(r: Ranges): nat
  {
    var xc := RowCount(r.xRowStart, r.xRowEnd);
    var yc := RowCount(r.yRowStart, r.yRowEnd);
    if xc <= yc then xc else yc
  }

  /** Pair i: row xRowStart+i of the x column against row yRowStart+i of the y column. */
  function PairAt(sheet: Sheet, r: Ranges, i: nat, parse: string -> Option<real>): Option<DataPoint>
  {
    var x := ValueAt(sheet, r.xRowStart + i, r.xCol, parse);
    var y := ValueAt(sheet, r.yRowStart + i, r.yCol, parse);
    if x.Some? && y.Some? then Some(DataPoint(x.value, y.value)) else None
  }

  /** The points of pairs 0..n-1 in increasing i, those where both cells convert. */
  function Points(sheet: Sheet, r: Ranges, n: nat, parse: string -> Option<real>): (data: seq<DataPoint>)
    ensures |data| <= n
  {
    if n == 0 then []
    else
      var p := PairAt(sheet, r, n - 1, parse);
      Points(sheet, r, n - 1, parse) + (if p.Some? then [p.value] else [])
  }

  /** The loop of read_excel. */
  method ReadExcel(sheet: Sheet, r: Ranges, parse: string -> Option<real>) returns (data: seq<DataPoint>)
    ensures data == Points(sheet, r, PairCount(r), parse)
    ensures |data| <= RowCount(r.xRowStart, r.xRowEnd) && |data| <= RowCount(r.yRowStart, r.yRowEnd)
  {
    data := [];
    var xCount := if r.xRowEnd >= r.xRowStart then r.xRowEnd - r.xRowStart + 1 else 0;
    var yCount := if r.yRowEnd >= r.yRowStart then r.yRowEnd - r.yRowStart + 1 else 0;
    var count := if xCount <= yCount then xCount else yCount;
    for i := 0 to count
      invariant data == Points(sheet, r, i, parse)
    {
      var xVal := ValueAt(sheet, r.xRowStart + i, r.xCol, parse);
      var yVal := ValueAt(sheet, r.yRowStart + i, r.yCol, parse);
      if xVal.Some? && yVal.Some? {
        data := data + [DataPoint(xVal.value, yVal.value)];
      }
    }
  }

  /** When every pair converts, the output has one point per pair, in row order. */
  lemma {:induction false} AllPairsConvert(sheet: Sheet, r: Ranges, n: nat, parse: string -> Option<real>)
    requires forall i :: 0 <= i < n ==> PairAt(sheet, r, i, parse).Some?
    ensures |Points(sheet, r, n, parse)| == n
    ensures forall i :: 0 <= i < n ==> Points(sheet, r, n, parse)[i] == PairAt(sheet, r, i, parse).value
  {
    if n > 0 {
      AllPairsConvert(sheet, r, n - 1, parse);
      var front := Points(sheet, r, n - 1, parse);
      assert Points(sheet, r, n, parse) == front + [PairAt(sheet, r, n - 1, parse).value];
    }
  }

  /** Every point comes from a pair of the first n whose cells both convert. */
  lemma {:induction false} PointsFromPairs(sheet: Sheet, r: Ranges, n: nat, parse: string -> Option<real>)
    ensures forall p :: p in Points(sheet, r, n, parse) ==> exists i :: 0 <= i < n && PairAt(sheet, r, i, parse) == Some(p)
  {
    if n > 0 {
      PointsFromPairs(sheet, r, n - 1, parse);
    }
  }

  /** Pairs are read independently: the points of the first m pairs are a prefix of those of the first n. */
  lemma {:induction false} PointsPrefix(sheet: Sheet, r: Ranges, m: nat, n: nat, parse: string -> Option<real>)
    requires m <= n
    ensures Points(sheet, r, m, parse) <= Points(sheet, r, n, parse)
  {
    if m < n {
      PointsPrefix(sheet, r, m, n - 1, parse);
    }
  }

  /** Rows within u32 range are read where they are: the x of pair i is the cell at its own row. */
  lemma PairReadsRows(sheet: Sheet, r: Ranges, i: nat, parse: string -> Option<real>)
    requires r.xRowStart + i < 0x1_0000_0000 && r.xCol < 0x1_0000_0000
    requires r.yRowStart + i < 0x1_0000_0000 && r.yCol < 0x1_0000_0000
    ensures var p := PairAt(sheet, r, i, parse);
      p.Some? <==>
        (r.xRowStart + i, r.xCol) in sheet && (r.yRowStart + i, r.yCol) in sheet
        && CellValue(sheet[(r.xRowStart + i, r.xCol)], parse).Some?
        && CellValue(sheet[(r.yRowStart + i, r.yCol)], parse).Some?
  {
  }
}

=== FILE: export_modal.dfy ===
/**
 * The export dialog (src/components/plot/ExportModal.tsx): the image
 * format, whether to use the global scale or a custom one, transparency
 * and JPEG quality, and the options handed to the exporter. Writing the
 * preferences to local storage is not part of this model.
 */
module ExportModal {
  import opened Types
  import opened Resolution

  datatype ImageFormat = Png | Jpg

  datatype ExportOptions = ExportOptions(format: ImageFormat, scale: real, transparent: bool, quality: real)

  /** A saved "true"/"false" preference: an absent or empty entry gives the default. */
  function SavedFlag(saved: Option<string>, default: bool): (flag: bool)
    ensures saved.None? || saved.value == "" ==> flag == default
    ensures saved.Some? && saved.value != "" ==> (flag <==> saved.value == "true")
  {
    if saved.Some? && saved.value != "" then saved.value == "true" else default
  }

  class ExportDialog {
    var format: ImageFormat
    var useGlobalScale: bool
    var customScale: real
    var transparent: bool
    var quality: real

    /** The initial state: saved preferences, and a custom scale of 2. */
    constructor (savedFormat: Option<ImageFormat>, savedUseGlobal: Option<string>, savedTransparent: Option<string>,
                 savedQuality: Option<real>)
      ensures format == (if savedFormat.Some? then savedFormat.value else Png)
      ensures useGlobalScale == SavedFlag(savedUseGlobal, true) && transparent == SavedFlag(savedTransparent, false)
      ensures quality == (if savedQuality.Some? then savedQuality.value else 0.9)
      ensures customScale == 2.0
    {
      format := if savedFormat.Some? then savedFormat.value else Png;
      useGlobalScale := SavedFlag(savedUseGlobal, true);
      customScale := 2.0;
      transparent := SavedFlag(savedTransparent, false);
      quality := if savedQuality.Some? then savedQuality.value else 0.9;
    }

    /** handleExport: the global scale when asked to; no transparency for JPEG; full quality for PNG. */
    function Options(globalScale: real): (o: ExportOptions)
      reads this
      ensures o.format == format
      ensures o.scale == (if useGlobalScale then globalScale else customScale)
      ensures o.format == Jpg ==> !o.transparent && o.quality == quality
      ensures o.format == Png ==> o.transparent == transparent && o.quality == 1.0
    {
      ExportOptions(format, if useGlobalScale then globalScale else customScale,
                    if format == Png then transparent else false,
                    if format == Jpg then quality else 1.0)
    }

    /** The effect that follows the global scale while the dialog is open and set to use it. */
    method SyncScale(isOpen: bool, globalScale: real)
      modifies this
      ensures customScale == (if isOpen && useGlobalScale then globalScale else old(customScale))
      ensures format == old(format) && useGlobalScale == old(useGlobalScale)
      ensures transparent == old(transparent) && quality == old(quality)
    {
      if isOpen && useGlobalScale {
        customScale := globalScale;
      }
    }

    /** The "0.1x" button of the custom scale. */
    method ToggleLowResolution()
      modifies this
      ensures customScale == Toggle(old(customScale))
      ensures format == old(format) && useGlobalScale == old(useGlobalScale)
      ensures transparent == old(transparent) && quality == old(quality)
    {
      customScale := if customScale == Preview then 0.5 else Preview;
    }

    /** The custom scale's number box: the same rule and clamp as the resolution control. */
    method TypeScale(val: Option<real>)
      modifies this
      ensures customScale == (if val.Some? then Snap(val.value) else old(customScale))
      ensures val.Some? ==> Preview <= customScale <= 10.0 && OnGrid(customScale)
      ensures format == old(format) && useGlobalScale == old(useGlobalScale)
      ensures transparent == old(transparent) && quality == old(quality)
    {
      if val.Some? {
        SnapOnGrid(val.value);
        customScale := Snap(val.value);
      }
    }
  }
}

=== FILE: gaussian.dfy ===
/**
 * solveGaussian (src/regressionHelper.ts:37-69): Gaussian elimination with
 * partial pivoting on the augmented matrix [A | b], followed by back
 * substitution. The augmented matrix is an array of rows; a pivot swap
 * exchanges two entries of that array, and elimination rewrites one row at a
 * time.
 */
module Gaussian {
  import opened Types

  /** Σ u[j]·z[j] for lo <= j < hi. */
  function Dot(u: seq<real>, z: seq<real>, lo: nat, hi: nat): real
    requires lo <= hi <= |u| && hi <= |z|
    decreases hi - lo
  {
    if lo == hi then 0.0 else Dot(u, z, lo, hi - 1) + u[hi - 1] * z[hi - 1]
  }

  function Abs(x: real): real
  {
    if x < 0.0 then -x else x
  }

  /** Every row has w entries. */
  predicate Rows(M: seq<seq<real>>, w: nat)
  {
    forall r :: 0 <= r < |M| ==> |M[r]| == w
  }

  /** An n-by-n matrix, n = |A|. */
  predicate IsSquare(A: seq<seq<real>>)
  {
    Rows(A, |A|)
  }

  /** A·x = b. */
  predicate Solves(A: seq<seq<real>>, x: seq<real>, b: seq<real>)
    requires IsSquare(A) && |b| == |A|
  {
    |x| == |A| && forall r :: 0 <= r < |A| ==> Dot(A[r], x, 0, |A|) == b[r]
  }

  /** A·y = 0. */
  predicate IsNull(A: seq<seq<real>>, y: seq<real>)
    requires IsSquare(A)
  {
    |y| == |A| && forall r :: 0 <= r < |A| ==> Dot(A[r], y, 0, |A|) == 0.0
  }

  predicate NonZero(y: seq<real>)
  {
    exists j :: 0 <= j < |y| && y[j] != 0.0
  }

  /** A has a non-trivial null vector. */
  ghost predicate Singular(A: seq<seq<real>>)
    requires IsSquare(A)
  {
    exists y :: IsNull(A, y) && NonZero(y)
  }

  /** The augmented matrix [A | b] that solveGaussian builds. */
  function Aug(A: seq<seq<real>>, b: seq<real>): (M: seq<seq<real>>)
    requires |b| == |A|
    ensures |M| == |A| && forall r :: 0 <= r < |A| ==> M[r] == A[r] + [b[r]]
  {
    seq(|A|, r requires 0 <= r < |A| => A[r] + [b[r]])
  }

  /** M·z = 0, for an augmented vector z. */
  predicate Kernel(M: seq<seq<real>>, z: seq<real>)
    requires Rows(M, |z|)
  {
    forall r :: 0 <= r < |M| ==> Dot(M[r], z, 0, |z|) == 0.0
  }

  /** Row operations keep the set of solutions: M and N have the same kernel. */
  ghost predicate SameKernel(M: seq<seq<real>>, N: seq<seq<real>>, w: nat)
    requires Rows(M, w) && Rows(N, w)
  {
    forall z :: |z| == w ==> (Kernel(M, z) <==> Kernel(N, z))
  }

  /** Below the diagonal, the first i columns hold zeros. */
  predicate LowerZero(M: seq<seq<real>>, i: nat, w: nat)
    requires Rows(M, w) && i <= w
  {
    forall r, c :: 0 <= c < i && c < r < |M| ==> M[r][c] == 0.0
  }

  /** The first i diagonal entries are non-zero. */
  predicate PivotsNonzero(M: seq<seq<real>>, i: nat, w: nat)
    requires Rows(M, w) && i <= |M| && i <= w
  {
    forall r :: 0 <= r < i ==> M[r][r] != 0.0
  }

  /**
   * The answer of the elimination: the unique solution of A·x = b, or None
   * when A is singular.
   */
  ghost function GaussSolution(A: seq<seq<real>>, b: seq<real>): (r: Option<seq<real>>)
    requires IsSquare(A) && |b| == |A|
    ensures r.Some? ==> Solves(A, r.value, b) && !Singular(A)
    ensures Singular(A) ==> r.None?
  {
    if Singular(A) || !(exists x :: Solves(A, x, b)) then None
    else Some(var x :| Solves(A, x, b); x)
  }

  /**
   * solveGaussian. A zero pivot after partial pivoting means that A is
   * singular; the elimination stops there and reports None.
   */
  method SolveGaussian(A: seq<seq<real>>, b: seq<real>) returns (r: Option<seq<real>>)
    requires IsSquare(A) && |b| == |A|
    ensures r.Some? ==> |r.value| == |A| && Solves(A, r.value, b)
    ensures r.None? <==> Singular(A)
    ensures r == GaussSolution(A, b)
  {
    var n := |A|;
    var M := new seq<real>[n](r => if 0 <= r < n then A[r] + [b[r]] else []);
    assert M[..] == Aug(A, b);
    var ok := Triangulate(M, A, b);
    if !ok {
      return None;
    }
    var x := BackSubstitute(M);
    TriangularSolves(A, b, M[..], x);
    TriangularNonSingular(A, b, M[..]);
    SolutionUnique(A, b, x);
    r := Some(x);
  }

  /**
   * The forward phase: column by column, bring the largest entry at or below
   * the diagonal into the pivot position and clear the entries below it.
   * Reports false when a pivot is zero.
   */
  method Triangulate(M: array<seq<real>>, ghost A: seq<seq<real>>, ghost b: seq<real>) returns (ok: bool)
    requires IsSquare(A) && |b| == |A| && M[..] == Aug(A, b)
    modifies M
    ensures Rows(M[..], |A| + 1) && SameKernel(M[..], Aug(A, b), |A| + 1)
    ensures ok ==> LowerZero(M[..], |A|, |A| + 1) && PivotsNonzero(M[..], |A|, |A| + 1)
    ensures !ok ==> Singular(A)
  {
    var n := M.Length;
    ghost var M0 := M[..];
    assert Rows(M0, n + 1);
    var i := 0;
    while i < n
      invariant 0 <= i <= n
      invariant Rows(M[..], n + 1)
      invariant SameKernel(M[..], M0, n + 1)
      invariant LowerZero(M[..], i, n + 1) && PivotsNonzero(M[..], i, n + 1)
    {
      var p := PivotRow(M, i);
      ghost var before := M[..];
      M[i], M[p] := M[p], M[i];
      assert M[..] == Swap(before, i, p);
      SwapStep(before, M0, i, p, n + 1);
      if M[i][i] == 0.0 {
        ZeroPivotSingular(A, b, M[..], i);
        return false;
      }
      ghost var pivoted := M[..];
      EliminateBelow(M, i);
      SameKernelTrans(M[..], pivoted, M0, n + 1);
      i := i + 1;
    }
    return true;
  }

  /** Clears column i below the pivot, one row at a time. */
  method EliminateBelow(M: array<seq<real>>, i: nat)
    requires i < M.Length && Rows(M[..], M.Length + 1)
    requires LowerZero(M[..], i, M.Length + 1) && PivotsNonzero(M[..], i + 1, M.Length + 1)
    modifies M
    ensures Rows(M[..], M.Length + 1)
    ensures LowerZero(M[..], i + 1, M.Length + 1) && PivotsNonzero(M[..], i + 1, M.Length + 1)
    ensures SameKernel(M[..], old(M[..]), M.Length + 1)
  {
    var n := M.Length;
    ghost var M0 := M[..];
    var k := i + 1;
    while k < n
      invariant i + 1 <= k <= n
      invariant Rows(M[..], n + 1)
      invariant SameKernel(M[..], M0, n + 1)
      invariant LowerZero(M[..], i, n + 1) && PivotsNonzero(M[..], i + 1, n + 1)
      invariant forall r :: i < r < k ==> M[r][i] == 0.0
    {
      ghost var prev := M[..];
      EliminateRow(M, i, k);
      SameKernelTrans(M[..], prev, M0, n + 1);
      k := k + 1;
    }
    ExtendLowerZero(M[..], i, n + 1);
  }

  /** Back substitution on an upper-triangular system with non-zero pivots: each row, from the last up, is satisfied. */
  method BackSubstitute(M: array<seq<real>>) returns (x: seq<real>)
    requires Rows(M[..], M.Length + 1) && PivotsNonzero(M[..], M.Length, M.Length + 1)
    ensures |x| == M.Length
    ensures forall r :: 0 <= r < M.Length ==> Dot(M[r], x, r, M.Length) == M[r][M.Length]
  {
    var n := M.Length;
    x := seq(n, _ => 0.0);
    var i := n;
    while i > 0
      invariant 0 <= i <= n && |x| == n
      invariant forall r :: i <= r < n ==> Dot(M[r], x, r, n) == M[r][n]
    {
      i := i - 1;
      var sum := 0.0;
      var j := i + 1;
      while j < n
        invariant i + 1 <= j <= n
        invariant sum == Dot(M[i], x, i + 1, j)
      {
        sum := sum + M[i][j] * x[j];
        j := j + 1;
      }
      var v := (M[i][n] - sum) / M[i][i];
      BackStep(M[..], x, i, sum, v, n);
      x := x[i := v];
    }
  }

  /** Subtracts factor times the pivot row i from row k, entry by entry from column i on, so that M[k][i] becomes 0. */
  method EliminateRow(M: array<seq<real>>, i: nat, k: nat)
    requires i < k < M.Length && Rows(M[..], M.Length + 1)
    requires LowerZero(M[..], i, M.Length + 1) && M[i][i] != 0.0
    modifies M
    ensures M[..] == old(M[..])[k := M[k]]
    ensures Rows(M[..], M.Length + 1) && M[k][i] == 0.0
    ensures forall c :: 0 <= c < i ==> M[k][c] == old(M[k][c])
    ensures SameKernel(M[..], old(M[..]), M.Length + 1)
  {
    var n := M.Length;
    var factor := M[k][i] / M[i][i];
    var row := M[k];
    var j := i;
    while j <= n
      invariant i <= j <= n + 1 && |row| == n + 1
      invariant forall c :: 0 <= c < i ==> row[c] == M[k][c]
      invariant forall c :: i <= c < j ==> row[c] == M[k][c] - factor * M[i][c]
      invariant forall c :: j <= c <= n ==> row[c] == M[k][c]
    {
      row := row[j := row[j] - factor * M[i][j]];
      j := j + 1;
    }
    EliminatedEntry(M[k][i], M[i][i], factor, row[i]);
    RowOpKeeps(M[..], k, i, factor, row, n + 1);
    M[k] := row;
  }

  /** Once column i is zero below the diagonal, the first i + 1 columns are. */
  lemma ExtendLowerZero(M: seq<seq<real>>, i: nat, w: nat)
    requires i < |M| && i < w && Rows(M, w) && LowerZero(M, i, w)
    requires forall r :: i < r < |M| ==> M[r][i] == 0.0
    ensures LowerZero(M, i + 1, w)
  {
  }

  /** The pivot search: the first row at or below i whose entry in column i has the largest magnitude. */
  method PivotRow(M: array<seq<real>>, i: nat) returns (p: nat)
    requires i < M.Length && forall r :: i <= r < M.Length ==> i < |M[r]|
    ensures i <= p < M.Length
    ensures forall r :: i <= r < M.Length ==> Abs(M[r][i]) <= Abs(M[p][i])
    ensures forall r :: i <= r < p ==> Abs(M[r][i]) < Abs(M[p][i])
  {
    p := i;
    var k := i + 1;
    while k < M.Length
      invariant i <= p < k <= M.Length
      invariant forall r :: i <= r < k ==> Abs(M[r][i]) <= Abs(M[p][i])
      invariant forall r :: i <= r < p ==> Abs(M[r][i]) < Abs(M[p][i])
    {
      if Abs(M[k][i]) > Abs(M[p][i]) {
        p := k;
      }
      k := k + 1;
    }
  }

  function Swap(M: seq<seq<real>>, i: nat, p: nat): (N: seq<seq<real>>)
    requires i < |M| && p < |M|
  {
    M[i := M[p]][p := M[i]]
  }

  /**
   * Swapping two rows at or below i only permutes the rows, and keeps the
   * kernel and the shape reached so far.
   */
  lemma SwapKeeps(M: seq<seq<real>>, i: nat, p: nat, w: nat)
    requires i <= p < |M| && i < w && Rows(M, w)
    requires LowerZero(M, i, w) && PivotsNonzero(M, i, w)
    ensures multiset(Swap(M, i, p)) == multiset(M) && Rows(Swap(M, i, p), w)
    ensures LowerZero(Swap(M, i, p), i, w) && PivotsNonzero(Swap(M, i, p), i, w)
    ensures SameKernel(Swap(M, i, p), M, w)
  {
    SwapShape(M, i, p, w);
    SwapSameKernel(M, i, p, w);
  }

  /** The swap permutes the rows and keeps the zeros below and the pivots above row i. */
  lemma SwapShape(M: seq<seq<real>>, i: nat, p: nat, w: nat)
    requires i <= p < |M| && i < w && Rows(M, w)
    requires LowerZero(M, i, w) && PivotsNonzero(M, i, w)
    ensures multiset(Swap(M, i, p)) == multiset(M) && Rows(Swap(M, i, p), w)
    ensures LowerZero(Swap(M, i, p), i, w) && PivotsNonzero(Swap(M, i, p), i, w)
  {
  }

  lemma SwapSameKernel(M: seq<seq<real>>, i: nat, p: nat, w: nat)
    requires i < |M| && p < |M| && Rows(M, w)
    ensures Rows(Swap(M, i, p), w) && SameKernel(Swap(M, i, p), M, w)
  {
    var N := Swap(M, i, p);
    assert Rows(N, w) by {
      forall r | 0 <= r < |N|
        ensures |N[r]| == w
      {
        assert N[r] == M[if r == i then p else if r == p then i else r];
      }
    }
    assert Swap(N, i, p) == M;
    forall z | |z| == w
      ensures Kernel(N, z) <==> Kernel(M, z)
    {
      if Kernel(M, z) {
        SwapKernel(M, i, p, w, z);
      }
      if Kernel(N, z) {
        SwapKernel(N, i, p, w, z);
      }
    }
  }

  /** Swapping two rows keeps every vector that all rows annihilate. */
  lemma SwapKernel(M: seq<seq<real>>, i: nat, p: nat, w: nat, z: seq<real>)
    requires i < |M| && p < |M| && Rows(M, w) && |z| == w && Kernel(M, z)
    ensures Rows(Swap(M, i, p), w) && Kernel(Swap(M, i, p), z)
  {
    var N := Swap(M, i, p);
    forall r | 0 <= r < |N|
      ensures |N[r]| == w && Dot(N[r], z, 0, w) == 0.0
    {
      assert N[r] == M[if r == i then p else if r == p then i else r];
    }
  }

  /**
   * One pivoting step: the swap keeps the kernel of the original system and
   * the shape reached so far, and a zero pivot then means column i is zero
   * from row i down.
   */
  lemma SwapStep(M: seq<seq<real>>, M0: seq<seq<real>>, i: nat, p: nat, w: nat)
    requires i <= p < |M| && i < w && Rows(M, w) && Rows(M0, w) && SameKernel(M, M0, w)
    requires LowerZero(M, i, w) && PivotsNonzero(M, i, w)
    requires forall r :: i <= r < |M| ==> Abs(M[r][i]) <= Abs(M[p][i])
    ensures var N := Swap(M, i, p);
      Rows(N, w) && SameKernel(N, M0, w) && LowerZero(N, i, w) && PivotsNonzero(N, i, w)
      && (N[i][i] == 0.0 ==> forall r :: i <= r < |N| ==> N[r][i] == 0.0)
  {
    var N := Swap(M, i, p);
    SwapKeeps(M, i, p, w);
    SameKernelTrans(N, M, M0, w);
    if N[i][i] == 0.0 {
      assert forall r :: i <= r < |N| ==> Abs(N[r][i]) <= Abs(N[i][i]) by {
        forall r | i <= r < |N|
          ensures Abs(N[r][i]) <= Abs(N[i][i])
        {
          assert N[r] == M[if r == i then p else if r == p then i else r];
        }
      }
      ZeroPivotColumn(N, i, w);
    }
  }

  lemma SameKernelTrans(M: seq<seq<real>>, N: seq<seq<real>>, P: seq<seq<real>>, w: nat)
    requires Rows(M, w) && Rows(N, w) && Rows(P, w)
    requires SameKernel(M, N, w) && SameKernel(N, P, w)
    ensures SameKernel(M, P, w)
  {
  }

  /** After the pivot search a zero pivot means the whole column below is zero. */
  lemma ZeroPivotColumn(M: seq<seq<real>>, i: nat, w: nat)
    requires i < |M| && i < w && Rows(M, w) && M[i][i] == 0.0
    requires forall r :: i <= r < |M| ==> Abs(M[r][i]) <= Abs(M[i][i])
    ensures forall r :: i <= r < |M| ==> M[r][i] == 0.0
  {
  }

  lemma EliminatedEntry(a: real, d: real, f: real, e: real)
    requires d != 0.0 && f == a / d && e == a - f * d
    ensures e == 0.0
  {
  }

  /** Subtracting f times row i from row k keeps the kernel. */
  lemma RowOpKeeps(M: seq<seq<real>>, k: nat, i: nat, f: real, row: seq<real>, w: nat)
    requires i < k < |M| && i < w && Rows(M, w) && |row| == w
    requires LowerZero(M, i, w)
    requires forall c :: 0 <= c < i ==> row[c] == M[k][c]
    requires forall c :: i <= c < w ==> row[c] == M[k][c] - f * M[i][c]
    ensures Rows(M[k := row], w)
    ensures SameKernel(M[k := row], M, w)
  {
    forall c | 0 <= c < w
      ensures row[c] == M[k][c] - f * M[i][c]
    {
      if c < i {
        assert M[k][c] == 0.0 && M[i][c] == 0.0;
      }
    }
    var N := M[k := row];
    forall z | |z| == w
      ensures Kernel(N, z) <==> Kernel(M, z)
    {
      DotCombine(M[k], M[i], row, f, z, 0, w);
      if Kernel(M, z) {
        assert Dot(M[k], z, 0, w) == 0.0 && Dot(M[i], z, 0, w) == 0.0;
        ZeroCombine(Dot(row, z, 0, w), Dot(M[k], z, 0, w), Dot(M[i], z, 0, w), f);
        assert forall r :: 0 <= r < |N| ==> Dot(N[r], z, 0, w) == 0.0;
      }
      if Kernel(N, z) {
        assert N[i] == M[i] && N[k] == row;
        assert Dot(row, z, 0, w) == 0.0 && Dot(M[i], z, 0, w) == 0.0;
        ZeroCombine(Dot(M[k], z, 0, w), Dot(row, z, 0, w) + f * Dot(M[i], z, 0, w), Dot(M[i], z, 0, w), 0.0 - f);
        assert forall r :: 0 <= r < |M| ==> Dot(M[r], z, 0, w) == 0.0 by {
          forall r | 0 <= r < |M|
            ensures Dot(M[r], z, 0, w) == 0.0
          {
            if r != k {
              assert M[r] == N[r];
            }
          }
        }
      }
    }
  }

  lemma ZeroCombine(d: real, a: real, b: real, f: real)
    requires d == a - f * b && a == 0.0 && b == 0.0
    ensures d == 0.0
  {
  }

  /** Back substitution fixes x[i] so that row i holds, without disturbing the rows below it. */
  lemma BackStep(M: seq<seq<real>>, x: seq<real>, i: nat, sum: real, v: real, n: nat)
    requires |M| == n && Rows(M, n + 1) && |x| == n && i < n
    requires M[i][i] != 0.0
    requires sum == Dot(M[i], x, i + 1, n) && v == (M[i][n] - sum) / M[i][i]
    requires forall r :: i < r < n ==> Dot(M[r], x, r, n) == M[r][n]
    ensures forall r :: i <= r < n ==> Dot(M[r], x[i := v], r, n) == M[r][n]
  {
    var x' := x[i := v];
    forall r | i < r < n
      ensures Dot(M[r], x', r, n) == M[r][n]
    {
      DotFrame(M[r], M[r], x, x', r, n);
    }
    BackRow(M[i], x, i, sum, v, n);
  }

  /** Row i holds once x[i] is set to (M[i][n] - Σ_{j>i} M[i][j]*x[j]) / M[i][i]. */
  lemma BackRow(u: seq<real>, x: seq<real>, i: nat, sum: real, v: real, n: nat)
    requires |u| == n + 1 && |x| == n && i < n && u[i] != 0.0
    requires sum == Dot(u, x, i + 1, n) && v == (u[n] - sum) / u[i]
    ensures Dot(u, x[i := v], i, n) == u[n]
  {
    var x' := x[i := v];
    DotFrame(u, u, x, x', i + 1, n);
    DotSplitLow(u, x', i, n);
    SolveStep(u[i], sum, u[n], v);
  }

  lemma SolveStep(a: real, s: real, t: real, v: real)
    requires a != 0.0 && v == (t - s) / a
    ensures a * v + s == t
  {
  }

  /** An upper-triangular system solved row by row solves the original system. */
  lemma TriangularSolves(A: seq<seq<real>>, b: seq<real>, M: seq<seq<real>>, x: seq<real>)
    requires IsSquare(A) && |b| == |A| && |M| == |A| && |x| == |A|
    requires Rows(M, |A| + 1) && LowerZero(M, |A|, |A| + 1)
    requires SameKernel(M, Aug(A, b), |A| + 1)
    requires forall r :: 0 <= r < |A| ==> Dot(M[r], x, r, |A|) == M[r][|A|]
    ensures Solves(A, x, b)
  {
    SolvedKernel(M, x);
    KernelTransfer(M, Aug(A, b), |A| + 1, x + [-1.0]);
    AugKernelSolves(A, b, x);
  }

  /** A triangular system satisfied row by row annihilates x + [-1]. */
  lemma SolvedKernel(M: seq<seq<real>>, x: seq<real>)
    requires |M| == |x| && Rows(M, |x| + 1) && LowerZero(M, |x|, |x| + 1)
    requires forall r :: 0 <= r < |x| ==> Dot(M[r], x, r, |x|) == M[r][|x|]
    ensures forall r :: 0 <= r < |M| ==> Dot(M[r], x + [-1.0], 0, |x| + 1) == 0.0
  {
    forall r | 0 <= r < |M|
      ensures Dot(M[r], x + [-1.0], 0, |x| + 1) == 0.0
    {
      RowSolved(M[r], x, r);
    }
  }

  /** An x whose extension x + [-1] is in the kernel of [A | b] solves A·x = b. */
  lemma AugKernelSolves(A: seq<seq<real>>, b: seq<real>, x: seq<real>)
    requires IsSquare(A) && |b| == |A| && |x| == |A|
    requires forall r :: 0 <= r < |A| ==> Dot(Aug(A, b)[r], x + [-1.0], 0, |A| + 1) == 0.0
    ensures Solves(A, x, b)
  {
    var Ab := Aug(A, b);
    forall r | 0 <= r < |A|
      ensures Dot(A[r], x, 0, |A|) == b[r]
    {
      AugRowSolved(A[r], b[r], x, Ab[r], x + [-1.0], |A|);
    }
  }

  /** A row of [A | b] that vanishes on x + [-1] says A[r]·x = b[r]. */
  lemma AugRowSolved(a: seq<real>, beta: real, x: seq<real>, row: seq<real>, z: seq<real>, n: nat)
    requires |a| == |x| == n && row == a + [beta] && z == x + [-1.0]
    requires Dot(row, z, 0, n + 1) == 0.0
    ensures Dot(a, x, 0, n) == beta
  {
    AugRow(a, beta, x, -1.0, row, z, n);
  }

  /** A row that is zero left of the diagonal entry r and satisfied from r on is satisfied by x + [-1]. */
  lemma RowSolved(u: seq<real>, x: seq<real>, r: nat)
    requires |u| == |x| + 1 && r < |x|
    requires forall c :: 0 <= c < r ==> u[c] == 0.0
    requires Dot(u, x, r, |x|) == u[|x|]
    ensures Dot(u, x + [-1.0], 0, |x| + 1) == 0.0
  {
    var n := |x|;
    DotFrame(u, u, x, x + [-1.0], 0, n);
    DotSplit(u, x, 0, r, n);
    DotZero(u, x, 0, r);
  }

  /** A row of [A | b] against y + [t] is A[r]·y + b[r]·t. */
  lemma AugRow(a: seq<real>, beta: real, y: seq<real>, t: real, row: seq<real>, z: seq<real>, n: nat)
    requires |a| == |y| == n && row == a + [beta] && z == y + [t]
    ensures Dot(row, z, 0, n + 1) == Dot(a, y, 0, n) + beta * t
  {
    DotFrame(a, row, y, z, 0, n);
  }

  /** Row r of an upper-triangular M against z = y + [0]. */
  lemma RowAgainstNull(u: seq<real>, y: seq<real>, r: nat)
    requires |u| == |y| + 1 && r < |y|
    requires forall c :: 0 <= c < r ==> u[c] == 0.0
    requires forall j :: r < j < |y| ==> y[j] == 0.0
    requires Dot(u, y + [0.0], 0, |y| + 1) == 0.0
    ensures u[r] * y[r] == 0.0
  {
    var n := |y|;
    DotFrame(u, u, y + [0.0], y, 0, n);
    DotSplit(u, y, 0, r, n);
    DotZero(u, y, 0, r);
    DotSplitLow(u, y, r, n);
    DotZero(u, y, r + 1, n);
  }

  /** An upper-triangular matrix with a non-zero diagonal has only the trivial null vector. */
  lemma TriangularNonSingular(A: seq<seq<real>>, b: seq<real>, M: seq<seq<real>>)
    requires IsSquare(A) && |b| == |A| && |M| == |A|
    requires Rows(M, |A| + 1) && LowerZero(M, |A|, |A| + 1) && PivotsNonzero(M, |A|, |A| + 1)
    requires SameKernel(M, Aug(A, b), |A| + 1)
    ensures !Singular(A)
  {
    forall y | IsNull(A, y)
      ensures !NonZero(y)
    {
      NullIsZero(A, b, M, y);
    }
  }

  lemma NullIsZero(A: seq<seq<real>>, b: seq<real>, M: seq<seq<real>>, y: seq<real>)
    requires IsSquare(A) && |b| == |A| && |M| == |A|
    requires Rows(M, |A| + 1) && LowerZero(M, |A|, |A| + 1) && PivotsNonzero(M, |A|, |A| + 1)
    requires SameKernel(M, Aug(A, b), |A| + 1)
    requires IsNull(A, y)
    ensures forall j :: 0 <= j < |y| ==> y[j] == 0.0
  {
    NullAugKernel(A, b, y);
    KernelTransferBack(M, Aug(A, b), |A| + 1, y + [0.0]);
    TriangularKernelZero(M, y);
  }

  /** A null vector y of A, extended by 0, is in the kernel of [A | b]. */
  lemma NullAugKernel(A: seq<seq<real>>, b: seq<real>, y: seq<real>)
    requires IsSquare(A) && |b| == |A| && IsNull(A, y)
    ensures forall r :: 0 <= r < |A| ==> Dot(Aug(A, b)[r], y + [0.0], 0, |A| + 1) == 0.0
  {
    var Ab := Aug(A, b);
    forall r | 0 <= r < |A|
      ensures Dot(Ab[r], y + [0.0], 0, |A| + 1) == 0.0
    {
      AugRowNull(A[r], b[r], y, Ab[r], y + [0.0], |A|);
    }
  }

  /** Back from the last row, a triangular M with non-zero pivots forces every entry of y to 0. */
  lemma TriangularKernelZero(M: seq<seq<real>>, y: seq<real>)
    requires |M| == |y| && Rows(M, |y| + 1) && LowerZero(M, |y|, |y| + 1) && PivotsNonzero(M, |y|, |y| + 1)
    requires forall r :: 0 <= r < |M| ==> Dot(M[r], y + [0.0], 0, |y| + 1) == 0.0
    ensures forall j :: 0 <= j < |y| ==> y[j] == 0.0
  {
    var c := |y|;
    while c > 0
      invariant 0 <= c <= |y|
      invariant forall j :: c <= j < |y| ==> y[j] == 0.0
    {
      c := c - 1;
      RowAgainstNull(M[c], y, c);
      ZeroFactor(M[c][c], y[c]);
    }
  }

  lemma ZeroFactor(a: real, b: real)
    requires a != 0.0 && a * b == 0.0
    ensures b == 0.0
  {
  }

  /**
   * A zero column at the pivot position makes A singular: with y[i] = 1,
   * y[j] = 0 below, and y[j] for j < i chosen by back substitution, M·y = 0.
   */
  lemma ZeroPivotSingular(A: seq<seq<real>>, b: seq<real>, M: seq<seq<real>>, i: nat)
    requires IsSquare(A) && |b| == |A| && |M| == |A| && i < |A|
    requires Rows(M, |A| + 1) && LowerZero(M, i, |A| + 1) && PivotsNonzero(M, i, |A| + 1)
    requires forall r :: i <= r < |A| ==> M[r][i] == 0.0
    requires SameKernel(M, Aug(A, b), |A| + 1)
    ensures Singular(A)
  {
    var y := KernelVector(M, i);
    KernelToNull(A, b, M, y);
    assert NonZero(y) by {
      assert y[i] != 0.0;
    }
  }

  /** A vector with y[i] = 1 whose extension y + [0] every row of M annihilates. */
  lemma KernelVector(M: seq<seq<real>>, i: nat) returns (y: seq<real>)
    requires i < |M| && Rows(M, |M| + 1) && LowerZero(M, i, |M| + 1) && PivotsNonzero(M, i, |M| + 1)
    requires forall r :: i <= r < |M| ==> M[r][i] == 0.0
    ensures |y| == |M| && y[i] == 1.0
    ensures forall r :: 0 <= r < |M| ==> Dot(M[r], y + [0.0], 0, |M| + 1) == 0.0
  {
    y := NullVector(M, i);
    NullVectorKernel(M, y, i);
  }

  /** When M and [A | b] have the same kernel, a y with M·(y + [0]) = 0 is a null vector of A. */
  lemma KernelToNull(A: seq<seq<real>>, b: seq<real>, M: seq<seq<real>>, y: seq<real>)
    requires IsSquare(A) && |b| == |A| && |M| == |A| && |y| == |A|
    requires Rows(M, |A| + 1) && SameKernel(M, Aug(A, b), |A| + 1)
    requires forall r :: 0 <= r < |M| ==> Dot(M[r], y + [0.0], 0, |M| + 1) == 0.0
    ensures IsNull(A, y)
  {
    KernelTransfer(M, Aug(A, b), |A| + 1, y + [0.0]);
    AugKernelNull(A, b, y);
  }

  /** Every row of M annihilates the null vector, extended by 0. */
  lemma NullVectorKernel(M: seq<seq<real>>, y: seq<real>, i: nat)
    requires i < |M| && Rows(M, |M| + 1) && LowerZero(M, i, |M| + 1)
    requires forall r :: i <= r < |M| ==> M[r][i] == 0.0
    requires |y| == |M| && forall j :: i < j < |M| ==> y[j] == 0.0
    requires forall r :: 0 <= r < i ==> Dot(M[r], y, r, |M|) == 0.0
    ensures forall r :: 0 <= r < |M| ==> Dot(M[r], y + [0.0], 0, |M| + 1) == 0.0
  {
    forall r | 0 <= r < |M|
      ensures Dot(M[r], y + [0.0], 0, |M| + 1) == 0.0
    {
      RowAgainstNullVector(M[r], y, r, i);
    }
  }

  /** A vector y whose extension y + [0] is in the kernel of [A | b] is a null vector of A. */
  lemma AugKernelNull(A: seq<seq<real>>, b: seq<real>, y: seq<real>)
    requires IsSquare(A) && |b| == |A| && |y| == |A|
    requires forall r :: 0 <= r < |A| ==> Dot(Aug(A, b)[r], y + [0.0], 0, |A| + 1) == 0.0
    ensures IsNull(A, y)
  {
    var Ab := Aug(A, b);
    forall r | 0 <= r < |A|
      ensures Dot(A[r], y, 0, |A|) == 0.0
    {
      AugRowNull(A[r], b[r], y, Ab[r], y + [0.0], |A|);
    }
  }

  /** A vector that M annihilates is annihilated by any N with the same kernel. */
  lemma KernelTransfer(M: seq<seq<real>>, N: seq<seq<real>>, w: nat, z: seq<real>)
    requires Rows(M, w) && Rows(N, w) && |z| == w && SameKernel(M, N, w)
    requires forall r :: 0 <= r < |M| ==> Dot(M[r], z, 0, w) == 0.0
    ensures forall r :: 0 <= r < |N| ==> Dot(N[r], z, 0, w) == 0.0
  {
    assert Kernel(M, z);
  }

  /** The same, from the second matrix back to the first. */
  lemma KernelTransferBack(M: seq<seq<real>>, N: seq<seq<real>>, w: nat, z: seq<real>)
    requires Rows(M, w) && Rows(N, w) && |z| == w && SameKernel(M, N, w)
    requires forall r :: 0 <= r < |N| ==> Dot(N[r], z, 0, w) == 0.0
    ensures forall r :: 0 <= r < |M| ==> Dot(M[r], z, 0, w) == 0.0
  {
    assert Kernel(N, z);
  }

  /** A row of [A | b] against y + [0] is just A[r]·y. */
  lemma AugRowNull(a: seq<real>, beta: real, y: seq<real>, row: seq<real>, z: seq<real>, n: nat)
    requires |a| == |y| == n && row == a + [beta] && z == y + [0.0]
    ensures Dot(row, z, 0, n + 1) == Dot(a, y, 0, n)
  {
    AugRow(a, beta, y, 0.0, row, z, n);
  }

  /** The null vector of a matrix whose column i is zero from row i down. */
  lemma NullVector(M: seq<seq<real>>, i: nat) returns (y: seq<real>)
    requires i < |M| && Rows(M, |M| + 1) && PivotsNonzero(M, i, |M| + 1)
    ensures |y| == |M| && y[i] == 1.0
    ensures forall j :: i < j < |M| ==> y[j] == 0.0
    ensures forall r :: 0 <= r < i ==> Dot(M[r], y, r, |M|) == 0.0
  {
    var n := |M|;
    y := seq(n, j => if j == i then 1.0 else 0.0);
    var c := i;
    while c > 0
      invariant 0 <= c <= i && |y| == n && y[i] == 1.0
      invariant forall j :: i < j < n ==> y[j] == 0.0
      invariant forall r :: c <= r < i ==> Dot(M[r], y, r, n) == 0.0
    {
      c := c - 1;
      var v := (0.0 - Dot(M[c], y, c + 1, n)) / M[c][c];
      var y' := y[c := v];
      forall r | c < r < i
        ensures Dot(M[r], y', r, n) == 0.0
      {
        DotFrame(M[r], M[r], y, y', r, n);
      }
      DotFrame(M[c], M[c], y, y', c + 1, n);
      DotSplitLow(M[c], y', c, n);
      SolveStep(M[c][c], Dot(M[c], y, c + 1, n), 0.0, v);
      y := y';
    }
  }

  /** Every row of M is orthogonal to the null vector built for a zero pivot column i. */
  lemma RowAgainstNullVector(u: seq<real>, y: seq<real>, r: nat, i: nat)
    requires |u| == |y| + 1 && r < |y| && i < |y|
    requires forall c :: 0 <= c < i && c < r ==> u[c] == 0.0
    requires i <= r ==> u[i] == 0.0
    requires forall j :: i < j < |y| ==> y[j] == 0.0
    requires r < i ==> Dot(u, y, r, |y|) == 0.0
    ensures Dot(u, y + [0.0], 0, |y| + 1) == 0.0
  {
    var n := |y|;
    DotFrame(u, u, y, y + [0.0], 0, n);
    if r < i {
      DotSplit(u, y, 0, r, n);
      DotZero(u, y, 0, r);
    } else {
      DotZero(u, y, 0, n);
    }
  }

  /** A non-singular system has at most one solution. */
  lemma SolutionUnique(A: seq<seq<real>>, b: seq<real>, x: seq<real>)
    requires IsSquare(A) && |b| == |A| && !Singular(A) && Solves(A, x, b)
    ensures forall x' :: Solves(A, x', b) ==> x' == x
    ensures GaussSolution(A, b) == Some(x)
  {
    var n := |A|;
    forall x' | Solves(A, x', b)
      ensures x' == x
    {
      var y := seq(n, j requires 0 <= j < n => x'[j] - x[j]);
      forall r | 0 <= r < n
        ensures Dot(A[r], y, 0, n) == 0.0
      {
        DotDiff(A[r], x', x, y, 0, n);
      }
      assert IsNull(A, y);
      if x' != x {
        var j :| 0 <= j < n && x'[j] != x[j];
        assert y[j] != 0.0;
        assert NonZero(y);
        assert false;
      }
    }
  }

  // Facts about Dot.

  lemma {:induction false} DotSplitLow(u: seq<real>, z: seq<real>, lo: nat, hi: nat)
    requires lo < hi <= |u| && hi <= |z|
    ensures Dot(u, z, lo, hi) == u[lo] * z[lo] + Dot(u, z, lo + 1, hi)
    decreases hi - lo
  {
    if lo + 1 < hi {
      DotSplitLow(u, z, lo, hi - 1);
    }
  }

  lemma {:induction false} DotSplit(u: seq<real>, z: seq<real>, lo: nat, mid: nat, hi: nat)
    requires lo <= mid <= hi <= |u| && hi <= |z|
    ensures Dot(u, z, lo, hi) == Dot(u, z, lo, mid) + Dot(u, z, mid, hi)
    decreases hi - mid
  {
    if mid < hi {
      DotSplit(u, z, lo, mid, hi - 1);
    }
  }

  lemma {:induction false} DotZero(u: seq<real>, z: seq<real>, lo: nat, hi: nat)
    requires lo <= hi <= |u| && hi <= |z|
    requires forall j :: lo <= j < hi ==> u[j] == 0.0 || z[j] == 0.0
    ensures Dot(u, z, lo, hi) == 0.0
    decreases hi - lo
  {
    if lo < hi {
      DotZero(u, z, lo, hi - 1);
    }
  }

  lemma {:induction false} DotFrame(u: seq<real>, u': seq<real>, z: seq<real>, z': seq<real>, lo: nat, hi: nat)
    requires lo <= hi <= |u| && hi <= |u'| && hi <= |z| && hi <= |z'|
    requires forall j :: lo <= j < hi ==> u[j] == u'[j] && z[j] == z'[j]
    ensures Dot(u, z, lo, hi) == Dot(u', z', lo, hi)
    decreases hi - lo
  {
    if lo < hi {
      DotFrame(u, u', z, z', lo, hi - 1);
    }
  }

  /** Dot is linear in its first argument: (u - f·v)·z = u·z - f·(v·z). */
  lemma {:induction false} DotCombine(u: seq<real>, v: seq<real>, w: seq<real>, f: real, z: seq<real>, lo: nat, hi: nat)
    requires lo <= hi <= |u| && hi <= |v| && hi <= |w| && hi <= |z|
    requires forall j :: lo <= j < hi ==> w[j] == u[j] - f * v[j]
    ensures Dot(w, z, lo, hi) == Dot(u, z, lo, hi) - f * Dot(v, z, lo, hi)
    decreases hi - lo
  {
    if lo < hi {
      DotCombine(u, v, w, f, z, lo, hi - 1);
      CombineStep(Dot(w, z, lo, hi - 1), Dot(u, z, lo, hi - 1), Dot(v, z, lo, hi - 1),
        w[hi - 1], u[hi - 1], v[hi - 1], z[hi - 1], f);
    }
  }

  lemma CombineStep(dw: real, du: real, dv: real, wh: real, uh: real, vh: real, zh: real, f: real)
    requires dw == du - f * dv && wh == uh - f * vh
    ensures dw + wh * zh == (du + uh * zh) - f * (dv + vh * zh)
  {
  }

  /** Dot is linear in its second argument: u·(x' - x) = u·x' - u·x. */
  lemma {:induction false} DotDiff(u: seq<real>, x': seq<real>, x: seq<real>, y: seq<real>, lo: nat, hi: nat)
    requires lo <= hi <= |u| && hi <= |x'| && hi <= |x| && hi <= |y|
    requires forall j :: lo <= j < hi ==> y[j] == x'[j] - x[j]
    ensures Dot(u, y, lo, hi) == Dot(u, x', lo, hi) - Dot(u, x, lo, hi)
    decreases hi - lo
  {
    if lo < hi {
      DotDiff(u, x', x, y, lo, hi - 1);
      DiffStep(Dot(u, y, lo, hi - 1), Dot(u, x', lo, hi - 1), Dot(u, x, lo, hi - 1),
        u[hi - 1], x'[hi - 1], x[hi - 1], y[hi - 1]);
    }
  }

  lemma DiffStep(dy: real, dx': real, dx: real, uh: real, xh': real, xh: real, yh: real)
    requires dy == dx' - dx && yh == xh' - xh
    ensures dy + uh * yh == (dx' + uh * xh') - (dx + uh * xh)
  {
  }

  /** Dot is additive in its first argument: (u + v)·z = u·z + v·z. */
  lemma {:induction false} DotAdd(u: seq<real>, v: seq<real>, w: seq<real>, z: seq<real>, lo: nat, hi: nat)
    requires lo <= hi <= |u| && hi <= |v| && hi <= |w| && hi <= |z|
    requires forall j :: lo <= j < hi ==> w[j] == u[j] + v[j]
    ensures Dot(w, z, lo, hi) == Dot(u, z, lo, hi) + Dot(v, z, lo, hi)
    decreases hi - lo
  {
    if lo < hi {
      DotAdd(u, v, w, z, lo, hi - 1);
      AddStep(Dot(w, z, lo, hi - 1), Dot(u, z, lo, hi - 1), Dot(v, z, lo, hi - 1),
        w[hi - 1], u[hi - 1], v[hi - 1], z[hi - 1]);
    }
  }

  lemma AddStep(dw: real, du: real, dv: real, wh: real, uh: real, vh: real, zh: real)
    requires dw == du + dv && wh == uh + vh
    ensures dw + wh * zh == (du + uh * zh) + (dv + vh * zh)
  {
  }

  /** Dot is homogeneous in its first argument: (c·u)·z = c·(u·z). */
  lemma {:induction false} DotScale(c: real, u: seq<real>, w: seq<real>, z: seq<real>, lo: nat, hi: nat)
    requires lo <= hi <= |u| && hi <= |w| && hi <= |z|
    requires forall j :: lo <= j < hi ==> w[j] == c * u[j]
    ensures Dot(w, z, lo, hi) == c * Dot(u, z, lo, hi)
    decreases hi - lo
  {
    if lo < hi {
      DotScale(c, u, w, z, lo, hi - 1);
      ScaleStep(Dot(w, z, lo, hi - 1), Dot(u, z, lo, hi - 1), w[hi - 1], u[hi - 1], z[hi - 1], c);
    }
  }

  lemma ScaleStep(dw: real, du: real, wh: real, uh: real, zh: real, c: real)
    requires dw == c * du && wh == c * uh
    ensures dw + wh * zh == c * (du + uh * zh)
  {
  }
}

=== FILE: least_squares.dfy ===
/**
 * The closed-form least-squares fits of the regression engine
 * (src/regressionHelper.ts:5-35): a straight line y = m*x + c, and a line
 * through the origin y = m*x.
 */
module LeastSquares {
  import opened Types

  // Running sums over a list of (x, y) pairs, accumulated front to back as
  // the loops do. The count is kept as a real so that the algebra below
  // never mixes integers and reals.

  function Count(s: seq<DataPoint>): real
  {
    if s == [] then 0.0 else Count(s[..|s| - 1]) + 1.0
  }

  function SumX(s: seq<DataPoint>): real
  {
    if s == [] then 0.0 else SumX(s[..|s| - 1]) + s[|s| - 1].x
  }

  function SumY(s: seq<DataPoint>): real
  {
    if s == [] then 0.0 else SumY(s[..|s| - 1]) + s[|s| - 1].y
  }

  function SumXY(s: seq<DataPoint>): real
  {
    if s == [] then 0.0 else SumXY(s[..|s| - 1]) + XY(s[|s| - 1])
  }

  function SumXX(s: seq<DataPoint>): real
  {
    if s == [] then 0.0 else SumXX(s[..|s| - 1]) + Sq(s[|s| - 1].x)
  }

  /** x², kept behind a name so that the solver treats it as one quantity. */
  function Sq(x: real): real
  {
    x * x
  }

  /** x*y of one point, kept behind a name for the same reason. */
  function XY(p: DataPoint): real
  {
    p.x * p.y
  }

  lemma {:induction false} CountIsLength(s: seq<DataPoint>)
    ensures Count(s) == |s| as real
  {
    if s != [] {
      CountIsLength(s[..|s| - 1]);
    }
  }

  /** n*Σx² - (Σx)², the determinant of the normal equations of a straight-line fit. */
  function Denominator(s: seq<DataPoint>): real
  {
    Det(Count(s), SumXX(s), SumX(s))
  }

  /** n*q - t², the determinant for the count n, Σx² = q and Σx = t. */
  function Det(n: real, q: real, t: real): real
  {
    n * q - Sq(t)
  }

  /** The slope (n*Σxy - Σx*Σy) / d of the closed form. */
  function FitSlope(n: real, sumX: real, sumY: real, sumXY: real, d: real): real
    requires d != 0.0
  {
    (n * sumXY - sumX * sumY) / d
  }

  /** The intercept (Σy - m*Σx) / n of the closed form. */
  function FitIntercept(n: real, sumX: real, sumY: real, m: real): real
    requires n != 0.0
  {
    (sumY - m * sumX) / n
  }

  /** The (m, c) that simpleLinearRegression returns: (0, 0) when there is no data or the determinant vanishes. */
  function LinearFit(s: seq<DataPoint>): (r: (real, real))
    ensures s == [] || Denominator(s) == 0.0 ==> r.0 == 0.0 && r.1 == 0.0
  {
    FitFromSums(Count(s), SumX(s), SumY(s), SumXY(s), SumXX(s))
  }

  /** The closed form of simpleLinearRegression once the count and the four sums are known. */
  function FitFromSums(n: real, sumX: real, sumY: real, sumXY: real, sumXX: real): (real, real)
  {
    if n == 0.0 then (0.0, 0.0)
    else
      var d := Det(n, sumXX, sumX);
      if d == 0.0 then (0.0, 0.0)
      else
        var m := FitSlope(n, sumX, sumY, sumXY, d);
        (m, FitIntercept(n, sumX, sumY, m))
  }

  /** The m that linearRegressionOrigin returns: the solution of m*Σx² = Σxy, or 0 when Σx² = 0. */
  function OriginFit(s: seq<DataPoint>): (m: real)
    ensures SumXX(s) != 0.0 ==> OriginEquation(SumXX(s), SumXY(s), m)
    ensures SumXX(s) == 0.0 ==> m == 0.0
  {
    if SumXX(s) == 0.0 then 0.0 else SumXY(s) / SumXX(s)
  }

  predicate HasDistinctX(s: seq<DataPoint>)
  {
    exists i, j :: 0 <= i < |s| && 0 <= j < |s| && s[i].x != s[j].x
  }

  predicate OnLine(s: seq<DataPoint>, m: real, c: real)
  {
    forall i :: 0 <= i < |s| ==> s[i].y == m * s[i].x + c
  }

  predicate OnPoint(p: DataPoint, m: real, c: real)
  {
    p.y == m * p.x + c
  }

  /** The normal equation of a line through the origin: m*Σx² = Σxy. */
  predicate OriginEquation(sxx: real, sxy: real, m: real)
  {
    m * sxx == sxy
  }

  /** simpleLinearRegression: one pass accumulating the four sums, then the closed form. */
  method SimpleLinearRegression(data: seq<DataPoint>) returns (m: real, c: real)
    ensures m == LinearFit(data).0 && c == LinearFit(data).1
  {
    var n := |data|;
    if n == 0 {
      return 0.0, 0.0;
    }
    var sumX, sumY, sumXY, sumXX := 0.0, 0.0, 0.0, 0.0;
    var i := 0;
    while i < n
      invariant 0 <= i <= n
      invariant sumX == SumX(data[..i]) && sumY == SumY(data[..i])
      invariant sumXY == SumXY(data[..i]) && sumXX == SumXX(data[..i])
    {
      var p := data[i];
      assert data[..i + 1][..i] == data[..i];
      sumX := sumX + p.x;
      sumY := sumY + p.y;
      sumXY := sumXY + p.x * p.y;
      sumXX := sumXX + p.x * p.x;
      i := i + 1;
    }
    assert data[..n] == data;
    CountIsLength(data);
    m, c := ClosedForm(n as real, sumX, sumY, sumXY, sumXX);
  }

  /** The tail of simpleLinearRegression, from the count and the sums to (m, c). */
  method ClosedForm(n: real, sumX: real, sumY: real, sumXY: real, sumXX: real) returns (m: real, c: real)
    requires n > 0.0
    ensures (m, c) == FitFromSums(n, sumX, sumY, sumXY, sumXX)
  {
    var denominator := n * sumXX - sumX * sumX;
    if denominator == 0.0 {
      return 0.0, 0.0;
    }
    m := (n * sumXY - sumX * sumY) / denominator;
    c := (sumY - m * sumX) / n;
    assert FitFromSums(n, sumX, sumY, sumXY, sumXX).0 == m;
    assert FitFromSums(n, sumX, sumY, sumXY, sumXX).1 == c;
  }

  /** linearRegressionOrigin: one pass accumulating Σxy and Σx², then their quotient. */
  method LinearRegressionOrigin(data: seq<DataPoint>) returns (m: real)
    ensures m == OriginFit(data)
  {
    var sumXY, sumXX := 0.0, 0.0;
    var i := 0;
    while i < |data|
      invariant 0 <= i <= |data|
      invariant sumXY == SumXY(data[..i]) && sumXX == SumXX(data[..i])
    {
      var p := data[i];
      assert data[..i + 1][..i] == data[..i];
      sumXY := sumXY + p.x * p.y;
      sumXX := sumXX + p.x * p.x;
      i := i + 1;
    }
    assert data[..|data|] == data;
    if sumXX == 0.0 {
      return 0.0;
    }
    m := sumXY / sumXX;
  }

  /**
   * Whenever the fit is not degenerate, (m, c) solves the normal equations
   * Σy = m*Σx + c*n and Σxy = m*Σx² + c*Σx, i.e. it is the least-squares line.
   */
  lemma LinearFitNormalEquations(s: seq<DataPoint>)
    requires s != [] && Denominator(s) != 0.0
    ensures NormalEquations(Count(s), SumX(s), SumY(s), SumXY(s), SumXX(s), LinearFit(s).0, LinearFit(s).1)
  {
    CountPositive(s);
    FitSolvesNormalEquations(Count(s), SumX(s), SumY(s), SumXY(s), SumXX(s), LinearFit(s));
  }

  /** The normal equations of the least-squares line: Σy = m*Σx + c*n and Σxy = m*Σx² + c*Σx. */
  predicate NormalEquations(n: real, sx: real, sy: real, sxy: real, sxx: real, m: real, c: real)
  {
    sy == m * sx + c * n && sxy == m * sxx + c * sx
  }

  lemma CountPositive(s: seq<DataPoint>)
    requires s != []
    ensures Count(s) > 0.0
  {
    CountIsLength(s);
  }

  /** The running sums after one more point. */
  lemma SumsStep(s: seq<DataPoint>)
    requires s != []
    ensures Count(s) == Count(s[..|s| - 1]) + 1.0
    ensures SumX(s) == SumX(s[..|s| - 1]) + s[|s| - 1].x
    ensures SumY(s) == SumY(s[..|s| - 1]) + s[|s| - 1].y
    ensures SumXY(s) == SumXY(s[..|s| - 1]) + XY(s[|s| - 1])
    ensures SumXX(s) == SumXX(s[..|s| - 1]) + Sq(s[|s| - 1].x)
  {
  }

  /** Points on y = m*x + c satisfy Σy = m*Σx + c*n and Σxy = m*Σx² + c*Σx. */
  lemma {:induction false} SumsOnLine(s: seq<DataPoint>, m: real, c: real)
    requires OnLine(s, m, c)
    ensures NormalEquations(Count(s), SumX(s), SumY(s), SumXY(s), SumXX(s), m, c)
  {
    if s == [] {
      NormalAtZero(m, c);
    } else {
      var init, p := s[..|s| - 1], s[|s| - 1];
      assert forall i :: 0 <= i < |init| ==> init[i] == s[i];
      SumsOnLine(init, m, c);
      assert OnPoint(p, m, c);
      SumsStep(s);
      NormalStep(Count(init), SumX(init), SumY(init), SumXY(init), SumXX(init), p, m, c,
                 Count(s), SumX(s), SumY(s), SumXY(s), SumXX(s));
    }
  }

  lemma NormalAtZero(m: real, c: real)
    ensures NormalEquations(0.0, 0.0, 0.0, 0.0, 0.0, m, c)
  {
  }

  /** Adding a point of the line keeps the normal equations. */
  lemma NormalStep(n: real, sx: real, sy: real, sxy: real, sxx: real, p: DataPoint, m: real, c: real,
                   n': real, sx': real, sy': real, sxy': real, sxx': real)
    requires NormalEquations(n, sx, sy, sxy, sxx, m, c) && OnPoint(p, m, c)
    requires n' == n + 1.0 && sx' == sx + p.x && sy' == sy + p.y && sxy' == sxy + XY(p) && sxx' == sxx + Sq(p.x)
    ensures NormalEquations(n', sx', sy', sxy', sxx', m, c)
  {
    assert XY(p) == m * Sq(p.x) + c * p.x;
  }

  /** Σ(x - a)² over the list. */
  function SqDev(s: seq<DataPoint>, a: real): real
  {
    if s == [] then 0.0 else SqDev(s[..|s| - 1], a) + Sq(s[|s| - 1].x - a)
  }

  /** e = q - 2a*t + a²*n: Σ(x - a)² in terms of Σx² = q, Σx = t and the count n. */
  predicate Expands(e: real, q: real, t: real, n: real, a: real)
  {
    e == q - 2.0 * a * t + a * a * n
  }

  lemma {:induction false} SqDevExpand(s: seq<DataPoint>, a: real)
    ensures Expands(SqDev(s, a), SumXX(s), SumX(s), Count(s), a)
  {
    if s == [] {
      ExpandsAtZero(a);
    } else {
      var init, x := s[..|s| - 1], s[|s| - 1].x;
      SqDevExpand(init, a);
      SumsStep(s);
      assert SqDev(s, a) == SqDev(init, a) + Sq(x - a);
      ExpandStep(SqDev(init, a), SumXX(init), SumX(init), Count(init), x, a,
                 SqDev(s, a), SumXX(s), SumX(s), Count(s));
    }
  }

  lemma ExpandsAtZero(a: real)
    ensures Expands(0.0, 0.0, 0.0, 0.0, a)
  {
  }

  lemma ExpandStep(e: real, q: real, t: real, n: real, x: real, a: real, e': real, q': real, t': real, n': real)
    requires Expands(e, q, t, n, a)
    requires e' == e + Sq(x - a) && q' == q + Sq(x) && t' == t + x && n' == n + 1.0
    ensures Expands(e', q', t', n', a)
  {
    SquareExpand(x, a);
    assert 2.0 * a * t' == 2.0 * a * t + 2.0 * a * x;
    assert a * a * n' == a * a * n + a * a;
  }

  lemma {:induction false} SqDevNonneg(s: seq<DataPoint>, a: real)
    ensures SqDev(s, a) >= 0.0
  {
    if s != [] {
      SqDevNonneg(s[..|s| - 1], a);
      Square(s[|s| - 1].x - a);
    }
  }

  lemma {:induction false} SqDevAtLeast(s: seq<DataPoint>, a: real, k: nat)
    requires k < |s|
    ensures SqDev(s, a) >= Sq(s[k].x - a)
  {
    var init := s[..|s| - 1];
    Square(s[|s| - 1].x - a);
    if k < |s| - 1 {
      SqDevAtLeast(init, a, k);
      assert init[k] == s[k];
    } else {
      SqDevNonneg(init, a);
    }
  }

  /** Adding a point at x raises the determinant by Σ(xᵢ - x)² over the earlier points. */
  lemma DenominatorStep(s: seq<DataPoint>)
    requires s != []
    ensures Denominator(s) == Denominator(s[..|s| - 1]) + SqDev(s[..|s| - 1], s[|s| - 1].x)
  {
    var init, a := s[..|s| - 1], s[|s| - 1].x;
    SqDevExpand(init, a);
    SumsStep(s);
    DenominatorAlgebra(Count(init), SumXX(init), SumX(init), a, Count(s), SumXX(s), SumX(s),
      Denominator(init), Denominator(s), SqDev(init, a));
  }

  lemma {:induction false} DenominatorNonneg(s: seq<DataPoint>)
    ensures Denominator(s) >= 0.0
  {
    if s != [] {
      DenominatorStep(s);
      DenominatorNonneg(s[..|s| - 1]);
      SqDevNonneg(s[..|s| - 1], s[|s| - 1].x);
    }
  }

  /** The determinant is positive as soon as two x differ. */
  lemma {:induction false} DenominatorPositive(s: seq<DataPoint>)
    requires HasDistinctX(s)
    ensures Denominator(s) > 0.0
  {
    var i, j :| 0 <= i < |s| && 0 <= j < |s| && s[i].x != s[j].x;
    var last := |s| - 1;
    if i < last && j < last {
      assert s[..last][i] == s[i] && s[..last][j] == s[j];
      DenominatorPositive(s[..last]);
      DenominatorGrows(s);
    } else {
      DenominatorNewX(s, if i < last then i else j);
    }
  }

  lemma DenominatorGrows(s: seq<DataPoint>)
    requires s != []
    ensures Denominator(s) >= Denominator(s[..|s| - 1])
  {
    DenominatorStep(s);
    SqDevNonneg(s[..|s| - 1], s[|s| - 1].x);
  }

  lemma DenominatorNewX(s: seq<DataPoint>, k: nat)
    requires k < |s| - 1 && s[k].x != s[|s| - 1].x
    ensures Denominator(s) > 0.0
  {
    var init, a := s[..|s| - 1], s[|s| - 1].x;
    assert init[k] == s[k];
    DenominatorStep(s);
    DenominatorNonneg(init);
    SqDevAtLeast(init, a, k);
    NonzeroSquare(init[k].x - a);
  }

  /** Points lying exactly on y = m*x + c, with two distinct x, are fitted by exactly that line. */
  lemma LinearFitRecoversLine(s: seq<DataPoint>, m: real, c: real)
    requires OnLine(s, m, c)
    requires HasDistinctX(s)
    ensures LinearFit(s) == (m, c)
  {
    SumsOnLine(s, m, c);
    DenominatorPositive(s);
    LinearFitOfSums(s, m, c);
  }

  lemma LinearFitOfSums(s: seq<DataPoint>, m: real, c: real)
    requires s != [] && Denominator(s) != 0.0
    requires NormalEquations(Count(s), SumX(s), SumY(s), SumXY(s), SumXX(s), m, c)
    ensures LinearFit(s) == (m, c)
  {
    CountPositive(s);
    FitOfLine(Count(s), SumX(s), SumY(s), SumXY(s), SumXX(s), m, c);
  }

  /** Σx² is positive as soon as one x is nonzero. */
  lemma {:induction false} SumXXPositive(s: seq<DataPoint>)
    requires exists i :: 0 <= i < |s| && s[i].x != 0.0
    ensures SumXX(s) > 0.0
  {
    var i :| 0 <= i < |s| && s[i].x != 0.0;
    var init, x := s[..|s| - 1], s[|s| - 1].x;
    if i < |s| - 1 {
      assert init[i] == s[i];
      SumXXPositive(init);
      Square(x);
    } else {
      SumXXNonneg(init);
      NonzeroSquare(x);
    }
  }

  lemma {:induction false} SumXXNonneg(s: seq<DataPoint>)
    ensures SumXX(s) >= 0.0
  {
    if s != [] {
      SumXXNonneg(s[..|s| - 1]);
      Square(s[|s| - 1].x);
    }
  }

  /** Points on y = k*x with some x ≠ 0 are fitted through the origin with slope exactly k. */
  lemma OriginFitRecoversSlope(s: seq<DataPoint>, k: real)
    requires OnLine(s, k, 0.0)
    requires exists i :: 0 <= i < |s| && s[i].x != 0.0
    ensures OriginFit(s) == k
  {
    SumXXPositive(s);
    SumsOnLine(s, k, 0.0);
    Cancel(OriginFit(s), k, Count(s), SumX(s), SumY(s), SumXY(s), SumXX(s));
  }

  // Algebra on plain reals, kept apart so that the solver sees no sequences.

  lemma Square(x: real)
    ensures Sq(x) >= 0.0
  {
    if x != 0.0 {
      NonzeroSquare(x);
    }
  }

  lemma NonzeroSquare(x: real)
    requires x != 0.0
    ensures Sq(x) > 0.0
  {
    if x > 0.0 {
      ProductPositive(x, x, Sq(x));
    } else {
      ProductPositive(-x, -x, Sq(x));
    }
  }

  lemma ProductPositive(a: real, b: real, q: real)
    requires a > 0.0 && b > 0.0 && q == a * b
    ensures q > 0.0
  {
  }

  lemma SquareExpand(x: real, a: real)
    ensures Sq(x - a) == Sq(x) - 2.0 * a * x + a * a
  {
  }

  /** Two slopes that both solve m*Σx² = Σxy with Σx² ≠ 0 agree. */
  lemma Cancel(m: real, k: real, n: real, sx: real, sy: real, sxy: real, sxx: real)
    requires sxx != 0.0 && OriginEquation(sxx, sxy, m) && NormalEquations(n, sx, sy, sxy, sxx, k, 0.0)
    ensures m == k
  {
    assert (m - k) * sxx == 0.0;
  }

  /** The closed form solves the normal equations. */
  lemma FitSolvesNormalEquations(n: real, sx: real, sy: real, sxy: real, sxx: real, r: (real, real))
    requires n != 0.0 && Det(n, sxx, sx) != 0.0 && r == FitFromSums(n, sx, sy, sxy, sxx)
    ensures NormalEquations(n, sx, sy, sxy, sxx, r.0, r.1)
  {
    var d := Det(n, sxx, sx);
    var m := FitSlope(n, sx, sy, sxy, d);
    assert r == (m, FitIntercept(n, sx, sy, m));
    SlopeSolves(n, sx, sy, sxy, sxx, d, m, FitIntercept(n, sx, sy, m));
  }

  lemma SlopeSolves(n: real, sx: real, sy: real, sxy: real, sxx: real, d: real, m: real, c: real)
    requires n != 0.0 && d == Det(n, sxx, sx) && d != 0.0
    requires m == FitSlope(n, sx, sy, sxy, d) && c == FitIntercept(n, sx, sy, m)
    ensures NormalEquations(n, sx, sy, sxy, sxx, m, c)
  {
    assert m * d == n * sxy - sx * sy;
    assert c * n == sy - m * sx;
    assert n * (m * sxx + c * sx) == n * sxy by {
      calc {
        n * (m * sxx + c * sx);
        m * (n * sxx) + (c * n) * sx;
        m * (n * sxx) + (sy - m * sx) * sx;
        m * (n * sxx - Sq(sx)) + sx * sy;
        n * sxy;
      }
    }
  }

  /** A line that solves the normal equations is what the closed form returns. */
  lemma FitOfLine(n: real, sx: real, sy: real, sxy: real, sxx: real, m: real, c: real)
    requires n != 0.0 && Det(n, sxx, sx) != 0.0
    requires NormalEquations(n, sx, sy, sxy, sxx, m, c)
    ensures FitFromSums(n, sx, sy, sxy, sxx) == (m, c)
  {
    SlopeOfLine(n, sx, sy, sxy, sxx, m, c);
    assert FitFromSums(n, sx, sy, sxy, sxx)
      == (FitSlope(n, sx, sy, sxy, Det(n, sxx, sx)), FitIntercept(n, sx, sy, FitSlope(n, sx, sy, sxy, Det(n, sxx, sx))));
  }

  lemma SlopeOfLine(n: real, sx: real, sy: real, sxy: real, sxx: real, m: real, c: real)
    requires n != 0.0 && Det(n, sxx, sx) != 0.0
    requires NormalEquations(n, sx, sy, sxy, sxx, m, c)
    ensures FitSlope(n, sx, sy, sxy, Det(n, sxx, sx)) == m
    ensures FitIntercept(n, sx, sy, m) == c
  {
    var d := Det(n, sxx, sx);
    assert n * sxy - sx * sy == n * (m * sxx + c * sx) - sx * (m * sx + c * n);
    assert n * (m * sxx + c * sx) - sx * (m * sx + c * n) == m * d;
  }

  lemma DenominatorAlgebra(n: real, q: real, t: real, a: real, n': real, q': real, t': real, d: real, d': real, e: real)
    requires n' == n + 1.0 && q' == q + Sq(a) && t' == t + a
    requires d == Det(n, q, t) && d' == Det(n', q', t') && Expands(e, q, t, n, a)
    ensures d' == d + e
  {
  }
}

=== FILE: menu_bar.dfy ===
/**
 * The application menu bar (src/components/layout/MenuBar.tsx): which
 * drop-down is open, which commands may run, and the app zoom buttons.
 * Running a command is the caller's business; the model says whether it
 * runs and what happens to the open menu.
 */
module MenuBar {
  import opened Types

  datatype Menu = FileMenu | SettingsMenu | HelpMenu

  datatype Command =
    | Save | SaveAs | Load | ExportPng | ExportJpg | UndoCommand | RedoCommand
    | OpenExportSettings | ToggleAutoCrop | ToggleTheme | About

  /** Save needs a saved path, Undo something to undo, Redo something to redo; the rest always run. */
  predicate Enabled(cmd: Command, hasSavedPath: bool, canUndo: bool, canRedo: bool): (ok: bool)
    ensures ok <==> (cmd == Save ==> hasSavedPath) && (cmd == UndoCommand ==> canUndo) && (cmd == RedoCommand ==> canRedo)
  {
    match cmd
    case Save => hasSavedPath
    case UndoCommand => canUndo
    case RedoCommand => canRedo
    case _ => true
  }

  class MenuState {
    var activeMenu: Option<Menu>

    constructor ()
      ensures activeMenu == None
    {
      activeMenu := None;
    }

    /** toggleMenu: clicking the open menu's title closes it, any other title opens that menu. */
    method ToggleMenu(menu: Menu)
      modifies this
      ensures old(activeMenu) == Some(menu) ==> activeMenu == None
      ensures old(activeMenu) != Some(menu) ==> activeMenu == Some(menu)
    {
      activeMenu := if activeMenu == Some(menu) then None else Some(menu);
    }

    /** handleMouseEnter: hovering a title switches menus only while one is open. */
    method MouseEnter(menu: Menu)
      modifies this
      ensures old(activeMenu).Some? ==> activeMenu == Some(menu)
      ensures old(activeMenu).None? ==> activeMenu == None
    {
      if activeMenu.Some? {
        activeMenu := Some(menu);
      }
    }

    /**
     * Clicking a menu option: a disabled option does nothing; an enabled one
     * runs through handleAction, which always closes the menu.
     */
    method Choose(cmd: Command, hasSavedPath: bool, canUndo: bool, canRedo: bool) returns (run: bool)
      modifies this
      ensures run == Enabled(cmd, hasSavedPath, canUndo, canRedo)
      ensures run ==> activeMenu == None
      ensures !run ==> activeMenu == old(activeMenu)
    {
      run := Enabled(cmd, hasSavedPath, canUndo, canRedo);
      if run {
        activeMenu := None;
      }
    }

    /** A click on the bar itself, outside the window, or a window blur closes the menu. */
    method Dismiss()
      modifies this
      ensures activeMenu == None
    {
      activeMenu := None;
    }
  }

  /** Number(x.toFixed(1)) for a non-negative x: the nearest tenth, halves rounded up. */
  function ToTenth(x: real): (t: real)
    requires x >= 0.0
    ensures t - 0.05 <= x < t + 0.05
    ensures (t * 10.0).Floor as real == t * 10.0
  {
    var n := (x * 10.0 + 0.5).Floor;
    assert (n as real / 10.0) * 10.0 == n as real;
    n as real / 10.0
  }

  /** handleZoom: the zoom moved by delta, kept within 50%..200%, then rounded to one decimal. */
  function Zoom(zoom: real, delta: real): (z: real)
    ensures 0.5 <= z <= 2.0
    ensures (z * 10.0).Floor as real == z * 10.0
  {
    var raised := if zoom + delta > 0.5 then zoom + delta else 0.5;
    var clamped := if raised < 2.0 then raised else 2.0;
    ToTenth(clamped)
  }

  /** A zoom already in range and on a tenth stays where it is for a zero step. */
  lemma ZoomSteady(zoom: real)
    requires 0.5 <= zoom <= 2.0 && (zoom * 10.0).Floor as real == zoom * 10.0
    ensures Zoom(zoom, 0.0) == zoom
  {
    var k := (zoom * 10.0).Floor;
    assert (zoom * 10.0 + 0.5).Floor == k;
  }

  /** From a tenth in range, a step of 0.1 moves exactly one tenth unless the limit is reached. */
  lemma ZoomStep(zoom: real)
    requires 0.5 <= zoom <= 2.0 && (zoom * 10.0).Floor as real == zoom * 10.0
    ensures Zoom(zoom, 0.1) == (if zoom < 2.0 then zoom + 0.1 else 2.0)
    ensures Zoom(zoom, -0.1) == (if zoom > 0.5 then zoom - 0.1 else 0.5)
  {
    var k := (zoom * 10.0).Floor;
    if zoom < 2.0 {
      assert ((zoom + 0.1) * 10.0 + 0.5).Floor == k + 1;
    }
    if zoom > 0.5 {
      assert ((zoom - 0.1) * 10.0 + 0.5).Floor == k - 1;
    }
    assert (2.0 * 10.0 + 0.5).Floor == 20;
    assert (0.5 * 10.0 + 0.5).Floor == 5;
  }
}

=== FILE: notifications.dfy ===
/**
 * The notification store (src/contexts/NotificationContext.tsx): new
 * notifications appear as toasts; a dismissed toast moves to the history
 * list shown in the panel, where entries are marked read, removed or
 * cleared. crypto.randomUUID() and Date.now() are parameters.
 */
module Notifications {
  import opened Types

  /** `list.filter(n => n.id !== id)` */
  function Without(list: seq<AppNotification>, id: string): (r: seq<AppNotification>)
    ensures |r| <= |list|
    ensures forall i :: 0 <= i < |r| ==> r[i].id != id && r[i] in list
    ensures forall n :: n in list && n.id != id ==> n in r
  {
    if list == [] then []
    else if list[0].id == id then Without(list[1..], id)
    else [list[0]] + Without(list[1..], id)
  }

  /** `list.find(t => t.id === id)`: the first entry with that id. */
  function FindId(list: seq<AppNotification>, id: string): (r: Option<AppNotification>)
    ensures r.Some? ==> r.value in list && r.value.id == id
    ensures r.Some? ==>
      exists i :: 0 <= i < |list| && list[i] == r.value && forall j :: 0 <= j < i ==> list[j].id != id
    ensures r.None? <==> forall i :: 0 <= i < |list| ==> list[i].id != id
  {
    if list == [] then None
    else if list[0].id == id then Some(list[0])
    else
      var r := FindId(list[1..], id);
      assert forall k :: 0 <= k < |list| - 1 ==> list[1..][k] == list[k + 1];
      r
  }

  /** `list.map(n => n.id === id ? {...n, read: true} : n)` */
  function MarkRead(list: seq<AppNotification>, id: string): (r: seq<AppNotification>)
    ensures |r| == |list|
    ensures forall i :: 0 <= i < |list| ==>
      r[i] == if list[i].id == id then list[i].(read := true) else list[i]
  {
    seq(|list|, i requires 0 <= i < |list| => if list[i].id == id then list[i].(read := true) else list[i])
  }

  /** `list.filter(n => !n.read).length` */
  function UnreadCount(list: seq<AppNotification>): (count: nat)
    ensures count <= |list|
  {
    if list == [] then 0 else (if list[0].read then 0 else 1) + UnreadCount(list[1..])
  }

  /** The number of entries with the given id. */
  function CountId(list: seq<AppNotification>, id: string): nat
  {
    if list == [] then 0 else (if list[0].id == id then 1 else 0) + CountId(list[1..], id)
  }

  /** The number of unread entries with the given id. */
  function UnreadWithId(list: seq<AppNotification>, id: string): nat
  {
    if list == [] then 0 else (if list[0].id == id && !list[0].read then 1 else 0) + UnreadWithId(list[1..], id)
  }

  /** Filtering distributes over concatenation: the entries kept stay in their order. */
  lemma {:induction false} WithoutAppend(a: seq<AppNotification>, b: seq<AppNotification>, id: string)
    ensures Without(a + b, id) == Without(a, id) + Without(b, id)
  {
    if a == [] {
      assert a + b == b;
    } else {
      assert (a + b)[1..] == a[1..] + b;
      WithoutAppend(a[1..], b, id);
    }
  }

  /** Filtering removes exactly the entries with that id. */
  lemma {:induction false} WithoutCount(list: seq<AppNotification>, id: string)
    ensures |Without(list, id)| == |list| - CountId(list, id)
    ensures CountId(Without(list, id), id) == 0
  {
    if list != [] {
      WithoutCount(list[1..], id);
    }
  }

  /** Filtering out an id nobody has keeps the list as it is. */
  lemma {:induction false} WithoutAbsent(list: seq<AppNotification>, id: string)
    requires forall i :: 0 <= i < |list| ==> list[i].id != id
    ensures Without(list, id) == list
  {
    if list != [] {
      WithoutAbsent(list[1..], id);
    }
  }

  /** Marking as read twice is the same as marking once. */
  lemma MarkReadIdempotent(list: seq<AppNotification>, id: string)
    ensures MarkRead(MarkRead(list, id), id) == MarkRead(list, id)
  {
  }

  /** Marking as read lowers the unread count by the unread entries with that id, and never raises it. */
  lemma {:induction false} MarkReadUnread(list: seq<AppNotification>, id: string)
    ensures UnreadCount(MarkRead(list, id)) == UnreadCount(list) - UnreadWithId(list, id)
    ensures UnreadCount(MarkRead(list, id)) <= UnreadCount(list)
  {
    if list != [] {
      MarkReadUnread(list[1..], id);
      assert MarkRead(list, id)[1..] == MarkRead(list[1..], id);
    }
  }

  /** Removing entries never raises the unread count. */
  lemma {:induction false} WithoutUnread(list: seq<AppNotification>, id: string)
    ensures UnreadCount(Without(list, id)) <= UnreadCount(list)
  {
    if list != [] {
      WithoutUnread(list[1..], id);
    }
  }

  /** The unread count of a prepended list. */
  lemma PrependUnread(n: AppNotification, list: seq<AppNotification>)
    ensures UnreadCount([n] + list) == (if n.read then 0 else 1) + UnreadCount(list)
  {
    assert ([n] + list)[1..] == list;
  }

  /** The provider's three pieces of state, updated in place by its callbacks. */
  class NotificationCenter {
    var notifications: seq<AppNotification>
    var toasts: seq<AppNotification>
    var isPanelOpen: bool

    constructor ()
      ensures notifications == [] && toasts == [] && !isPanelOpen
    {
      notifications, toasts, isPanelOpen := [], [], false;
    }

    /** unreadCount */
    function Unread(): (count: nat)
      reads this
      ensures count <= |notifications|
    {
      UnreadCount(notifications)
    }

    /** addNotification: a new unread toast in front; the history is untouched. */
    method AddNotification(kind: NotificationType, message: string, id: string, now: int)
      modifies this
      ensures toasts == [AppNotification(id, kind, message, now, false)] + old(toasts)
      ensures notifications == old(notifications) && isPanelOpen == old(isPanelOpen)
    {
      toasts := [AppNotification(id, kind, message, now, false)] + toasts;
    }

    /** dismissToast: drop every toast with the id; keep the first of them in the history when asked to. */
    method DismissToast(id: string, saveToHistory: bool)
      modifies this
      ensures toasts == Without(old(toasts), id)
      ensures var found := FindId(old(toasts), id);
        notifications == if found.Some? && saveToHistory then [found.value] + old(notifications) else old(notifications)
      ensures isPanelOpen == old(isPanelOpen)
    {
      var toast := FindId(toasts, id);
      if toast.Some? && saveToHistory {
        notifications := [toast.value] + notifications;
      }
      toasts := Without(toasts, id);
    }

    /** removeNotification */
    method RemoveNotification(id: string)
      modifies this
      ensures notifications == Without(old(notifications), id)
      ensures toasts == old(toasts) && isPanelOpen == old(isPanelOpen)
    {
      notifications := Without(notifications, id);
    }

    /** clearAllNotifications: the history is emptied, toasts stay. */
    method ClearAll()
      modifies this
      ensures notifications == [] && toasts == old(toasts) && isPanelOpen == old(isPanelOpen)
    {
      notifications := [];
    }

    /** markAsRead */
    method MarkAsRead(id: string)
      modifies this
      ensures notifications == MarkRead(old(notifications), id)
      ensures Unread() <= old(Unread())
      ensures toasts == old(toasts) && isPanelOpen == old(isPanelOpen)
    {
      MarkReadUnread(notifications, id);
      notifications := MarkRead(notifications, id);
    }

    /** togglePanel */
    method TogglePanel()
      modifies this
      ensures isPanelOpen == !old(isPanelOpen)
      ensures notifications == old(notifications) && toasts == old(toasts)
    {
      isPanelOpen := !isPanelOpen;
    }

    /** closePanel */
    method ClosePanel()
      modifies this
      ensures !isPanelOpen
      ensures notifications == old(notifications) && toasts == old(toasts)
    {
      isPanelOpen := false;
    }
  }
}

=== FILE: plot_area.dfy ===
/**
 * The plot's pointer handlers (src/components/PlotArea.tsx): editing the
 * control points of a 'manual' regression (add, remove, drag) and drawing a
 * free-hand curve that is fitted by Bézier segments and resampled.
 *
 * The chart's pixel/value conversion and the hit test are not part of this
 * model: the handlers receive the value under the pointer (None when the
 * chart has none) and the index of the hit control point (None for -1).
 */
module PlotArea {
  import opened Types
  import opened Sorting
  import opened Spline
  import opened Regression

  /** `points.findIndex(p => p.x === v.x && p.y === v.y)` for a point that is present. */
  function FirstIndexOf(s: seq<DataPoint>, v: DataPoint): (i: nat)
    requires v in s
    ensures i < |s| && s[i] == v
    ensures forall j :: 0 <= j < i ==> s[j] != v
  {
    if s[0] == v then 0 else 1 + FirstIndexOf(s[1..], v)
  }

  /** `points.splice(i, 1)` on a copy. */
  function RemoveAt(s: seq<DataPoint>, i: nat): (r: seq<DataPoint>)
    requires i < |s|
    ensures |r| == |s| - 1
    ensures forall j :: 0 <= j < i ==> r[j] == s[j]
    ensures forall j :: i <= j < |r| ==> r[j] == s[j + 1]
  {
    s[..i] + s[i + 1..]
  }

  /** Removing a point takes exactly that one occurrence out of the collection. */
  lemma RemoveAtMultiset(s: seq<DataPoint>, i: nat)
    requires i < |s|
    ensures multiset(RemoveAt(s, i)) + multiset{s[i]} == multiset(s)
  {
    assert s == s[..i] + [s[i]] + s[i + 1..];
  }

  /** The control points after a new point v is added: copied, appended, sorted by x. */
  function WithPoint(s: seq<DataPoint>, v: DataPoint): seq<DataPoint>
  {
    SortByX(s + [v])
  }

  /**
   * Adding a point grows the list by one, keeps every old point, is sorted by
   * x, and the index the handler then drags holds the new point.
   */
  lemma WithPointAdds(s: seq<DataPoint>, v: DataPoint)
    ensures |WithPoint(s, v)| == |s| + 1
    ensures multiset(WithPoint(s, v)) == multiset(s) + multiset{v}
    ensures SortedByX(WithPoint(s, v))
    ensures v in WithPoint(s, v) && WithPoint(s, v)[FirstIndexOf(WithPoint(s, v), v)] == v
  {
    assert v in multiset(WithPoint(s, v));
  }

  /** The control points after the dragged point i moves to v: assigned, then sorted by x. */
  function Moved(s: seq<DataPoint>, i: nat, v: DataPoint): seq<DataPoint>
    requires i < |s|
  {
    SortByX(s[i := v])
  }

  /** Dragging keeps the length and replaces exactly the dragged point by v. */
  lemma MovedReplaces(s: seq<DataPoint>, i: nat, v: DataPoint)
    requires i < |s|
    ensures |Moved(s, i, v)| == |s|
    ensures multiset(Moved(s, i, v)) == multiset(s) - multiset{s[i]} + multiset{v}
    ensures SortedByX(Moved(s, i, v))
  {
    assert s == s[..i] + [s[i]] + s[i + 1..];
    assert s[i := v] == s[..i] + [v] + s[i + 1..];
  }

  // ---------------------------------------------------------------------------
  // Bézier resampling of a drawn stroke

  /** `error || 1` with error = xRange / 50: the tolerance handed to fit-curve. */
  function FitTolerance(drawn: seq<DataPoint>): (e: real)
    requires |drawn| >= 2
    ensures e > 0.0
    ensures e == 1.0 <==> MaxX(drawn) - MinX(drawn) == 0.0 || MaxX(drawn) - MinX(drawn) == 50.0
  {
    var range := MaxX(drawn) - MinX(drawn);
    var error := range / 50.0;
    if error == 0.0 then 1.0 else error
  }

  /** Bernstein form of a linear, quadratic or cubic segment at t; any other segment gives (0, 0). */
  function BezierPoint(c: seq<DataPoint>, t: real): DataPoint
  {
    var u := 1.0 - t;
    if |c| == 4 then
      DataPoint(u * u * u * c[0].x + 3.0 * (u * u) * t * c[1].x + 3.0 * u * (t * t) * c[2].x + t * t * t * c[3].x,
                u * u * u * c[0].y + 3.0 * (u * u) * t * c[1].y + 3.0 * u * (t * t) * c[2].y + t * t * t * c[3].y)
    else if |c| == 3 then
      DataPoint(u * u * c[0].x + 2.0 * u * t * c[1].x + t * t * c[2].x,
                u * u * c[0].y + 2.0 * u * t * c[1].y + t * t * c[2].y)
    else if |c| == 2 then
      DataPoint(u * c[0].x + t * c[1].x, u * c[0].y + t * c[1].y)
    else DataPoint(0.0, 0.0)
  }

  /** The 21 samples of one segment, at t = i/20 for i = 0..20. */
  function SegmentCurve(c: seq<DataPoint>): (r: seq<DataPoint>)
    ensures |r| == 21
  {
    seq(21, i requires 0 <= i < 21 => BezierPoint(c, i as real / 20.0))
  }

  /** The samples of every segment, in order. */
  function BezierSamples(curves: seq<seq<DataPoint>>): seq<DataPoint>
  {
    if curves == [] then [] else BezierSamples(curves[..|curves| - 1]) + SegmentCurve(curves[|curves| - 1])
  }

  /** The resampled stroke has 21 points per segment, the samples of segment k occupying 21k .. 21k+20. */
  lemma {:induction false} BezierLength(curves: seq<seq<DataPoint>>)
    ensures |BezierSamples(curves)| == 21 * |curves|
    ensures forall k :: 0 <= k < |curves| ==> BezierSamples(curves)[21 * k .. 21 * k + 21] == SegmentCurve(curves[k])
  {
    if curves != [] {
      var init := curves[..|curves| - 1];
      BezierLength(init);
      forall k | 0 <= k < |curves|
        ensures BezierSamples(curves)[21 * k .. 21 * k + 21] == SegmentCurve(curves[k])
      {
        if k < |curves| - 1 {
          assert curves[k] == init[k];
          assert BezierSamples(curves)[21 * k .. 21 * k + 21] == BezierSamples(init)[21 * k .. 21 * k + 21];
        }
      }
    }
  }

  /** A segment of 2, 3 or 4 control points starts at its first and ends at its last control point. */
  lemma SegmentEndpoints(c: seq<DataPoint>)
    requires 2 <= |c| <= 4
    ensures SegmentCurve(c)[0] == c[0]
    ensures SegmentCurve(c)[20] == c[|c| - 1]
  {
    assert SegmentCurve(c)[0] == BezierPoint(c, 0.0);
    assert SegmentCurve(c)[20] == BezierPoint(c, 1.0);
  }

  /** Any other segment contributes 21 copies of (0, 0). */
  lemma OddSegment(c: seq<DataPoint>)
    requires |c| < 2 || |c| > 4
    ensures forall i :: 0 <= i < 21 ==> SegmentCurve(c)[i] == DataPoint(0.0, 0.0)
  {
  }

  /** A linear segment's samples lie between its two end points. */
  lemma LinearSegmentBetween(c: seq<DataPoint>, i: nat)
    requires |c| == 2 && i < 21 && c[0].x <= c[1].x
    ensures c[0].x <= SegmentCurve(c)[i].x <= c[1].x
  {
    var t := i as real / 20.0;
    assert SegmentCurve(c)[i] == BezierPoint(c, t);
    Between(c[0].x, c[1].x, t, SegmentCurve(c)[i].x);
  }

  lemma Between(a: real, b: real, t: real, v: real)
    requires a <= b && 0.0 <= t <= 1.0 && v == (1.0 - t) * a + t * b
    ensures a <= v <= b
  {
    var d := b - a;
    assert v == a + t * d;
    ProductNonneg(t, d, t * d);
    ProductNonneg(1.0 - t, d, (1.0 - t) * d);
    assert d - t * d == (1.0 - t) * d;
  }

  lemma ProductNonneg(p: real, q: real, r: real)
    requires p >= 0.0 && q >= 0.0 && r == p * q
    ensures r >= 0.0
  {
  }

  /** The nested loops of processBezier: curves.forEach, then i = 0..20. */
  method SampleSegments(curves: seq<seq<DataPoint>>) returns (sampled: seq<DataPoint>)
    ensures sampled == BezierSamples(curves)
  {
    sampled := [];
    var k := 0;
    while k < |curves|
      invariant 0 <= k <= |curves|
      invariant sampled == BezierSamples(curves[..k])
    {
      var c := curves[k];
      var i := 0;
      var seg: seq<DataPoint> := [];
      while i <= 20
        invariant 0 <= i <= 21 && seg == SegmentCurve(c)[..i]
      {
        seg := seg + [BezierPoint(c, i as real / 20.0)];
        i := i + 1;
      }
      assert curves[..k + 1][..k] == curves[..k];
      sampled := sampled + seg;
      k := k + 1;
    }
    assert curves[..|curves|] == curves;
  }

  /**
   * The plot's editing state: the control points of the series being edited
   * (its regression.manualPoints) with the curve drawn through them, the
   * index of the point being dragged, and the free-hand stroke with its
   * Bézier resampling.
   */
  class PlotEditor {
    var manualPoints: Option<seq<DataPoint>>
    var regressionPoints: seq<DataPoint>
    var dragging: Option<nat>
    var drawMode: bool
    var isDrawing: bool
    var drawnPoints: seq<DataPoint>
    var bezierPoints: seq<DataPoint>

    /** A dragged index always names a control point. */
    ghost predicate Valid()
      reads this
    {
      dragging.Some? ==> manualPoints.Some? && dragging.value < |manualPoints.value|
    }

    constructor (points: Option<seq<DataPoint>>, curve: seq<DataPoint>)
      ensures Valid()
      ensures manualPoints == points && regressionPoints == curve && dragging.None?
      ensures !drawMode && !isDrawing && drawnPoints == [] && bezierPoints == []
    {
      manualPoints, regressionPoints := points, curve;
      dragging := None;
      drawMode, isDrawing := false, false;
      drawnPoints, bezierPoints := [], [];
    }

    /** updateManualPoints: store the points and redraw the 'manual' curve through them. */
    method UpdateManualPoints(points: seq<DataPoint>)
      modifies this
      ensures manualPoints == Some(points) && regressionPoints == SplineOf(points, 0.5)
      ensures dragging == old(dragging) && drawMode == old(drawMode) && isDrawing == old(isDrawing)
      ensures drawnPoints == old(drawnPoints) && bezierPoints == old(bezierPoints)
    {
      var curve := CalculateSpline(points, 0.5);
      manualPoints := Some(points);
      regressionPoints := curve;
    }

    /**
     * handleMouseDown while a series is being edited. A right click on a
     * point removes it; a click on a point starts dragging it; a click
     * elsewhere adds a point and starts dragging it. Without control points
     * any click starts the list with the point under the pointer.
     */
    method EditPress(hit: Option<nat>, rightClick: bool, at: Option<DataPoint>)
      requires Valid() && dragging.None?
      requires hit.Some? ==> manualPoints.Some? && hit.value < |manualPoints.value|
      modifies this
      ensures Valid()
      ensures drawMode == old(drawMode) && isDrawing == old(isDrawing)
      ensures drawnPoints == old(drawnPoints) && bezierPoints == old(bezierPoints)
      ensures old(manualPoints).None? && at.Some? ==>
        manualPoints == Some([at.value]) && dragging == Some(0) && regressionPoints == SplineOf([at.value], 0.5)
      ensures old(manualPoints).Some? && rightClick && hit.Some? ==>
        manualPoints == Some(RemoveAt(old(manualPoints).value, hit.value)) && dragging.None?
        && regressionPoints == SplineOf(manualPoints.value, 0.5)
      ensures old(manualPoints).Some? && !rightClick && hit.Some? ==>
        manualPoints == old(manualPoints) && regressionPoints == old(regressionPoints) && dragging == hit
      ensures old(manualPoints).Some? && !rightClick && hit.None? && at.Some? ==>
        manualPoints == Some(WithPoint(old(manualPoints).value, at.value))
        && dragging.Some? && manualPoints.value[dragging.value] == at.value
        && regressionPoints == SplineOf(manualPoints.value, 0.5)
      ensures (at.None? && hit.None?) || (old(manualPoints).Some? && rightClick && hit.None?) ==>
        manualPoints == old(manualPoints) && regressionPoints == old(regressionPoints) && dragging.None?
    {
      if manualPoints.Some? {
        var points := manualPoints.value;
        if rightClick {
          if hit.Some? {
            UpdateManualPoints(RemoveAt(points, hit.value));
          }
          return;
        }
        if hit.Some? {
          dragging := hit;
        } else if at.Some? {
          var added := WithPoint(points, at.value);
          WithPointAdds(points, at.value);
          UpdateManualPoints(added);
          dragging := Some(FirstIndexOf(added, at.value));
        }
      } else if at.Some? {
        UpdateManualPoints([at.value]);
        dragging := Some(0);
      }
    }

    /** handleMouseDown outside editing: in draw mode a new stroke starts. */
    method DrawPress()
      modifies this
      ensures drawMode == old(drawMode) && manualPoints == old(manualPoints)
      ensures regressionPoints == old(regressionPoints) && dragging == old(dragging)
      ensures old(drawMode) ==> isDrawing && drawnPoints == [] && bezierPoints == []
      ensures !old(drawMode) ==>
        isDrawing == old(isDrawing) && drawnPoints == old(drawnPoints) && bezierPoints == old(bezierPoints)
    {
      if !drawMode {
        return;
      }
      isDrawing := true;
      drawnPoints := [];
      bezierPoints := [];
    }

    /** handleMouseMove while dragging: the dragged point follows the pointer and the list is re-sorted. */
    method DragTo(at: Option<DataPoint>)
      requires Valid()
      modifies this
      ensures Valid() && dragging == old(dragging)
      ensures drawMode == old(drawMode) && isDrawing == old(isDrawing)
      ensures drawnPoints == old(drawnPoints) && bezierPoints == old(bezierPoints)
      ensures old(dragging).Some? && at.Some? ==>
        manualPoints == Some(Moved(old(manualPoints).value, old(dragging).value, at.value))
        && regressionPoints == SplineOf(manualPoints.value, 0.5)
      ensures old(dragging).None? || at.None? ==>
        manualPoints == old(manualPoints) && regressionPoints == old(regressionPoints)
    {
      if dragging.Some? && at.Some? {
        var moved := Moved(manualPoints.value, dragging.value, at.value);
        UpdateManualPoints(moved);
      }
    }

    /** handleMouseMove while drawing: the stroke grows by the point under the pointer. */
    method DrawTo(at: Option<DataPoint>)
      modifies this
      ensures manualPoints == old(manualPoints) && regressionPoints == old(regressionPoints)
      ensures dragging == old(dragging) && drawMode == old(drawMode) && isDrawing == old(isDrawing)
      ensures bezierPoints == old(bezierPoints)
      ensures drawnPoints == if isDrawing && drawMode && at.Some? then old(drawnPoints) + [at.value] else old(drawnPoints)
    {
      if isDrawing && drawMode && at.Some? {
        drawnPoints := drawnPoints + [at.value];
      }
    }

    /**
     * handleMouseUp: a drag ends; otherwise a stroke in progress ends and is
     * fitted by `fit` (fit-curve, with the tolerance FitTolerance; None when
     * it throws) and resampled.
     */
    method Release(fit: (seq<DataPoint>, real) -> Option<seq<seq<DataPoint>>>)
      requires Valid()
      modifies this
      ensures Valid() && dragging.None?
      ensures manualPoints == old(manualPoints) && regressionPoints == old(regressionPoints)
      ensures drawMode == old(drawMode) && drawnPoints == old(drawnPoints)
      ensures old(dragging).Some? || !old(isDrawing) ==> isDrawing == old(isDrawing) && bezierPoints == old(bezierPoints)
      ensures old(dragging).None? && old(isDrawing) ==> !isDrawing
      ensures old(dragging).None? && old(isDrawing) && |drawnPoints| >= 2 ==>
        var curves := fit(drawnPoints, FitTolerance(drawnPoints));
        bezierPoints == if curves.Some? then BezierSamples(curves.value) else old(bezierPoints)
      ensures |drawnPoints| < 2 ==> bezierPoints == old(bezierPoints)
    {
      if dragging.Some? {
        dragging := None;
        return;
      }
      if !isDrawing {
        return;
      }
      isDrawing := false;
      ProcessBezier(fit);
    }

    /**
     * processBezier: nothing for fewer than two drawn points, else the
     * resampled Bézier fit; a fit that throws is caught and the previous
     * resampling stays.
     */
    method ProcessBezier(fit: (seq<DataPoint>, real) -> Option<seq<seq<DataPoint>>>)
      modifies this
      ensures manualPoints == old(manualPoints) && regressionPoints == old(regressionPoints)
      ensures dragging == old(dragging) && drawMode == old(drawMode) && isDrawing == old(isDrawing)
      ensures drawnPoints == old(drawnPoints)
      ensures |drawnPoints| < 2 ==> bezierPoints == old(bezierPoints)
      ensures |drawnPoints| >= 2 ==>
        var curves := fit(drawnPoints, FitTolerance(drawnPoints));
        bezierPoints == if curves.Some? then BezierSamples(curves.value) else old(bezierPoints)
    {
      if |drawnPoints| < 2 {
        return;
      }
      var curves := fit(drawnPoints, FitTolerance(drawnPoints));
      if curves.Some? {
        bezierPoints := SampleSegments(curves.value);
      }
    }

    /**
     * saveDrawnCurve: a non-empty resampling becomes a new series named
     * "Drawn Curve" (returned for onAddSeries); the stroke is cleared and draw
     * mode ends. An empty resampling changes nothing.
     */
    method SaveDrawnCurve() returns (added: Option<(string, seq<DataPoint>)>)
      modifies this
      ensures manualPoints == old(manualPoints) && regressionPoints == old(regressionPoints)
      ensures dragging == old(dragging) && isDrawing == old(isDrawing)
      ensures old(bezierPoints) != [] ==>
        added == Some(("Drawn Curve", old(bezierPoints))) && drawnPoints == [] && bezierPoints == [] && !drawMode
      ensures old(bezierPoints) == [] ==>
        added.None? && drawnPoints == old(drawnPoints) && bezierPoints == [] && drawMode == old(drawMode)
    {
      added := None;
      if |bezierPoints| > 0 {
        added := Some(("Drawn Curve", bezierPoints));
        drawnPoints := [];
        bezierPoints := [];
        drawMode := false;
      }
    }
  }
}

=== FILE: polynomial_origin.dfy ===
/**
 * polynomialRegressionOrigin (src/regressionHelper.ts:71-114): the least-
 * squares polynomial y = a1*x + a2*x^2 + ... + an*x^n with no constant term.
 * It accumulates the power sums Σx^k (k = 1..2n) and Σy*x^k (k = 1..n) in one
 * pass over the data, assembles the normal equations
 * A[i][j] = Σx^(i+j+2), b[i] = Σy*x^(i+1), and solves them by elimination.
 */
module PolynomialOrigin {
  import opened Types
  import opened Gaussian

  function Pow(x: real, k: nat): real
  {
    if k == 0 then 1.0 else Pow(x, k - 1) * x
  }

  /** Σ x^k over the points. */
  function PowerSum(s: seq<DataPoint>, k: nat): real
  {
    if s == [] then 0.0 else PowerSum(s[..|s| - 1], k) + Pow(s[|s| - 1].x, k)
  }

  /** Σ y*x^k over the points. */
  function PowerSumY(s: seq<DataPoint>, k: nat): real
  {
    if s == [] then 0.0 else PowerSumY(s[..|s| - 1], k) + YPow(s[|s| - 1], k)
  }

  /** One point's term y*x^k. */
  function YPow(p: DataPoint, k: nat): real
  {
    p.y * Pow(p.x, k)
  }

  /** The matrix of the normal equations: square and symmetric. */
  function NormalMatrix(s: seq<DataPoint>, n: nat): (A: seq<seq<real>>)
    ensures |A| == n && IsSquare(A)
    ensures forall i, j :: 0 <= i < n && 0 <= j < n ==> A[i][j] == A[j][i]
  {
    seq(n, i requires 0 <= i < n => NormalRow(s, i, n))
  }

  function NormalRow(s: seq<DataPoint>, i: nat, n: nat): (row: seq<real>)
    ensures |row| == n && forall j :: 0 <= j < n ==> row[j] == PowerSum(s, i + j + 2)
  {
    seq(n, j requires 0 <= j < n => PowerSum(s, i + j + 2))
  }

  /** The right-hand side of the normal equations. */
  function NormalVector(s: seq<DataPoint>, n: nat): (b: seq<real>)
    ensures |b| == n && forall i :: 0 <= i < n ==> b[i] == PowerSumY(s, i + 1)
  {
    seq(n, i requires 0 <= i < n => PowerSumY(s, i + 1))
  }

  /**
   * polynomialRegressionOrigin: the coefficients a1..an, or None when the
   * normal equations are singular.
   */
  method PolynomialRegressionOrigin(data: seq<DataPoint>, order: nat) returns (r: Option<seq<real>>)
    ensures r == GaussSolution(NormalMatrix(data, order), NormalVector(data, order))
  {
    var sumX, sumXY := PowerSums(data, order);
    var A, b := NormalSystem(data, order, sumX, sumXY);
    r := SolveGaussian(A, b);
  }

  /** The single pass over the data: sumX[k] = Σx^k for k = 1..2n and sumXY[k] = Σy*x^k for k = 1..n. */
  method PowerSums(data: seq<DataPoint>, n: nat) returns (sumX: array<real>, sumXY: array<real>)
    ensures sumX.Length == 2 * n + 1 && sumXY.Length == n + 1
    ensures forall k :: 1 <= k <= 2 * n ==> sumX[k] == PowerSum(data, k)
    ensures forall k :: 1 <= k <= n ==> sumXY[k] == PowerSumY(data, k)
  {
    var maxPow := 2 * n;
    sumX := new real[maxPow + 1](_ => 0.0);
    sumXY := new real[n + 1](_ => 0.0);
    var d := 0;
    while d < |data|
      invariant 0 <= d <= |data|
      invariant forall k :: 1 <= k <= maxPow ==> sumX[k] == PowerSum(data[..d], k)
      invariant forall k :: 1 <= k <= n ==> sumXY[k] == PowerSumY(data[..d], k)
    {
      assert data[..d + 1][..d] == data[..d];
      AddPowers(sumX, sumXY, data[..d + 1], n);
      d := d + 1;
    }
    assert data[..|data|] == data;
  }

  /** The inner loop for one point (x, y), the last of s: adds x^k to sumX[k] and y*x^k to sumXY[k]. */
  method AddPowers(sumX: array<real>, sumXY: array<real>, s: seq<DataPoint>, n: nat)
    requires sumX != sumXY && sumX.Length == 2 * n + 1 && sumXY.Length == n + 1 && s != []
    requires forall k :: 1 <= k <= 2 * n ==> sumX[k] == PowerSum(s[..|s| - 1], k)
    requires forall k :: 1 <= k <= n ==> sumXY[k] == PowerSumY(s[..|s| - 1], k)
    modifies sumX, sumXY
    ensures forall k :: 1 <= k <= 2 * n ==> sumX[k] == PowerSum(s, k)
    ensures forall k :: 1 <= k <= n ==> sumXY[k] == PowerSumY(s, k)
  {
    var maxPow := 2 * n;
    var x, y := s[|s| - 1].x, s[|s| - 1].y;
    var xp := x;
    var k := 1;
    while k <= maxPow
      invariant 1 <= k <= maxPow + 1 && xp == Pow(x, k)
      invariant forall j :: 1 <= j < k ==> sumX[j] == PowerSum(s, j)
      invariant forall j :: k <= j <= maxPow ==> sumX[j] == PowerSum(s[..|s| - 1], j)
      invariant forall j :: 1 <= j < k && j <= n ==> sumXY[j] == PowerSumY(s, j)
      invariant forall j :: k <= j <= n ==> sumXY[j] == PowerSumY(s[..|s| - 1], j)
    {
      sumX[k] := sumX[k] + xp;
      if k <= n {
        assert PowerSumY(s, k) == PowerSumY(s[..|s| - 1], k) + y * xp;
        sumXY[k] := sumXY[k] + y * xp;
      }
      xp := xp * x;
      k := k + 1;
    }
  }

  /** Fills A[i][j] = sumX[i+j+2] and b[i] = sumXY[i+1]. */
  method NormalSystem(data: seq<DataPoint>, n: nat, sumX: array<real>, sumXY: array<real>)
    returns (A: seq<seq<real>>, b: seq<real>)
    requires sumX.Length == 2 * n + 1 && sumXY.Length == n + 1
    requires forall k :: 1 <= k <= 2 * n ==> sumX[k] == PowerSum(data, k)
    requires forall k :: 1 <= k <= n ==> sumXY[k] == PowerSumY(data, k)
    ensures A == NormalMatrix(data, n) && b == NormalVector(data, n)
  {
    A, b := [], [];
    var i := 0;
    while i < n
      invariant 0 <= i <= n && |A| == i && |b| == i
      invariant forall r :: 0 <= r < i ==> A[r] == NormalRow(data, r, n)
      invariant forall r :: 0 <= r < i ==> b[r] == PowerSumY(data, r + 1)
    {
      var row := BuildRow(data, i, n, sumX);
      A := A + [row];
      b := b + [sumXY[i + 1]];
      i := i + 1;
    }
  }

  /** One row of the matrix: row[j] = sumX[i+j+2]. */
  method BuildRow(data: seq<DataPoint>, i: nat, n: nat, sumX: array<real>) returns (row: seq<real>)
    requires i < n && sumX.Length == 2 * n + 1
    requires forall k :: 1 <= k <= 2 * n ==> sumX[k] == PowerSum(data, k)
    ensures row == NormalRow(data, i, n)
  {
    row := [];
    var j := 0;
    while j < n
      invariant 0 <= j <= n && |row| == j
      invariant forall c :: 0 <= c < j ==> row[c] == PowerSum(data, i + c + 2)
    {
      row := row + [sumX[i + j + 2]];
      j := j + 1;
    }
  }

  /** a1*x + a2*x^2 + ... + an*x^n for the coefficient list a = [a1, ..., an]. */
  function OriginPoly(a: seq<real>, x: real): real
  {
    Dot(Basis(x, |a|), a, 0, |a|)
  }

  /** The powers x, x^2, ..., x^n. */
  function Basis(x: real, n: nat): (v: seq<real>)
    ensures |v| == n && forall j :: 0 <= j < n ==> v[j] == Pow(x, j + 1)
  {
    seq(n, j requires 0 <= j < n => Pow(x, j + 1))
  }

  /**
   * On data that lie exactly on a polynomial through the origin, the fit
   * returns that polynomial's coefficients whenever the normal equations are
   * non-singular.
   */
  lemma {:induction false} OriginFitRecoversPolynomial(s: seq<DataPoint>, a: seq<real>)
    requires forall k :: 0 <= k < |s| ==> s[k].y == OriginPoly(a, s[k].x)
    requires !Singular(NormalMatrix(s, |a|))
    ensures GaussSolution(NormalMatrix(s, |a|), NormalVector(s, |a|)) == Some(a)
  {
    var n := |a|;
    forall i | 0 <= i < n
      ensures Dot(NormalMatrix(s, n)[i], a, 0, n) == NormalVector(s, n)[i]
    {
      NormalRowOnPolynomial(s, a, i);
    }
    assert Solves(NormalMatrix(s, n), a, NormalVector(s, n));
    SolutionUnique(NormalMatrix(s, n), NormalVector(s, n), a);
  }

  /** Row i of the normal equations holds at the true coefficients. */
  lemma {:induction false} NormalRowOnPolynomial(s: seq<DataPoint>, a: seq<real>, i: nat)
    requires forall k :: 0 <= k < |s| ==> s[k].y == OriginPoly(a, s[k].x)
    ensures Dot(NormalRow(s, i, |a|), a, 0, |a|) == PowerSumY(s, i + 1)
  {
    var n := |a|;
    if s == [] {
      DotZero(NormalRow(s, i, n), a, 0, n);
    } else {
      NormalRowOnPolynomial(s[..|s| - 1], a, i);
      NormalRowStep(s, a, i);
    }
  }

  lemma {:induction false} NormalRowStep(s: seq<DataPoint>, a: seq<real>, i: nat)
    requires s != [] && s[|s| - 1].y == OriginPoly(a, s[|s| - 1].x)
    requires Dot(NormalRow(s[..|s| - 1], i, |a|), a, 0, |a|) == PowerSumY(s[..|s| - 1], i + 1)
    ensures Dot(NormalRow(s, i, |a|), a, 0, |a|) == PowerSumY(s, i + 1)
  {
    var n := |a|;
    var init := s[..|s| - 1];
    DotAdd(NormalRow(init, i, n), LastPointRow(s, i, n), NormalRow(s, i, n), a, 0, n);
    LastRowTerm(s, a, i);
  }

  /** The last point's row, applied to the coefficients, is that point's term y*x^(i+1). */
  lemma LastRowTerm(s: seq<DataPoint>, a: seq<real>, i: nat)
    requires s != [] && s[|s| - 1].y == OriginPoly(a, s[|s| - 1].x)
    ensures Dot(LastPointRow(s, i, |a|), a, 0, |a|) == YPow(s[|s| - 1], i + 1)
  {
    var n := |a|;
    var x := s[|s| - 1].x;
    LastPointRowScaled(s, i, n);
    DotScale(Pow(x, i + 1), Basis(x, n), LastPointRow(s, i, n), a, 0, n);
  }

  /** The contribution of the last point to row i: x^(i+j+2). */
  function LastPointRow(s: seq<DataPoint>, i: nat, n: nat): (pr: seq<real>)
    requires s != []
    ensures |pr| == n
    ensures forall j :: 0 <= j < n ==> NormalRow(s, i, n)[j] == NormalRow(s[..|s| - 1], i, n)[j] + pr[j]
  {
    seq(n, j requires 0 <= j < n => Pow(s[|s| - 1].x, i + j + 2))
  }

  /** That contribution is x^(i+1) times the powers x, ..., x^n. */
  lemma LastPointRowScaled(s: seq<DataPoint>, i: nat, n: nat)
    requires s != []
    ensures forall j :: 0 <= j < n ==>
      LastPointRow(s, i, n)[j] == Pow(s[|s| - 1].x, i + 1) * Basis(s[|s| - 1].x, n)[j]
  {
    var x := s[|s| - 1].x;
    forall j | 0 <= j < n
      ensures LastPointRow(s, i, n)[j] == Pow(x, i + 1) * Basis(x, n)[j]
    {
      PowAdd(x, i + 1, j + 1);
    }
  }

  lemma {:induction false} PowAdd(x: real, p: nat, q: nat)
    ensures Pow(x, p + q) == Pow(x, p) * Pow(x, q)
  {
    if q > 0 {
      PowAdd(x, p, q - 1);
      Assoc(Pow(x, p), Pow(x, q - 1), x);
    }
  }

  lemma Assoc(a: real, b: real, c: real)
    ensures (a * b) * c == a * (b * c)
  {
  }
}

=== FILE: prediction.dfy ===
/**
 * getPredictFunction (src/regressionHelper.ts:291-328): the curve y = f(x) of
 * a regression family, read off its parameter record. Polynomials are stored
 * as the keys "a0", "a1", ... and evaluated term by term until the first
 * missing key; the other families use the keys m, c, a, b.
 *
 * Math.log, Math.exp, Math.sqrt, Math.sin and Math.pow are not part of this
 * model: they are supplied as the fields of an `Externals` record, together
 * with the two fitting routines taken from other libraries.
 */
module Prediction {
  import opened Types
  import opened Text
  import opened Gaussian
  import opened PolynomialOrigin

  /** The functions the engine borrows from the JavaScript runtime and from libraries. */
  datatype Externals = Externals(
    ln: real -> real,
    exp: real -> real,
    sqrt: real -> real,
    sin: real -> real,
    /** Math.pow, which is NaN or infinite for some arguments (a negative base, a zero base with a negative exponent). */
    pow: (real, real) -> Float,
    /** regression.polynomial(points, {order}).equation: entry i is stored as `a${i}`, as the source does. */
    polyFit: (seq<DataPoint>, nat) -> seq<real>,
    /** fitNegativeExponential: the grid search, or None when it finds nothing. */
    negExpFit: (seq<DataPoint>, bool) -> Option<(real, real, real)>)

  /** The property name of a key in the parameter record; a coefficient is `a${i}`. */
  function KeyName(k: ParamKey): (name: string)
    ensures |name| >= 1
  {
    match k
    case KeyM => "m"
    case KeyC => "c"
    case KeyA => "a"
    case KeyB => "b"
    case KeyTension => "tension"
    case KeyCoef(i) => "a" + NatToString(i)
  }

  /** Distinct keys have distinct names, so the record over ParamKey is the source's record over strings. */
  lemma KeyNameInjective(k: ParamKey, k': ParamKey)
    requires KeyName(k) == KeyName(k')
    ensures k == k'
  {
    if k.KeyCoef? && k'.KeyCoef? {
      assert KeyName(k)[1..] == NatToString(k.index);
      assert KeyName(k')[1..] == NatToString(k'.index);
      NatToStringInjective(k.index, k'.index);
    } else if k.KeyCoef? {
      CoefName(k.index, k');
    } else if k'.KeyCoef? {
      CoefName(k'.index, k);
    }
  }

  lemma CoefName(i: nat, k: ParamKey)
    requires !k.KeyCoef?
    ensures KeyName(KeyCoef(i)) != KeyName(k)
  {
    var name := KeyName(KeyCoef(i));
    assert |name| >= 2 && name[0] == 'a' && IsDigit(name[1]);
  }

  /** The coefficient keys below i. */
  function Seen(i: nat): set<ParamKey>
  {
    set j | 0 <= j < i :: KeyCoef(j)
  }

  /** How many keys of a record are not yet visited once a0..a(i-1) have been read. */
  function Remaining(params: Params, i: nat): nat
  {
    |params.Keys - Seen(i)|
  }

  lemma RemainingShrinks(params: Params, i: nat)
    requires KeyCoef(i) in params
    ensures Remaining(params, i + 1) < Remaining(params, i)
  {
    assert Seen(i + 1) == Seen(i) + {KeyCoef(i)};
    assert params.Keys - Seen(i + 1) == (params.Keys - Seen(i)) - {KeyCoef(i)};
  }

  /** The sum of a_j * x^j over the consecutive keys a_i, a_(i+1), ... present in the record. */
  function PolyFrom(params: Params, x: real, i: nat): real
    decreases Remaining(params, i)
  {
    if KeyCoef(i) in params then
      RemainingShrinks(params, i);
      params[KeyCoef(i)] * Pow(x, i) + PolyFrom(params, x, i + 1)
    else 0.0
  }

  /** The polynomial closure: y accumulates a_i * x^i while the key a_i exists. */
  method EvalPolynomial(params: Params, x: real) returns (y: real)
    ensures y == PolyFrom(params, x, 0)
  {
    y := 0.0;
    var xp := 1.0;
    var i := 0;
    while KeyCoef(i) in params
      invariant xp == Pow(x, i)
      invariant y + PolyFrom(params, x, i) == PolyFrom(params, x, 0)
      decreases Remaining(params, i)
    {
      RemainingShrinks(params, i);
      PolyFromStep(params, x, i);
      y := y + params[KeyCoef(i)] * xp;
      xp := xp * x;
      i := i + 1;
    }
  }

  /** The record {a(offset): c[0], a(offset+1): c[1], ...} that coeffs.forEach fills. */
  function CoefficientParams(coeffs: seq<real>, offset: nat): (p: Params)
    ensures forall j :: offset <= j < offset + |coeffs| ==> KeyCoef(j) in p && p[KeyCoef(j)] == coeffs[j - offset]
    ensures forall k :: k in p ==> k.KeyCoef? && offset <= k.index < offset + |coeffs|
  {
    map j | offset <= j < offset + |coeffs| :: KeyCoef(j) := coeffs[j - offset]
  }

  /** coeffs.forEach((c, i) => params[`a${i + offset}`] = c) on a record that starts as p0. */
  method AddCoefficients(p0: Params, coeffs: seq<real>, offset: nat) returns (params: Params)
    ensures params == p0 + CoefficientParams(coeffs, offset)
  {
    params := p0;
    var i := 0;
    while i < |coeffs|
      invariant 0 <= i <= |coeffs|
      invariant params == p0 + CoefficientParams(coeffs[..i], offset)
    {
      CoefficientStep(p0, coeffs, offset, i);
      params := params[KeyCoef(i + offset) := coeffs[i]];
      i := i + 1;
    }
    assert coeffs[..|coeffs|] == coeffs;
  }

  lemma CoefficientStep(p0: Params, coeffs: seq<real>, offset: nat, i: nat)
    requires i < |coeffs|
    ensures p0 + CoefficientParams(coeffs[..i + 1], offset)
      == (p0 + CoefficientParams(coeffs[..i], offset))[KeyCoef(i + offset) := coeffs[i]]
  {
    CoefficientsGrow(coeffs, offset, i);
    UnionUpdate(p0, CoefficientParams(coeffs[..i], offset), KeyCoef(i + offset), coeffs[i]);
  }

  /** One more coefficient adds one key to the record. */
  lemma CoefficientsGrow(coeffs: seq<real>, offset: nat, i: nat)
    requires i < |coeffs|
    ensures CoefficientParams(coeffs[..i + 1], offset)
      == CoefficientParams(coeffs[..i], offset)[KeyCoef(i + offset) := coeffs[i]]
  {
    var lhs := CoefficientParams(coeffs[..i + 1], offset);
    var rhs := CoefficientParams(coeffs[..i], offset)[KeyCoef(i + offset) := coeffs[i]];
    assert lhs.Keys == rhs.Keys;
  }

  /** Updating the right operand of a map union is updating the union. */
  lemma UnionUpdate(p0: Params, q: Params, k: ParamKey, v: real)
    ensures p0 + q[k := v] == (p0 + q)[k := v]
  {
  }

  /** The record a forced-origin polynomial fit returns: a0 = 0 and a(i+1) = coeffs[i]. */
  function OriginParams(coeffs: seq<real>): (p: Params)
    ensures p.Keys == set j | 0 <= j <= |coeffs| :: KeyCoef(j)
    ensures p[KeyCoef(0)] == 0.0 && forall j :: 1 <= j <= |coeffs| ==> p[KeyCoef(j)] == coeffs[j - 1]
  {
    map[KeyCoef(0) := 0.0] + CoefficientParams(coeffs, 1)
  }

  /**
   * Reading back the record of a forced-origin fit gives the polynomial
   * a1*x + ... + an*x^n of its coefficients.
   */
  lemma PolyOfOriginParams(coeffs: seq<real>, x: real)
    ensures PolyFrom(OriginParams(coeffs), x, 0) == OriginPoly(coeffs, x)
  {
    OriginTail(coeffs, x, 1);
    assert PolyFrom(OriginParams(coeffs), x, 0) == 0.0 * Pow(x, 0) + PolyFrom(OriginParams(coeffs), x, 1);
  }

  /** PolyFrom from key a_i on equals the terms i..n of the coefficient polynomial. */
  lemma {:induction false} OriginTail(coeffs: seq<real>, x: real, i: nat)
    requires 1 <= i <= |coeffs| + 1
    ensures PolyFrom(OriginParams(coeffs), x, i) == Dot(Basis(x, |coeffs|), coeffs, i - 1, |coeffs|)
    decreases |coeffs| + 1 - i
  {
    var n := |coeffs|;
    var p := OriginParams(coeffs);
    var u := Basis(x, n);
    OriginKey(coeffs, i);
    if i <= n {
      OriginTail(coeffs, x, i + 1);
      TermStep(p, u, coeffs, x, i);
    }
  }

  /** a_i is in the record of a forced-origin fit exactly for i <= n, holding coeffs[i - 1]. */
  lemma OriginKey(coeffs: seq<real>, i: nat)
    requires 1 <= i
    ensures KeyCoef(i) in OriginParams(coeffs) <==> i <= |coeffs|
    ensures i <= |coeffs| ==> OriginParams(coeffs)[KeyCoef(i)] == coeffs[i - 1]
  {
  }

  /** Key a_i holding coeffs[i - 1] contributes the same term to PolyFrom as to the dot product with the powers. */
  lemma TermStep(p: Params, u: seq<real>, coeffs: seq<real>, x: real, i: nat)
    requires 1 <= i <= |coeffs| == |u|
    requires KeyCoef(i) in p && p[KeyCoef(i)] == coeffs[i - 1] && u[i - 1] == Pow(x, i)
    ensures PolyFrom(p, x, i) - PolyFrom(p, x, i + 1) == Dot(u, coeffs, i - 1, |coeffs|) - Dot(u, coeffs, i, |coeffs|)
  {
    PolyFromStep(p, x, i);
    DotSplitLow(u, coeffs, i - 1, |coeffs|);
  }

  /** One unfolding of PolyFrom at a key that is present. */
  lemma PolyFromStep(params: Params, x: real, i: nat)
    requires KeyCoef(i) in params
    ensures PolyFrom(params, x, i) == params[KeyCoef(i)] * Pow(x, i) + PolyFrom(params, x, i + 1)
  {
  }

  /** c || 0: a missing intercept counts as 0. */
  function Intercept(params: Params): real
  {
    if KeyC in params then params[KeyC] else 0.0
  }

  /** getPredictFunction returns a function for these families and null for none, spline and manual. */
  predicate HasPredictor(kind: RegressionType)
  {
    kind in {Linear, Polynomial, Exponential, Logarithmic, Power, Sqrt, Sinusoidal, NegativeExponential}
  }

  /**
   * The value of the prediction function at x. A missing key makes the
   * arithmetic NaN; so do ln at x <= 0, sqrt at x < 0 and a non-finite pow.
   */
  function Predict(kind: RegressionType, params: Params, ext: Externals, x: real): Float
    requires HasPredictor(kind)
  {
    match kind
    case Linear =>
      if KeyM in params then Finite(params[KeyM] * x + Intercept(params)) else NonFinite
    case Polynomial =>
      Finite(PolyFrom(params, x, 0))
    case Exponential =>
      if KeyA in params && KeyB in params then Finite(params[KeyA] * ext.exp(params[KeyB] * x)) else NonFinite
    case Logarithmic =>
      if KeyA in params && KeyB in params && x > 0.0 then Finite(params[KeyA] + params[KeyB] * ext.ln(x))
      else NonFinite
    case Power =>
      if KeyA in params && KeyB in params && ext.pow(x, params[KeyB]).Finite? then
        Finite(params[KeyA] * ext.pow(x, params[KeyB]).value)
      else NonFinite
    case Sqrt =>
      if KeyM in params && x >= 0.0 then Finite(params[KeyM] * ext.sqrt(x) + Intercept(params)) else NonFinite
    case Sinusoidal =>
      if KeyM in params then Finite(params[KeyM] * ext.sin(x) + Intercept(params)) else NonFinite
    case NegativeExponential =>
      if KeyA in params && KeyB in params && KeyC in params then
        Finite(params[KeyA] - params[KeyB] * ext.exp(-params[KeyC] * x))
      else NonFinite
  }

  /** getPredictFunction: the closure handed to the sampler and to calculateError. */
  function Predictor(kind: RegressionType, params: Params, ext: Externals): (f: real -> Float)
    requires HasPredictor(kind)
  {
    x => Predict(kind, params, ext, x)
  }

  /** A line is finite everywhere once m is set, and a missing c makes it pass through the origin. */
  lemma LinearThroughOrigin(params: Params, ext: Externals, x: real)
    requires KeyM in params
    ensures Predict(Linear, params, ext, x).Finite?
    ensures KeyC !in params || params[KeyC] == 0.0 ==> Predict(Linear, params, ext, x) == Finite(params[KeyM] * x)
  {
  }

  /** The record of a forced-origin polynomial fit predicts 0 at x = 0. */
  lemma OriginPolynomialAtZero(coeffs: seq<real>, ext: Externals)
    ensures Predict(Polynomial, OriginParams(coeffs), ext, 0.0) == Finite(0.0)
  {
    PolyOfOriginParams(coeffs, 0.0);
    forall j | 0 <= j < |coeffs|
      ensures Basis(0.0, |coeffs|)[j] == 0.0
    {
      assert Pow(0.0, j + 1) == Pow(0.0, j) * 0.0;
    }
    DotZero(Basis(0.0, |coeffs|), coeffs, 0, |coeffs|);
  }
}

=== FILE: presets.dfy ===
/**
 * Plot-settings presets (src/components/layout/GlobalSettingsModal.tsx):
 * named copies of the plot settings kept in local storage, one of which may
 * be marked as the startup preset. The storage keys are modelled as two
 * fields; Date.now() ids and the confirm() answer are parameters.
 */
module Presets {
  import opened Types

  datatype Preset = Preset(id: real, name: string, settings: PlotSettings, isStartup: bool)

  /** A stored entry: older versions left empty slots whose settings are null. */
  datatype StoredPreset = StoredPreset(id: real, name: string, settings: Option<PlotSettings>)

  predicate DistinctIds(ps: seq<Preset>)
  {
    forall i, j :: 0 <= i < j < |ps| ==> ps[i].id != ps[j].id
  }

  predicate AtMostOneStartup(ps: seq<Preset>)
  {
    forall i, j :: 0 <= i < |ps| && 0 <= j < |ps| && ps[i].isStartup && ps[j].isStartup ==> i == j
  }

  /** The load effect: empty slots dropped, the startup flag set from the stored startup id. */
  function Normalize(stored: seq<StoredPreset>, startupId: Option<real>): (ps: seq<Preset>)
    ensures |ps| <= |stored|
    ensures forall p :: p in ps ==>
      StoredPreset(p.id, p.name, Some(p.settings)) in stored && (p.isStartup <==> startupId == Some(p.id))
    ensures forall e :: e in stored && e.settings.Some? ==>
      Preset(e.id, e.name, e.settings.value, startupId == Some(e.id)) in ps
  {
    if stored == [] then []
    else
      var e := stored[0];
      var rest := Normalize(stored[1..], startupId);
      if e.settings.None? then rest
      else [Preset(e.id, e.name, e.settings.value, startupId == Some(e.id))] + rest
  }

  /** Loading distributes over concatenation: the filled slots stay in their stored order, once each. */
  lemma {:induction false} NormalizeAppend(a: seq<StoredPreset>, b: seq<StoredPreset>, startupId: Option<real>)
    ensures Normalize(a + b, startupId) == Normalize(a, startupId) + Normalize(b, startupId)
  {
    if a == [] {
      assert a + b == b;
    } else {
      assert (a + b)[1..] == a[1..] + b;
      NormalizeAppend(a[1..], b, startupId);
    }
  }

  /**
   * `newPresets.find(p => p.isStartup)?.id`: what the startup key is set
   * to, the id of the first startup preset, or None when it is removed.
   */
  function FirstStartup(ps: seq<Preset>): (r: Option<real>)
    ensures r.None? <==> forall i :: 0 <= i < |ps| ==> !ps[i].isStartup
    ensures r.Some? ==>
      exists i :: 0 <= i < |ps| && ps[i].isStartup && ps[i].id == r.value && forall j :: 0 <= j < i ==> !ps[j].isStartup
  {
    if ps == [] then None
    else if ps[0].isStartup then Some(ps[0].id)
    else
      var r := FirstStartup(ps[1..]);
      assert forall k :: 0 <= k < |ps| - 1 ==> ps[1..][k] == ps[k + 1];
      r
  }

  /** The list as JSON.stringify writes it, read back. */
  function Stored(ps: seq<Preset>): (stored: seq<StoredPreset>)
    ensures |stored| == |ps|
    ensures forall i :: 0 <= i < |ps| ==> stored[i] == StoredPreset(ps[i].id, ps[i].name, Some(ps[i].settings))
  {
    seq(|ps|, i requires 0 <= i < |ps| => StoredPreset(ps[i].id, ps[i].name, Some(ps[i].settings)))
  }

  lemma {:induction false} NormalizeStored(ps: seq<Preset>, startupId: Option<real>)
    requires forall i :: 0 <= i < |ps| ==> (ps[i].isStartup <==> startupId == Some(ps[i].id))
    ensures Normalize(Stored(ps), startupId) == ps
  {
    if ps != [] {
      assert Stored(ps)[1..] == Stored(ps[1..]);
      NormalizeStored(ps[1..], startupId);
    }
  }

  /**
   * `parseInt(id.toString())`: the integer part of the id, truncated toward
   * zero. A whole-number id comes back unchanged.
   */
  function ParseIntOfId(id: real): (n: real)
    ensures n.Floor as real == n
    ensures 0.0 <= id ==> n <= id < n + 1.0
    ensures id < 0.0 ==> n - 1.0 < id <= n
    ensures id.Floor as real == id ==> n == id
  {
    var k := if id >= 0.0 then id.Floor else -((-id).Floor);
    assert (k as real).Floor == k;
    NegatedWhole(id);
    k as real
  }

  lemma NegatedWhole(id: real)
    ensures id.Floor as real == id ==> (-id).Floor == -id.Floor
  {
    var w := id.Floor;
    if w as real == id {
      assert -id == (-w) as real;
    }
  }

  /** The startup id the load effect reads from the stored key; None when the key is absent. */
  function ParsedStartup(key: Option<real>): (r: Option<real>)
    ensures r.None? <==> key.None?
  {
    if key.Some? then Some(ParseIntOfId(key.value)) else None
  }

  /** The startup preset, if any, has a whole-number id. */
  predicate WholeStartup(ps: seq<Preset>)
  {
    forall i :: 0 <= i < |ps| && ps[i].isStartup ==> ps[i].id.Floor as real == ps[i].id
  }

  /**
   * Loading what was saved gives the same presets back, startup flags
   * included, as long as ids are distinct, at most one preset is the startup
   * one, and its id is a whole number.
   */
  lemma LoadSaved(ps: seq<Preset>)
    requires DistinctIds(ps) && AtMostOneStartup(ps) && WholeStartup(ps)
    ensures Normalize(Stored(ps), ParsedStartup(FirstStartup(ps))) == ps
  {
    var s := FirstStartup(ps);
    forall i | 0 <= i < |ps|
      ensures ps[i].isStartup <==> s == Some(ps[i].id)
    {
      if s.Some? {
        var j :| 0 <= j < |ps| && ps[j].isStartup && ps[j].id == s.value;
      }
    }
    if s.Some? {
      var j :| 0 <= j < |ps| && ps[j].isStartup && ps[j].id == s.value;
      assert ParsedStartup(s) == s;
    }
    NormalizeStored(ps, s);
  }

  /**
   * A startup preset with a fractional id, as the array import creates,
   * loses its startup flag on reload: the key is read back truncated.
   */
  lemma FractionalStartupLost(settings: PlotSettings)
    ensures var ps := [Preset(0.5, "Imported", settings, true)];
      Normalize(Stored(ps), ParsedStartup(FirstStartup(ps))) == [Preset(0.5, "Imported", settings, false)]
  {
    var ps := [Preset(0.5, "Imported", settings, true)];
    assert FirstStartup(ps) == Some(0.5);
    assert ParseIntOfId(0.5) == 0.0;
  }

  /**
   * One element of an imported preset array: its name ("" when missing or
   * empty) and `p.settings || p`, None when that is falsy.
   */
  datatype ImportEntry = ImportEntry(name: string, settings: Option<PlotSettings>)

  /**
   * The presets the array import appends: entry i gets the fresh id ids[i]
   * (Date.now() + Math.random()), "Imported" for a missing name and no
   * startup flag; entries without settings are dropped. Order is kept
   * (ImportedPresetsAppend).
   */
  function ImportedPresets(entries: seq<ImportEntry>, ids: seq<real>): (r: seq<Preset>)
    requires |ids| == |entries|
    ensures |r| <= |entries|
    ensures forall i :: 0 <= i < |r| ==> !r[i].isStartup
    ensures forall i :: 0 <= i < |entries| && entries[i].settings.Some? ==>
      ImportedPreset(entries[i], ids[i]) in r
  {
    if entries == [] then []
    else
      var rest := ImportedPresets(entries[1..], ids[1..]);
      assert forall i :: 1 <= i < |entries| ==> entries[1..][i - 1] == entries[i] && ids[1..][i - 1] == ids[i];
      if entries[0].settings.None? then rest else [ImportedPreset(entries[0], ids[0])] + rest
  }

  function ImportedPreset(e: ImportEntry, id: real): Preset
    requires e.settings.Some?
  {
    Preset(id, if e.name == "" then "Imported" else e.name, e.settings.value, false)
  }

  /** `p` is what the import makes of some entry with settings, with that entry's id. */
  predicate ImportedFrom(entries: seq<ImportEntry>, ids: seq<real>, p: Preset)
    requires |ids| == |entries|
  {
    exists i :: 0 <= i < |entries| && entries[i].settings.Some? && p == ImportedPreset(entries[i], ids[i])
  }

  /** Every imported preset comes from an entry with settings, with that entry's id. */
  lemma {:induction false} ImportedFromEntries(entries: seq<ImportEntry>, ids: seq<real>)
    requires |ids| == |entries|
    ensures forall j :: 0 <= j < |ImportedPresets(entries, ids)| ==> ImportedFrom(entries, ids, ImportedPresets(entries, ids)[j])
  {
    if entries != [] {
      var r := ImportedPresets(entries, ids);
      var rest := ImportedPresets(entries[1..], ids[1..]);
      ImportedFromEntries(entries[1..], ids[1..]);
      var off := if entries[0].settings.Some? then 1 else 0;
      forall j | 0 <= j < |r|
        ensures ImportedFrom(entries, ids, r[j])
      {
        if j < off {
          assert r[j] == ImportedPreset(entries[0], ids[0]);
        } else {
          assert r[j] == rest[j - off];
          var tail, tailIds := entries[1..], ids[1..];
          assert ImportedFrom(tail, tailIds, rest[j - off]);
          var i :| 0 <= i < |entries| - 1 && entries[1..][i].settings.Some?
            && rest[j - off] == ImportedPreset(entries[1..][i], ids[1..][i]);
          assert entries[1..][i] == entries[i + 1] && ids[1..][i] == ids[i + 1];
        }
      }
    }
  }

  /** The import distributes over concatenation: the presets come in the order of their entries, once each. */
  lemma {:induction false} ImportedPresetsAppend(e1: seq<ImportEntry>, e2: seq<ImportEntry>, i1: seq<real>, i2: seq<real>)
    requires |i1| == |e1| && |i2| == |e2|
    ensures ImportedPresets(e1 + e2, i1 + i2) == ImportedPresets(e1, i1) + ImportedPresets(e2, i2)
  {
    if e1 == [] {
      assert e1 + e2 == e2 && i1 + i2 == i2;
    } else {
      assert (e1 + e2)[1..] == e1[1..] + e2 && (i1 + i2)[1..] == i1[1..] + i2;
      ImportedPresetsAppend(e1[1..], e2, i1[1..], i2);
    }
  }

  /** Presets without a startup flag appended after a list leave its startup preset as it was. */
  lemma {:induction false} FirstStartupAppend(ps: seq<Preset>, qs: seq<Preset>)
    requires forall i :: 0 <= i < |qs| ==> !qs[i].isStartup
    ensures FirstStartup(ps + qs) == FirstStartup(ps)
  {
    if ps == [] {
      NoStartup(qs);
    } else {
      assert (ps + qs)[1..] == ps[1..] + qs;
      FirstStartupAppend(ps[1..], qs);
    }
  }

  lemma {:induction false} NoStartup(qs: seq<Preset>)
    requires forall i :: 0 <= i < |qs| ==> !qs[i].isStartup
    ensures FirstStartup(qs) == None
  {
  }

  /** `presets.map(p => p.id === id ? {...p, settings} : p)` */
  function WithSettings(ps: seq<Preset>, id: real, settings: PlotSettings): (r: seq<Preset>)
    ensures |r| == |ps|
    ensures forall i :: 0 <= i < |ps| ==> r[i] == if ps[i].id == id then ps[i].(settings := settings) else ps[i]
  {
    seq(|ps|, i requires 0 <= i < |ps| => if ps[i].id == id then ps[i].(settings := settings) else ps[i])
  }

  /** `presets.map(p => p.id === id ? {...p, name} : p)` */
  function Renamed(ps: seq<Preset>, id: real, name: string): (r: seq<Preset>)
    ensures |r| == |ps|
    ensures forall i :: 0 <= i < |ps| ==> r[i] == if ps[i].id == id then ps[i].(name := name) else ps[i]
  {
    seq(|ps|, i requires 0 <= i < |ps| => if ps[i].id == id then ps[i].(name := name) else ps[i])
  }

  /** `presets.map(p => ({...p, isStartup: p.id === id ? flag : false}))` */
  function WithStartup(ps: seq<Preset>, id: real, flag: bool): (r: seq<Preset>)
    ensures |r| == |ps|
    ensures forall i :: 0 <= i < |ps| ==> r[i] == ps[i].(isStartup := ps[i].id == id && flag)
  {
    seq(|ps|, i requires 0 <= i < |ps| => ps[i].(isStartup := ps[i].id == id && flag))
  }

  /** `presets.filter(p => p.id !== id)` */
  function WithoutPreset(ps: seq<Preset>, id: real): (r: seq<Preset>)
    ensures |r| <= |ps|
    ensures forall p :: p in r <==> p in ps && p.id != id
  {
    if ps == [] then []
    else if ps[0].id == id then WithoutPreset(ps[1..], id)
    else [ps[0]] + WithoutPreset(ps[1..], id)
  }

  /** Filtering distributes over concatenation: the presets kept stay in their order, once each. */
  lemma {:induction false} WithoutPresetAppend(a: seq<Preset>, b: seq<Preset>, id: real)
    ensures WithoutPreset(a + b, id) == WithoutPreset(a, id) + WithoutPreset(b, id)
  {
    if a == [] {
      assert a + b == b;
    } else {
      assert (a + b)[1..] == a[1..] + b;
      WithoutPresetAppend(a[1..], b, id);
    }
  }

  /**
   * After marking a startup preset, only presets with the chosen id can be
   * flagged, and they carry the requested flag; with distinct ids at most
   * one preset is the startup one, and the startup key names it.
   */
  lemma SetStartupEffect(ps: seq<Preset>, id: real, flag: bool)
    ensures var r := WithStartup(ps, id, flag);
      (forall i :: 0 <= i < |r| && r[i].isStartup ==> r[i].id == id && flag)
      && (forall i :: 0 <= i < |r| && ps[i].id == id ==> r[i].isStartup == flag)
      && (forall i :: 0 <= i < |r| ==> r[i].(isStartup := ps[i].isStartup) == ps[i])
    ensures DistinctIds(ps) ==> AtMostOneStartup(WithStartup(ps, id, flag)) && DistinctIds(WithStartup(ps, id, flag))
    ensures FirstStartup(WithStartup(ps, id, flag)) ==
      (if flag && exists i :: 0 <= i < |ps| && ps[i].id == id then Some(id) else None)
  {
    var r := WithStartup(ps, id, flag);
    if flag && exists i :: 0 <= i < |ps| && ps[i].id == id {
      var i :| 0 <= i < |ps| && ps[i].id == id;
      assert r[i].isStartup;
    }
  }

  /** Renaming changes only the name of the matching presets. */
  lemma RenameOnly(ps: seq<Preset>, id: real, name: string)
    ensures var r := Renamed(ps, id, name);
      forall i :: 0 <= i < |ps| ==>
        r[i].(name := ps[i].name) == ps[i] && (ps[i].id == id ==> r[i].name == name)
        && (ps[i].id != id ==> r[i] == ps[i])
    ensures FirstStartup(Renamed(ps, id, name)) == FirstStartup(ps)
  {
    RenamedFirstStartup(ps, id, name);
  }

  lemma {:induction false} RenamedFirstStartup(ps: seq<Preset>, id: real, name: string)
    ensures FirstStartup(Renamed(ps, id, name)) == FirstStartup(ps)
  {
    if ps != [] {
      assert Renamed(ps, id, name)[1..] == Renamed(ps[1..], id, name);
      RenamedFirstStartup(ps[1..], id, name);
    }
  }

  /** What the dialog relies on: preset ids are distinct and at most one preset is the startup one. */
  predicate WellFormed(ps: seq<Preset>)
  {
    DistinctIds(ps) && AtMostOneStartup(ps)
  }

  /** `id` names no preset of the list, as a fresh Date.now() is assumed to. */
  predicate FreshId(ps: seq<Preset>, id: real)
  {
    forall i :: 0 <= i < |ps| ==> ps[i].id != id
  }

  /** Ids that name no preset of the list and no two of which are equal. */
  predicate FreshIds(ps: seq<Preset>, ids: seq<real>)
  {
    (forall k :: 0 <= k < |ids| ==> FreshId(ps, ids[k]))
    && forall a, b :: 0 <= a < b < |ids| ==> ids[a] != ids[b]
  }

  /** A stored list whose entries have distinct ids. */
  predicate StoredDistinct(stored: seq<StoredPreset>)
  {
    forall i, j :: 0 <= i < j < |stored| ==> stored[i].id != stored[j].id
  }

  /**
   * Appending presets without a startup flag whose ids are new to the list
   * gives a well-formed list exactly when the list was well formed and the
   * appended ids are distinct.
   */
  lemma AppendWellFormed(ps: seq<Preset>, qs: seq<Preset>)
    requires forall j :: 0 <= j < |qs| ==> !qs[j].isStartup && FreshId(ps, qs[j].id)
    ensures WellFormed(ps + qs) <==> WellFormed(ps) && DistinctIds(qs)
  {
    var r := ps + qs;
    assert forall i :: 0 <= i < |ps| ==> r[i] == ps[i];
    assert forall j :: 0 <= j < |qs| ==> r[|ps| + j] == qs[j];
    if WellFormed(ps) && DistinctIds(qs) {
      forall a, b | 0 <= a < b < |r| ensures r[a].id != r[b].id {
        if b < |ps| {
        } else if a < |ps| {
          assert r[b] == qs[b - |ps|];
        } else {
          assert r[a] == qs[a - |ps|] && r[b] == qs[b - |ps|];
        }
      }
      forall i | |ps| <= i < |r| ensures !r[i].isStartup {
        assert r[i] == qs[i - |ps|];
      }
    }
  }

  /** A preset put in front of a well-formed list with none of its ids, and no second startup flag, keeps it well formed. */
  lemma ConsWellFormed(p: Preset, qs: seq<Preset>)
    requires WellFormed(qs) && FreshId(qs, p.id)
    requires p.isStartup ==> forall j :: 0 <= j < |qs| ==> !qs[j].isStartup
    ensures WellFormed([p] + qs)
  {
    var r := [p] + qs;
    assert forall j :: 0 <= j < |qs| ==> r[j + 1] == qs[j];
    forall a, b | 0 <= a < b < |r| ensures r[a].id != r[b].id && !(r[a].isStartup && r[b].isStartup) {
      assert r[b] == qs[b - 1];
      if a > 0 {
        assert r[a] == qs[a - 1];
      }
    }
  }

  /** Loading a stored list with distinct ids gives a well-formed list, whatever the startup key says. */
  lemma {:induction false} NormalizeWellFormed(stored: seq<StoredPreset>, startupId: Option<real>)
    requires StoredDistinct(stored)
    ensures WellFormed(Normalize(stored, startupId))
  {
    if stored != [] {
      var e := stored[0];
      var tail := stored[1..];
      var rest := Normalize(tail, startupId);
      NormalizeWellFormed(tail, startupId);
      if e.settings.Some? {
        var p := Preset(e.id, e.name, e.settings.value, startupId == Some(e.id));
        forall j | 0 <= j < |rest| ensures rest[j].id != e.id && (!rest[j].isStartup || !p.isStartup) {
          assert rest[j] in rest;
          var k :| 0 <= k < |tail| && tail[k] == StoredPreset(rest[j].id, rest[j].name, Some(rest[j].settings));
          assert stored[k + 1] == tail[k];
        }
        ConsWellFormed(p, rest);
      }
    }
  }

  /** Presets with a flag-free fresh preset dropped from a well-formed list leave it well formed, without that id. */
  lemma {:induction false} WithoutPresetWellFormed(ps: seq<Preset>, id: real)
    requires WellFormed(ps)
    ensures WellFormed(WithoutPreset(ps, id)) && FreshId(WithoutPreset(ps, id), id)
  {
    var r := WithoutPreset(ps, id);
    forall i | 0 <= i < |r| ensures r[i].id != id {
      assert r[i] in r;
    }
    if ps != [] {
      var tail := ps[1..];
      assert forall i :: 0 <= i < |tail| ==> tail[i] == ps[i + 1];
      WithoutPresetWellFormed(tail, id);
      var rest := WithoutPreset(tail, id);
      if ps[0].id != id {
        forall j | 0 <= j < |rest| ensures rest[j].id != ps[0].id && (!rest[j].isStartup || !ps[0].isStartup) {
          assert rest[j] in rest;
          var k :| 0 <= k < |tail| && tail[k] == rest[j];
        }
        ConsWellFormed(ps[0], rest);
      }
    }
  }

  /** Replacing the settings of the presets with an id keeps ids and flags, so well-formedness. */
  lemma WithSettingsWellFormed(ps: seq<Preset>, id: real, settings: PlotSettings)
    ensures WellFormed(WithSettings(ps, id, settings)) <==> WellFormed(ps)
  {
    var r := WithSettings(ps, id, settings);
    assert forall i :: 0 <= i < |ps| ==> r[i].id == ps[i].id && r[i].isStartup == ps[i].isStartup;
  }

  /** Renaming keeps ids and flags, so well-formedness. */
  lemma RenamedWellFormed(ps: seq<Preset>, id: real, name: string)
    ensures WellFormed(Renamed(ps, id, name)) <==> WellFormed(ps)
  {
    var r := Renamed(ps, id, name);
    assert forall i :: 0 <= i < |ps| ==> r[i].id == ps[i].id && r[i].isStartup == ps[i].isStartup;
  }

  /** The array import with pairwise distinct ids gives presets with distinct ids, each one of those ids. */
  lemma {:induction false} ImportedIds(entries: seq<ImportEntry>, ids: seq<real>)
    requires |ids| == |entries|
    requires forall a, b :: 0 <= a < b < |ids| ==> ids[a] != ids[b]
    ensures var r := ImportedPresets(entries, ids);
      DistinctIds(r) && forall j :: 0 <= j < |r| ==> r[j].id in ids
  {
    if entries != [] {
      var tailIds := ids[1..];
      assert forall a, b :: 0 <= a < b < |tailIds| ==> tailIds[a] == ids[a + 1] && tailIds[b] == ids[b + 1];
      ImportedIds(entries[1..], tailIds);
      var rest := ImportedPresets(entries[1..], tailIds);
      if entries[0].settings.Some? {
        var p := ImportedPreset(entries[0], ids[0]);
        forall j | 0 <= j < |rest| ensures rest[j].id != ids[0] {
          var k :| 0 <= k < |tailIds| && tailIds[k] == rest[j].id;
          assert ids[k + 1] == rest[j].id;
        }
        ConsWellFormed(p, rest);
      }
    }
  }

  /** The array import with fresh, pairwise distinct ids keeps a well-formed list well formed. */
  lemma ImportWellFormed(ps: seq<Preset>, entries: seq<ImportEntry>, ids: seq<real>)
    requires |ids| == |entries|
    requires WellFormed(ps) && FreshIds(ps, ids)
    ensures WellFormed(ps + ImportedPresets(entries, ids))
  {
    var qs := ImportedPresets(entries, ids);
    ImportedIds(entries, ids);
    forall j | 0 <= j < |qs| ensures FreshId(ps, qs[j].id) {
      var k :| 0 <= k < |ids| && ids[k] == qs[j].id;
      assert FreshId(ps, ids[k]);
    }
    AppendWellFormed(ps, qs);
  }

  /** The two import choices. */
  datatype ImportAction = Overwrite | AsNew

  /** A single imported object: a preset, whose settings are taken, or raw settings. */
  datatype ImportObject = PresetObject(settings: PlotSettings) | SettingsObject(settings: PlotSettings)

  /** The settings dialog's state, with the two storage keys it writes. */
  class PresetManager {
    var presets: seq<Preset>
    var activePresetId: Option<real>
    var formSettings: PlotSettings
    var isFormDirty: bool
    var pendingImport: Option<PlotSettings>
    /** The "lineo_global_presets" key. */
    var storedPresets: seq<StoredPreset>
    /** The "lineo_startup_preset_id" key; None when removed. */
    var storedStartup: Option<real>

    /** The storage holds the list and names its first startup preset. */
    ghost predicate Synced()
      reads this
    {
      storedPresets == Stored(presets) && storedStartup == FirstStartup(presets)
    }

    /** The list in the dialog is well formed. */
    ghost predicate Valid()
      reads this
    {
      WellFormed(presets)
    }

    constructor (currentSettings: PlotSettings, stored: seq<StoredPreset>, startup: Option<real>)
      ensures presets == [] && activePresetId == None && formSettings == currentSettings
      ensures !isFormDirty && pendingImport == None
      ensures storedPresets == stored && storedStartup == startup
      ensures Valid()
    {
      presets, activePresetId, formSettings, isFormDirty, pendingImport := [], None, currentSettings, false, None;
      storedPresets, storedStartup := stored, startup;
    }

    /**
     * The load effect: with a readable stored list the presets become its
     * normalised form; otherwise (no key, or JSON that does not parse)
     * nothing changes. The startup key, the id as it was written, is read
     * back through parseInt.
     */
    method Load(stored: Option<seq<StoredPreset>>, startupKey: Option<real>)
      modifies this
      ensures presets == if stored.Some? then Normalize(stored.value, ParsedStartup(startupKey)) else old(presets)
      ensures activePresetId == old(activePresetId) && formSettings == old(formSettings)
      ensures isFormDirty == old(isFormDirty) && pendingImport == old(pendingImport)
      ensures storedPresets == old(storedPresets) && storedStartup == old(storedStartup)
      ensures stored.Some? && StoredDistinct(stored.value) ==> Valid()
      ensures stored.None? ==> (Valid() <==> old(Valid()))
    {
      if stored.Some? {
        var startupId := ParsedStartup(startupKey);
        presets := Normalize(stored.value, startupId);
        if StoredDistinct(stored.value) {
          NormalizeWellFormed(stored.value, startupId);
        }
      }
    }

    /** savePresetsToStorage */
    method Save(newPresets: seq<Preset>)
      modifies this
      ensures presets == newPresets && Synced()
      ensures activePresetId == old(activePresetId) && formSettings == old(formSettings)
      ensures isFormDirty == old(isFormDirty) && pendingImport == old(pendingImport)
    {
      presets := newPresets;
      storedPresets := Stored(newPresets);
      storedStartup := FirstStartup(newPresets);
    }

    /** handleAddPreset */
    method AddPreset(now: int)
      modifies this
      ensures presets == old(presets) + [Preset(now as real, "New Preset", old(formSettings), false)]
      ensures activePresetId == Some(now as real) && !isFormDirty && Synced()
      ensures formSettings == old(formSettings) && pendingImport == old(pendingImport)
      ensures old(Valid()) && FreshId(old(presets), now as real) ==> Valid()
    {
      if FreshId(presets, now as real) {
        AppendWellFormed(presets, [Preset(now as real, "New Preset", formSettings, false)]);
      }
      Save(presets + [Preset(now as real, "New Preset", formSettings, false)]);
      activePresetId := Some(now as real);
      isFormDirty := false;
    }

    /** handleUpdateActivePreset */
    method UpdateActivePreset()
      modifies this
      ensures old(activePresetId).None? ==>
        presets == old(presets) && isFormDirty == old(isFormDirty)
        && storedPresets == old(storedPresets) && storedStartup == old(storedStartup)
      ensures old(activePresetId).Some? ==>
        presets == WithSettings(old(presets), old(activePresetId).value, old(formSettings)) && !isFormDirty && Synced()
      ensures activePresetId == old(activePresetId) && formSettings == old(formSettings)
      ensures pendingImport == old(pendingImport)
      ensures Valid() <==> old(Valid())
    {
      if activePresetId.None? {
        return;
      }
      WithSettingsWellFormed(presets, activePresetId.value, formSettings);
      Save(WithSettings(presets, activePresetId.value, formSettings));
      isFormDirty := false;
    }

    /** handleDeletePreset, given the answer to the confirmation. */
    method DeletePreset(id: real, confirmed: bool)
      modifies this
      ensures !confirmed ==>
        presets == old(presets) && activePresetId == old(activePresetId)
        && storedPresets == old(storedPresets) && storedStartup == old(storedStartup)
      ensures confirmed ==>
        presets == WithoutPreset(old(presets), id) && Synced()
        && activePresetId == (if old(activePresetId) == Some(id) then None else old(activePresetId))
      ensures formSettings == old(formSettings) && isFormDirty == old(isFormDirty)
      ensures pendingImport == old(pendingImport)
      ensures old(Valid()) ==> Valid()
    {
      if confirmed {
        if Valid() {
          WithoutPresetWellFormed(presets, id);
        }
        Save(WithoutPreset(presets, id));
        if activePresetId == Some(id) {
          activePresetId := None;
        }
      }
    }

    /** handleRenamePreset */
    method RenamePreset(id: real, newName: string)
      modifies this
      ensures presets == Renamed(old(presets), id, newName) && Synced()
      ensures activePresetId == old(activePresetId) && formSettings == old(formSettings)
      ensures isFormDirty == old(isFormDirty) && pendingImport == old(pendingImport)
      ensures Valid() <==> old(Valid())
    {
      RenamedWellFormed(presets, id, newName);
      Save(Renamed(presets, id, newName));
    }

    /** handleSetStartup */
    method SetStartup(id: real, isStartup: bool)
      modifies this
      ensures presets == WithStartup(old(presets), id, isStartup) && Synced()
      ensures activePresetId == old(activePresetId) && formSettings == old(formSettings)
      ensures isFormDirty == old(isFormDirty) && pendingImport == old(pendingImport)
      ensures DistinctIds(old(presets)) ==> Valid()
    {
      SetStartupEffect(presets, id, isStartup);
      Save(WithStartup(presets, id, isStartup));
    }

    /**
     * The array branch of handleImportClick, given the confirm() answer and
     * the fresh ids: the imported presets are appended and stored; the
     * startup preset stays the same.
     */
    method ImportArray(entries: seq<ImportEntry>, ids: seq<real>, confirmed: bool)
      requires |ids| == |entries|
      modifies this
      ensures !confirmed ==>
        presets == old(presets) && storedPresets == old(storedPresets) && storedStartup == old(storedStartup)
      ensures confirmed ==>
        presets == old(presets) + ImportedPresets(entries, ids) && Synced()
        && FirstStartup(presets) == FirstStartup(old(presets))
      ensures activePresetId == old(activePresetId) && formSettings == old(formSettings)
      ensures isFormDirty == old(isFormDirty) && pendingImport == old(pendingImport)
      ensures old(Valid()) && FreshIds(old(presets), ids) ==> Valid()
    {
      if confirmed {
        if Valid() && FreshIds(presets, ids) {
          ImportWellFormed(presets, entries, ids);
        }
        FirstStartupAppend(presets, ImportedPresets(entries, ids));
        Save(presets + ImportedPresets(entries, ids));
      }
    }

    /**
     * finalizeImport: nothing without a pending import; an overwrite with an
     * active preset (an id of 0 reads as none) replaces that preset's
     * settings; anything else appends an "Imported Preset" and selects it.
     * The form shows the imported settings and the import is cleared.
     */
    method FinalizeImport(action: ImportAction, now: int)
      modifies this
      ensures old(pendingImport).None? ==>
        presets == old(presets) && activePresetId == old(activePresetId) && formSettings == old(formSettings)
        && isFormDirty == old(isFormDirty) && pendingImport == None
        && storedPresets == old(storedPresets) && storedStartup == old(storedStartup)
      ensures old(pendingImport).Some? ==>
        var imported := old(pendingImport).value;
        pendingImport == None && formSettings == imported && !isFormDirty && Synced()
        && (if action == Overwrite && old(activePresetId).Some? && old(activePresetId) != Some(0.0) then
              presets == WithSettings(old(presets), old(activePresetId).value, imported)
              && activePresetId == old(activePresetId)
            else
              presets == old(presets) + [Preset(now as real, "Imported Preset", imported, false)]
              && activePresetId == Some(now as real))
      ensures old(Valid()) && FreshId(old(presets), now as real) ==> Valid()
    {
      if pendingImport.None? {
        return;
      }
      var imported := pendingImport.value;
      if action == Overwrite && activePresetId.Some? && activePresetId != Some(0.0) {
        WithSettingsWellFormed(presets, activePresetId.value, imported);
        Save(WithSettings(presets, activePresetId.value, imported));
      } else {
        if FreshId(presets, now as real) {
          AppendWellFormed(presets, [Preset(now as real, "Imported Preset", imported, false)]);
        }
        Save(presets + [Preset(now as real, "Imported Preset", imported, false)]);
        activePresetId := Some(now as real);
      }
      formSettings := imported;
      isFormDirty := false;
      pendingImport := None;
    }

    /**
     * The single-object branch of handleImportClick: a preset's settings, or
     * the object itself as settings, wait for the overwrite-or-new choice.
     */
    method StageImport(data: ImportObject)
      modifies this
      ensures pendingImport == Some(data.settings)
      ensures presets == old(presets) && activePresetId == old(activePresetId)
      ensures formSettings == old(formSettings) && isFormDirty == old(isFormDirty)
      ensures storedPresets == old(storedPresets) && storedStartup == old(storedStartup)
    {
      pendingImport := Some(data.settings);
    }

    /** The Cancel button of the import choice: the pending import is dropped and nothing else changes. */
    method CancelImport()
      modifies this
      ensures pendingImport == None
      ensures presets == old(presets) && activePresetId == old(activePresetId)
      ensures formSettings == old(formSettings) && isFormDirty == old(isFormDirty)
      ensures storedPresets == old(storedPresets) && storedStartup == old(storedStartup)
    {
      pendingImport := None;
    }
  }
}

=== FILE: project.dfy ===
/**
 * The project store (src/contexts/ProjectContext.tsx): the series list, the
 * plot settings and the view mode, with an undo history and a redo future.
 *
 * The source records each action as a pair of closures that put back the
 * value before and the value after the change; here an action holds those
 * two values (snapshots) directly. Date.now() and crypto.randomUUID() are
 * parameters.
 */
module Project {
  import opened Types
  import opened Text
  import opened Utils

  /** The part of the state an action captures. */
  datatype Snapshot =
    | SeriesSnapshot(series: seq<Series>)
    | SettingsSnapshot(settings: PlotSettings)
    | ViewSnapshot(mode: ViewMode)
    | TransactionSnapshot(list: seq<Series>, plot: PlotSettings)

  datatype HistoryAction = HistoryAction(description: string, before: Snapshot, after: Snapshot, timestamp: int)

  /** The whole store, as one value. */
  datatype ProjectState = ProjectState(
    series: seq<Series>,
    plotSettings: PlotSettings,
    viewMode: ViewMode,
    history: seq<HistoryAction>,
    future: seq<HistoryAction>,
    transactionStart: Option<(seq<Series>, PlotSettings)>)

  /** Running a snapshot's closure: the captured part is set, the rest stays. */
  function Restore(st: ProjectState, snap: Snapshot): (r: ProjectState)
    ensures r.history == st.history && r.future == st.future && r.transactionStart == st.transactionStart
  {
    match snap
    case SeriesSnapshot(s) => st.(series := s)
    case SettingsSnapshot(p) => st.(plotSettings := p)
    case ViewSnapshot(m) => st.(viewMode := m)
    case TransactionSnapshot(s, p) => st.(series := s, plotSettings := p)
  }

  /** The state already shows what the snapshot holds. */
  predicate Shows(st: ProjectState, snap: Snapshot)
  {
    match snap
    case SeriesSnapshot(s) => st.series == s
    case SettingsSnapshot(p) => st.plotSettings == p
    case ViewSnapshot(m) => st.viewMode == m
    case TransactionSnapshot(s, p) => st.series == s && st.plotSettings == p
  }

  /** Both closures of an action set the same part of the state. */
  predicate SameKind(a: HistoryAction)
  {
    (a.before.SeriesSnapshot? && a.after.SeriesSnapshot?)
    || (a.before.SettingsSnapshot? && a.after.SettingsSnapshot?)
    || (a.before.ViewSnapshot? && a.after.ViewSnapshot?)
    || (a.before.TransactionSnapshot? && a.after.TransactionSnapshot?)
  }

  /** Every action in the two stacks is of one kind, as every action the store records is. */
  predicate Coherent(st: ProjectState)
  {
    (forall i :: 0 <= i < |st.history| ==> SameKind(st.history[i]))
    && (forall i :: 0 <= i < |st.future| ==> SameKind(st.future[i]))
  }

  /** recordAction: append to history, clear future. */
  function RecordAction(st: ProjectState, description: string, before: Snapshot, after: Snapshot, now: int)
    : (r: ProjectState)
    ensures r.series == st.series && r.plotSettings == st.plotSettings && r.viewMode == st.viewMode
    ensures r.transactionStart == st.transactionStart
    ensures |r.history| == |st.history| + 1 && r.history[..|st.history|] == st.history
    ensures r.history[|st.history|] == HistoryAction(description, before, after, now)
    ensures r.future == []
  {
    st.(history := st.history + [HistoryAction(description, before, after, now)], future := [])
  }

  /** undo: the last action is taken off history, its "before" value restored, and it goes to the front of future. */
  function Undo(st: ProjectState): (r: ProjectState)
  {
    if st.history == [] then st
    else
      var a := st.history[|st.history| - 1];
      Restore(st, a.before).(history := st.history[..|st.history| - 1], future := [a] + st.future)
  }

  /** redo: the first future action is taken off, its "after" value applied, and it goes to the end of history. */
  function Redo(st: ProjectState): (r: ProjectState)
  {
    if st.future == [] then st
    else
      var a := st.future[0];
      Restore(st, a.after).(history := st.history + [a], future := st.future[1..])
  }

  /** canUndo and canRedo. */
  function CanUndo(st: ProjectState): bool { |st.history| > 0 }

  function CanRedo(st: ProjectState): bool { |st.future| > 0 }

  /** Undo moves one action between the stacks and keeps the total; with nothing to undo it changes nothing. */
  lemma UndoMoves(st: ProjectState)
    ensures !CanUndo(st) ==> Undo(st) == st
    ensures CanUndo(st) ==>
      var a := st.history[|st.history| - 1];
      Undo(st).history == st.history[..|st.history| - 1] && Undo(st).future == [a] + st.future
      && Shows(Undo(st), a.before) && Undo(st).transactionStart == st.transactionStart
    ensures |Undo(st).history| + |Undo(st).future| == |st.history| + |st.future|
    ensures Coherent(st) ==> Coherent(Undo(st))
  {
    if CanUndo(st) {
      var a := st.history[|st.history| - 1];
      var r := Undo(st);
      assert forall i :: 0 <= i < |r.future| ==> r.future[i] == if i == 0 then a else st.future[i - 1];
    }
  }

  /** Redo moves one action back; with nothing to redo it changes nothing. */
  lemma RedoMoves(st: ProjectState)
    ensures !CanRedo(st) ==> Redo(st) == st
    ensures CanRedo(st) ==>
      var a := st.future[0];
      Redo(st).history == st.history + [a] && Redo(st).future == st.future[1..]
      && Shows(Redo(st), a.after) && Redo(st).transactionStart == st.transactionStart
    ensures |Redo(st).history| + |Redo(st).future| == |st.history| + |st.future|
    ensures Coherent(st) ==> Coherent(Redo(st))
  {
    if CanRedo(st) {
      var r := Redo(st);
      assert forall i :: 0 <= i < |r.history| ==> r.history[i] == if i < |st.history| then st.history[i] else st.future[0];
    }
  }

  lemma RestoreBack(st: ProjectState, a: HistoryAction)
    requires SameKind(a)
    ensures Shows(st, a.after) ==> Restore(Restore(st, a.before), a.after) == st
    ensures Shows(st, a.before) ==> Restore(Restore(st, a.after), a.before) == st
  {
  }

  /**
   * Undo followed by redo gives back both stacks, and the state too when it
   * still shows what the last action did.
   */
  lemma UndoThenRedo(st: ProjectState)
    requires Coherent(st) && CanUndo(st)
    ensures Redo(Undo(st)).history == st.history && Redo(Undo(st)).future == st.future
    ensures Shows(st, st.history[|st.history| - 1].after) ==> Redo(Undo(st)) == st
  {
    var a := st.history[|st.history| - 1];
    assert SameKind(a);
    assert st.history[..|st.history| - 1] + [a] == st.history;
    assert ([a] + st.future)[1..] == st.future;
    RestoreBack(st, a);
  }

  /** Redo followed by undo gives back both stacks, and the state when it shows the action's "before" value. */
  lemma RedoThenUndo(st: ProjectState)
    requires Coherent(st) && CanRedo(st)
    ensures Undo(Redo(st)).history == st.history && Undo(Redo(st)).future == st.future
    ensures Shows(st, st.future[0].before) ==> Undo(Redo(st)) == st
  {
    var a := st.future[0];
    assert SameKind(a);
    assert (st.history + [a])[..|st.history|] == st.history;
    assert [a] + st.future[1..] == st.future;
    RestoreBack(st, a);
  }

  // ---------------------------------------------------------------------------
  // Transactions

  /** startTransaction: remember the series and plot settings. */
  function StartTransaction(st: ProjectState): ProjectState
  {
    st.(transactionStart := Some((st.series, st.plotSettings)))
  }

  /**
   * commitTransaction: nothing without a start; a single action from the
   * remembered values to the current ones when they differ. The start is
   * cleared either way.
   */
  function CommitTransaction(st: ProjectState, description: string, now: int): (r: ProjectState)
  {
    if st.transactionStart.None? then st
    else
      var start := st.transactionStart.value;
      if start == (st.series, st.plotSettings) then st.(transactionStart := None)
      else
        RecordAction(st, description, TransactionSnapshot(start.0, start.1),
                     TransactionSnapshot(st.series, st.plotSettings), now).(transactionStart := None)
  }

  /**
   * A commit always clears the start and never touches the values. Without a
   * start nothing changes; without a change since the start no action is
   * recorded; otherwise one action takes the values back to the start.
   */
  lemma CommitOutcome(st: ProjectState, description: string, now: int)
    ensures var r := CommitTransaction(st, description, now);
      r.transactionStart.None? && r.series == st.series && r.plotSettings == st.plotSettings && r.viewMode == st.viewMode
    ensures st.transactionStart.None? ==> CommitTransaction(st, description, now) == st
    ensures st.transactionStart == Some((st.series, st.plotSettings)) ==>
      CommitTransaction(st, description, now) == st.(transactionStart := None)
    ensures st.transactionStart.Some? && st.transactionStart.value != (st.series, st.plotSettings) ==>
      var r := CommitTransaction(st, description, now);
      r.history == st.history + [r.history[|st.history|]] && r.future == []
      && Restore(r, r.history[|st.history|].before).series == st.transactionStart.value.0
      && Restore(r, r.history[|st.history|].before).plotSettings == st.transactionStart.value.1
  {
    if st.transactionStart.Some? && st.transactionStart.value != (st.series, st.plotSettings) {
      var r := CommitTransaction(st, description, now);
      assert r.history == st.history + [r.history[|st.history|]];
    }
  }

  /** Starting and committing with nothing done in between records nothing. */
  lemma EmptyTransaction(st: ProjectState, description: string, now: int)
    ensures CommitTransaction(StartTransaction(st), description, now) == st.(transactionStart := None)
  {
  }

  // ---------------------------------------------------------------------------
  // Series list operations

  /** `series.find(s => s.id === id)`: the first series with that id. */
  function Find(s: seq<Series>, id: string): (r: Option<Series>)
    ensures r.Some? ==> r.value in s && r.value.id == id
    ensures r.Some? ==> exists i :: 0 <= i < |s| && s[i] == r.value && forall j :: 0 <= j < i ==> s[j].id != id
    ensures r.None? <==> forall i :: 0 <= i < |s| ==> s[i].id != id
  {
    if s == [] then None
    else if s[0].id == id then Some(s[0])
    else
      var r := Find(s[1..], id);
      assert forall k :: 0 <= k < |s| - 1 ==> s[1..][k] == s[k + 1];
      r
  }

  /** `series.map(s => s.id === id ? v : s)` */
  function ReplaceId(s: seq<Series>, id: string, v: Series): (r: seq<Series>)
    ensures |r| == |s|
    ensures forall i :: 0 <= i < |s| ==> r[i] == if s[i].id == id then v else s[i]
  {
    seq(|s|, i requires 0 <= i < |s| => if s[i].id == id then v else s[i])
  }

  /** `series.filter(s => s.id !== id)` */
  function WithoutId(s: seq<Series>, id: string): (r: seq<Series>)
    ensures |r| <= |s|
    ensures forall i :: 0 <= i < |r| ==> r[i].id != id && r[i] in s
    ensures forall i :: 0 <= i < |s| && s[i].id != id ==> s[i] in r
  {
    if s == [] then []
    else if s[0].id == id then WithoutId(s[1..], id)
    else [s[0]] + WithoutId(s[1..], id)
  }

  /** Filtering distributes over concatenation: the series kept stay in their order, once each. */
  lemma {:induction false} WithoutIdAppend(a: seq<Series>, b: seq<Series>, id: string)
    ensures WithoutId(a + b, id) == WithoutId(a, id) + WithoutId(b, id)
  {
    if a == [] {
      assert a + b == b;
    } else {
      assert (a + b)[1..] == a[1..] + b;
      WithoutIdAppend(a[1..], b, id);
    }
  }

  /** Filtering out an id that no series has keeps the list as it is. */
  lemma {:induction false} WithoutAbsent(s: seq<Series>, id: string)
    requires forall i :: 0 <= i < |s| ==> s[i].id != id
    ensures WithoutId(s, id) == s
  {
    if s != [] {
      WithoutAbsent(s[1..], id);
    }
  }

  /** Filtering removes as many series as carry the id. */
  lemma {:induction false} WithoutCount(s: seq<Series>, id: string)
    ensures |WithoutId(s, id)| == |s| - Count(s, id)
  {
    if s != [] {
      WithoutCount(s[1..], id);
    }
  }

  function Count(s: seq<Series>, id: string): nat
  {
    if s == [] then 0 else (if s[0].id == id then 1 else 0) + Count(s[1..], id)
  }

  function ViewModeName(m: ViewMode): string
  {
    match m
    case AutoView => "auto"
    case ManualView => "manual"
    case LockedView => "locked"
  }

  /** addSeries: append the new series and record it. */
  function AddSeries(st: ProjectState, name: string, data: seq<DataPoint>, id: string, colorCode: nat, now: int)
    : (r: ProjectState)
    requires colorCode < 16777215
  {
    var next := st.series + [CreateSeries(name, data, |st.series|, id, colorCode)];
    RecordAction(st.(series := next), "Add series \"" + name + "\"", SeriesSnapshot(st.series), SeriesSnapshot(next), now)
  }

  /** updateSeries: merge the update into every series with that id; an unknown id changes nothing. */
  function UpdateSeries(st: ProjectState, id: string, updates: SeriesPatch, skipHistory: bool, now: int)
    : (r: ProjectState)
  {
    var target := Find(st.series, id);
    if target.None? then st
    else
      var next := ReplaceId(st.series, id, Merge(target.value, updates));
      var changed := st.(series := next);
      if skipHistory then changed
      else RecordAction(changed, "Update series \"" + target.value.name + "\"", SeriesSnapshot(st.series),
                        SeriesSnapshot(next), now)
  }

  /** removeSeries: drop every series with that id; an unknown id changes nothing. */
  function RemoveSeries(st: ProjectState, id: string, now: int): (r: ProjectState)
  {
    var target := Find(st.series, id);
    if target.None? then st
    else
      var next := WithoutId(st.series, id);
      RecordAction(st.(series := next), "Remove series \"" + target.value.name + "\"", SeriesSnapshot(st.series),
                   SeriesSnapshot(next), now)
  }

  /** setSeries: replace the whole list, always recorded. */
  function SetSeries(st: ProjectState, newSeries: seq<Series>, description: string, now: int): (r: ProjectState)
  {
    RecordAction(st.(series := newSeries), description, SeriesSnapshot(st.series), SeriesSnapshot(newSeries), now)
  }

  /** setViewMode: nothing when the mode is already current. */
  function SetViewMode(st: ProjectState, mode: ViewMode, now: int): (r: ProjectState)
  {
    if st.viewMode == mode then st
    else RecordAction(st.(viewMode := mode), "Change view mode to " + ViewModeName(mode), ViewSnapshot(st.viewMode),
                      ViewSnapshot(mode), now)
  }

  /**
   * updatePlotSettings: the new settings are the update applied to the old
   * (an object spread is such a function); nothing happens when they are
   * equal to the old ones.
   */
  function UpdatePlotSettings(st: ProjectState, update: PlotSettings -> PlotSettings, skipHistory: bool, now: int)
    : (r: ProjectState)
  {
    var next := update(st.plotSettings);
    if next == st.plotSettings then st
    else
      var changed := st.(plotSettings := next);
      if skipHistory then changed
      else RecordAction(changed, "Update plot settings", SettingsSnapshot(st.plotSettings), SettingsSnapshot(next), now)
  }

  /** Every store operation records only actions of one kind, so the stacks stay coherent. */
  lemma OperationsCoherent(st: ProjectState, id: string, updates: SeriesPatch, skip: bool, newSeries: seq<Series>,
                           mode: ViewMode, update: PlotSettings -> PlotSettings, description: string, now: int,
                           name: string, data: seq<DataPoint>, colorCode: nat)
    requires Coherent(st)
    ensures colorCode < 16777215 ==> Coherent(AddSeries(st, name, data, id, colorCode, now))
    ensures Coherent(UpdateSeries(st, id, updates, skip, now)) && Coherent(RemoveSeries(st, id, now))
    ensures Coherent(SetSeries(st, newSeries, description, now)) && Coherent(SetViewMode(st, mode, now))
    ensures Coherent(UpdatePlotSettings(st, update, skip, now)) && Coherent(CommitTransaction(st, description, now))
    ensures Coherent(Undo(st)) && Coherent(Redo(st)) && Coherent(StartTransaction(st))
  {
    if colorCode < 16777215 {
      AddSeriesCoherent(st, name, data, id, colorCode, now);
    }
    UpdateSeriesCoherent(st, id, updates, skip, now);
    RemoveSeriesCoherent(st, id, now);
    SetSeriesCoherent(st, newSeries, description, now);
    SetViewModeCoherent(st, mode, now);
    UpdatePlotSettingsCoherent(st, update, skip, now);
    CommitTransactionCoherent(st, description, now);
    StackMovesCoherent(st);
  }

  lemma AddSeriesCoherent(st: ProjectState, name: string, data: seq<DataPoint>, id: string, colorCode: nat, now: int)
    requires Coherent(st) && colorCode < 16777215
    ensures Coherent(AddSeries(st, name, data, id, colorCode, now))
  {
  }

  lemma StackMovesCoherent(st: ProjectState)
    requires Coherent(st)
    ensures Coherent(Undo(st)) && Coherent(Redo(st)) && Coherent(StartTransaction(st))
  {
  }

  lemma UpdateSeriesCoherent(st: ProjectState, id: string, updates: SeriesPatch, skip: bool, now: int)
    requires Coherent(st)
    ensures Coherent(UpdateSeries(st, id, updates, skip, now))
  {
  }

  lemma RemoveSeriesCoherent(st: ProjectState, id: string, now: int)
    requires Coherent(st)
    ensures Coherent(RemoveSeries(st, id, now))
  {
  }

  lemma SetSeriesCoherent(st: ProjectState, newSeries: seq<Series>, description: string, now: int)
    requires Coherent(st)
    ensures Coherent(SetSeries(st, newSeries, description, now))
  {
  }

  lemma SetViewModeCoherent(st: ProjectState, mode: ViewMode, now: int)
    requires Coherent(st)
    ensures Coherent(SetViewMode(st, mode, now))
  {
  }

  lemma UpdatePlotSettingsCoherent(st: ProjectState, update: PlotSettings -> PlotSettings, skip: bool, now: int)
    requires Coherent(st)
    ensures Coherent(UpdatePlotSettings(st, update, skip, now))
  {
  }

  lemma CommitTransactionCoherent(st: ProjectState, description: string, now: int)
    requires Coherent(st)
    ensures Coherent(CommitTransaction(st, description, now))
  {
  }

  /** addSeries appends exactly the new series and one action that undoes it. */
  lemma AddSeriesEffect(st: ProjectState, name: string, data: seq<DataPoint>, id: string, colorCode: nat, now: int)
    requires colorCode < 16777215
    ensures var r := AddSeries(st, name, data, id, colorCode, now);
      |r.series| == |st.series| + 1 && r.series[..|st.series|] == st.series
      && r.series[|st.series|] == CreateSeries(name, data, |st.series|, id, colorCode)
      && |r.history| == |st.history| + 1 && r.future == [] && Undo(r).series == st.series
  {
    var r := AddSeries(st, name, data, id, colorCode, now);
    assert r.history[|r.history| - 1].before == SeriesSnapshot(st.series);
  }

  /**
   * updateSeries with an unknown id changes nothing. Otherwise the series
   * with that id become the merge of the first of them with the update, the
   * others stay in place, and one action is recorded unless skipHistory.
   */
  lemma UpdateSeriesEffect(st: ProjectState, id: string, updates: SeriesPatch, skipHistory: bool, now: int)
    ensures Find(st.series, id).None? ==> UpdateSeries(st, id, updates, skipHistory, now) == st
    ensures Find(st.series, id).Some? ==>
      var r := UpdateSeries(st, id, updates, skipHistory, now);
      |r.series| == |st.series|
      && (forall i :: 0 <= i < |st.series| && st.series[i].id != id ==> r.series[i] == st.series[i])
      && (forall i :: 0 <= i < |st.series| && st.series[i].id == id ==>
            r.series[i] == Merge(Find(st.series, id).value, updates))
      && r.plotSettings == st.plotSettings && r.viewMode == st.viewMode
      && (skipHistory ==> r.history == st.history && r.future == st.future)
      && (!skipHistory ==> |r.history| == |st.history| + 1 && r.future == [] && Undo(r).series == st.series)
  {
  }

  /**
   * removeSeries with an unknown id changes nothing; otherwise exactly the
   * series with that id are gone, and the survivors before any position
   * come first, in order.
   */
  lemma RemoveSeriesEffect(st: ProjectState, id: string, now: int)
    ensures Find(st.series, id).None? ==> RemoveSeries(st, id, now) == st
    ensures Find(st.series, id).Some? ==>
      var r := RemoveSeries(st, id, now);
      |r.series| == |st.series| - Count(st.series, id) && |r.series| < |st.series|
      && (forall i :: 0 <= i < |r.series| ==> r.series[i].id != id && r.series[i] in st.series)
      && (forall i :: 0 <= i < |st.series| && st.series[i].id != id ==> st.series[i] in r.series)
      && (forall k :: 0 <= k <= |st.series| ==>
            r.series == WithoutId(st.series[..k], id) + WithoutId(st.series[k..], id))
      && |r.history| == |st.history| + 1 && Undo(r).series == st.series
  {
    forall k | 0 <= k <= |st.series|
      ensures WithoutId(st.series, id) == WithoutId(st.series[..k], id) + WithoutId(st.series[k..], id)
    {
      assert st.series == st.series[..k] + st.series[k..];
      WithoutIdAppend(st.series[..k], st.series[k..], id);
    }
    WithoutCount(st.series, id);
    if Find(st.series, id).Some? {
      CountPositive(st.series, id);
    }
  }

  lemma {:induction false} CountPositive(s: seq<Series>, id: string)
    requires exists i :: 0 <= i < |s| && s[i].id == id
    ensures Count(s, id) > 0
  {
    if s[0].id != id {
      var i :| 0 <= i < |s| && s[i].id == id;
      assert s[1..][i - 1].id == id;
      CountPositive(s[1..], id);
    }
  }

  /** Re-selecting the current view mode, or an update that leaves the settings equal, is a no-op. */
  lemma NoOpUpdates(st: ProjectState, update: PlotSettings -> PlotSettings, skipHistory: bool, now: int)
    ensures SetViewMode(st, st.viewMode, now) == st
    ensures update(st.plotSettings) == st.plotSettings ==> UpdatePlotSettings(st, update, skipHistory, now) == st
    ensures update(st.plotSettings) != st.plotSettings ==>
      UpdatePlotSettings(st, update, skipHistory, now).plotSettings == update(st.plotSettings)
      && (skipHistory <==> UpdatePlotSettings(st, update, skipHistory, now).history == st.history)
  {
  }
}

=== FILE: project_store.dfy ===
/**
 * The project provider's state as it lives between renders: each setter of
 * src/contexts/ProjectContext.tsx updates these fields in place, and each
 * method is proved to perform the transition of the same name in module
 * Project.
 */
module ProjectStore {
  import opened Types
  import opened Utils
  import opened Project

  /**
   * DEFAULT_PLOT_SETTINGS over the fields of PlotSettings: no title or axis
   * labels, title at 16, axis labels and legend at 12, ticks at 10, legend
   * and both grids shown, the legend hidden on export, all line widths 1 and
   * no axis bounds. Its style objects and hideSystemLegend key are not
   * fields of PlotSettings and are not modelled.
   */
  const DefaultPlotSettings := PlotSettings(
    "", 16.0, "", "", 12.0, 12.0, 10.0, 10.0,
    true, true, 12.0, true, true,
    1.0, 1.0, 1.0, 1.0,
    None, None, None, None)

  class Store {
    var series: seq<Series>
    var plotSettings: PlotSettings
    var viewMode: ViewMode
    var history: seq<HistoryAction>
    var future: seq<HistoryAction>
    var transactionStart: Option<(seq<Series>, PlotSettings)>

    function State(): ProjectState
      reads this
    {
      ProjectState(series, plotSettings, viewMode, history, future, transactionStart)
    }

    constructor ()
      ensures State() == ProjectState([], DefaultPlotSettings, AutoView, [], [], None)
    {
      series, plotSettings, viewMode := [], DefaultPlotSettings, AutoView;
      history, future := [], [];
      transactionStart := None;
    }

    method RecordAction(description: string, before: Snapshot, after: Snapshot, now: int)
      modifies this
      ensures State() == Project.RecordAction(old(State()), description, before, after, now)
    {
      history := history + [HistoryAction(description, before, after, now)];
      future := [];
    }

    method Apply(snap: Snapshot)
      modifies this
      ensures State() == Restore(old(State()), snap)
    {
      match snap
      case SeriesSnapshot(s) => series := s;
      case SettingsSnapshot(p) => plotSettings := p;
      case ViewSnapshot(m) => viewMode := m;
      case TransactionSnapshot(s, p) => series, plotSettings := s, p;
    }

    method Undo()
      modifies this
      ensures State() == Project.Undo(old(State()))
    {
      if |history| == 0 {
        return;
      }
      var action := history[|history| - 1];
      history := history[..|history| - 1];
      Apply(action.before);
      future := [action] + future;
    }

    method Redo()
      modifies this
      ensures State() == Project.Redo(old(State()))
    {
      if |future| == 0 {
        return;
      }
      var action := future[0];
      future := future[1..];
      Apply(action.after);
      history := history + [action];
    }

    method StartTransaction()
      modifies this
      ensures State() == Project.StartTransaction(old(State()))
    {
      transactionStart := Some((series, plotSettings));
    }

    method CommitTransaction(description: string, now: int)
      modifies this
      ensures State() == Project.CommitTransaction(old(State()), description, now)
    {
      if transactionStart.None? {
        return;
      }
      var start := transactionStart.value;
      if start == (series, plotSettings) {
        transactionStart := None;
        return;
      }
      RecordAction(description, TransactionSnapshot(start.0, start.1), TransactionSnapshot(series, plotSettings), now);
      transactionStart := None;
    }

    method AddSeries(name: string, data: seq<DataPoint>, id: string, colorCode: nat, now: int)
      requires colorCode < 16777215
      modifies this
      ensures State() == Project.AddSeries(old(State()), name, data, id, colorCode, now)
    {
      var prev := series;
      var next := prev + [CreateSeries(name, data, |prev|, id, colorCode)];
      series := next;
      RecordAction("Add series \"" + name + "\"", SeriesSnapshot(prev), SeriesSnapshot(next), now);
    }

    method UpdateSeries(id: string, updates: SeriesPatch, skipHistory: bool, now: int)
      modifies this
      ensures State() == Project.UpdateSeries(old(State()), id, updates, skipHistory, now)
    {
      var prev := series;
      var target := Find(prev, id);
      if target.None? {
        return;
      }
      var next := ReplaceId(prev, id, Merge(target.value, updates));
      series := next;
      if !skipHistory {
        RecordAction("Update series \"" + target.value.name + "\"", SeriesSnapshot(prev), SeriesSnapshot(next), now);
      }
    }

    method RemoveSeries(id: string, now: int)
      modifies this
      ensures State() == Project.RemoveSeries(old(State()), id, now)
    {
      var prev := series;
      var target := Find(prev, id);
      if target.None? {
        return;
      }
      var next := WithoutId(prev, id);
      series := next;
      RecordAction("Remove series \"" + target.value.name + "\"", SeriesSnapshot(prev), SeriesSnapshot(next), now);
    }

    method SetSeries(newSeries: seq<Series>, description: string, now: int)
      modifies this
      ensures State() == Project.SetSeries(old(State()), newSeries, description, now)
    {
      var prev := series;
      series := newSeries;
      RecordAction(description, SeriesSnapshot(prev), SeriesSnapshot(newSeries), now);
    }

    method SetViewMode(mode: ViewMode, now: int)
      modifies this
      ensures State() == Project.SetViewMode(old(State()), mode, now)
    {
      var prev := viewMode;
      if prev == mode {
        return;
      }
      viewMode := mode;
      RecordAction("Change view mode to " + ViewModeName(mode), ViewSnapshot(prev), ViewSnapshot(mode), now);
    }

    method UpdatePlotSettings(update: PlotSettings -> PlotSettings, skipHistory: bool, now: int)
      modifies this
      ensures State() == Project.UpdatePlotSettings(old(State()), update, skipHistory, now)
    {
      var prev := plotSettings;
      var next := update(prev);
      if prev == next {
        return;
      }
      plotSettings := next;
      if !skipHistory {
        RecordAction("Update plot settings", SettingsSnapshot(prev), SettingsSnapshot(next), now);
      }
    }
  }
}

=== FILE: regression.dfy ===
/**
 * The fitting engine's entry points (src/regressionHelper.ts): the parameter
 * dispatch getAutoParameters, the mean squared error calculateError, and the
 * orchestrator calculateRegressionDetails with its early failures and its
 * sampling of the fitted curve over the data's x range.
 */
module Regression {
  import opened Types
  import opened LeastSquares
  import opened Gaussian
  import opened PolynomialOrigin
  import opened Spline
  import opened Prediction

  // ---------------------------------------------------------------------------
  // getAutoParameters
  // ---------------------------------------------------------------------------

  /** points.filter(keep).map(f), keeping the order of the data. */
  function Transform(s: seq<DataPoint>, keep: DataPoint -> bool, f: DataPoint -> DataPoint): (r: seq<DataPoint>)
    ensures |r| <= |s|
    ensures forall q :: q in r ==> exists p :: p in s && keep(p) && q == f(p)
  {
    if s == [] then []
    else Transform(s[..|s| - 1], keep, f) + (if keep(s[|s| - 1]) then [f(s[|s| - 1])] else [])
  }

  /** The exponential fit's points (x, ln y) for y > 0. */
  function ExpPoints(data: seq<DataPoint>, ext: Externals): seq<DataPoint>
  {
    Transform(data, (p: DataPoint) => p.y > 0.0, (p: DataPoint) => DataPoint(p.x, ext.ln(p.y)))
  }

  /** The logarithmic fit's points (ln x, y) for x > 0. */
  function LogPoints(data: seq<DataPoint>, ext: Externals): seq<DataPoint>
  {
    Transform(data, (p: DataPoint) => p.x > 0.0, (p: DataPoint) => DataPoint(ext.ln(p.x), p.y))
  }

  /** The power fit's points (ln x, ln y) for x > 0 and y > 0. */
  function PowerPoints(data: seq<DataPoint>, ext: Externals): seq<DataPoint>
  {
    Transform(data, (p: DataPoint) => p.x > 0.0 && p.y > 0.0, (p: DataPoint) => DataPoint(ext.ln(p.x), ext.ln(p.y)))
  }

  /** The square-root fit's points (sqrt x, y) for x >= 0. */
  function SqrtPoints(data: seq<DataPoint>, ext: Externals): seq<DataPoint>
  {
    Transform(data, (p: DataPoint) => p.x >= 0.0, (p: DataPoint) => DataPoint(ext.sqrt(p.x), p.y))
  }

  /** The sinusoidal fit's points (sin x, y). */
  function SinPoints(data: seq<DataPoint>, ext: Externals): seq<DataPoint>
  {
    Transform(data, (p: DataPoint) => true, (p: DataPoint) => DataPoint(ext.sin(p.x), p.y))
  }

  /** `order || 2`: a missing or zero order means quadratic. */
  function Order(order: Option<nat>): (n: nat)
    ensures n >= 1
  {
    if order.None? || order.value == 0 then 2 else order.value
  }

  /** The truthiness of the optional forceOrigin flag. */
  predicate Forced(forceOrigin: Option<bool>)
  {
    forceOrigin == Some(true)
  }

  function LineParams(m: real, c: real): Params
  {
    map[KeyM := m, KeyC := c]
  }

  /** {a, b} from a line fitted to transformed points, with a = exp(intercept) or the intercept itself. */
  function LogLinearParams(fit: (real, real), a: real): Params
  {
    map[KeyA := a, KeyB := fit.0]
  }

  /**
   * The parameters getAutoParameters computes for a family. A forced-origin
   * polynomial whose normal equations are singular yields the empty record.
   */
  ghost function AutoParameters(data: seq<DataPoint>, kind: RegressionType, order: Option<nat>,
                                forceOrigin: Option<bool>, ext: Externals): Params
  {
    match kind
    case Linear =>
      if Forced(forceOrigin) then LineParams(OriginFit(data), 0.0)
      else LineParams(LinearFit(data).0, LinearFit(data).1)
    case Polynomial =>
      if Forced(forceOrigin) then
        var n := Order(order);
        var sol := GaussSolution(NormalMatrix(data, n), NormalVector(data, n));
        if sol.Some? then OriginParams(sol.value) else map[]
      else CoefficientParams(ext.polyFit(data, Order(order)), 0)
    case Exponential =>
      var v := ExpPoints(data, ext);
      if |v| > 1 then LogLinearParams(LinearFit(v), ext.exp(LinearFit(v).1)) else map[]
    case Logarithmic =>
      var v := LogPoints(data, ext);
      if |v| > 1 then LogLinearParams(LinearFit(v), LinearFit(v).1) else map[]
    case Power =>
      var v := PowerPoints(data, ext);
      if |v| > 1 then LogLinearParams(LinearFit(v), ext.exp(LinearFit(v).1)) else map[]
    case Sqrt =>
      var v := SqrtPoints(data, ext);
      if |v| > 0 && Forced(forceOrigin) then LineParams(OriginFit(v), 0.0)
      else if |v| > 1 then LineParams(LinearFit(v).0, LinearFit(v).1)
      else map[]
    case Sinusoidal =>
      var v := SinPoints(data, ext);
      if Forced(forceOrigin) then LineParams(OriginFit(v), 0.0)
      else LineParams(LinearFit(v).0, LinearFit(v).1)
    case NegativeExponential =>
      var fit := ext.negExpFit(data, Forced(forceOrigin));
      if fit.Some? then map[KeyA := fit.value.0, KeyB := fit.value.1, KeyC := fit.value.2] else map[]
    case Spline => map[KeyTension := 0.5]
    case NoRegression => map[]
    case Manual => map[]
  }

  /** getAutoParameters: the dispatch, running the least-squares routines the family needs. */
  method GetAutoParameters(data: seq<DataPoint>, kind: RegressionType, order: Option<nat>,
                           forceOrigin: Option<bool>, ext: Externals) returns (p: Params)
    ensures p == AutoParameters(data, kind, order, forceOrigin, ext)
  {
    match kind
    case Linear =>
      if Forced(forceOrigin) {
        var m := LinearRegressionOrigin(data);
        p := LineParams(m, 0.0);
      } else {
        var m, c := SimpleLinearRegression(data);
        p := LineParams(m, c);
      }
    case Polynomial =>
      if Forced(forceOrigin) {
        var coeffs := PolynomialRegressionOrigin(data, Order(order));
        if coeffs.Some? {
          p := AddCoefficients(map[KeyCoef(0) := 0.0], coeffs.value, 1);
        } else {
          p := map[];
        }
      } else {
        p := AddCoefficients(map[], ext.polyFit(data, Order(order)), 0);
      }
    case Exponential =>
      var v := ExpPoints(data, ext);
      p := map[];
      if |v| > 1 {
        var b, lnA := SimpleLinearRegression(v);
        p := LogLinearParams((b, lnA), ext.exp(lnA));
      }
    case Logarithmic =>
      var v := LogPoints(data, ext);
      p := map[];
      if |v| > 1 {
        var b, a := SimpleLinearRegression(v);
        p := LogLinearParams((b, a), a);
      }
    case Power =>
      var v := PowerPoints(data, ext);
      p := map[];
      if |v| > 1 {
        var b, lnA := SimpleLinearRegression(v);
        p := LogLinearParams((b, lnA), ext.exp(lnA));
      }
    case Sqrt =>
      var v := SqrtPoints(data, ext);
      p := map[];
      if |v| > 0 {
        if Forced(forceOrigin) {
          var m := LinearRegressionOrigin(v);
          p := LineParams(m, 0.0);
        } else if |v| > 1 {
          var m, c := SimpleLinearRegression(v);
          p := LineParams(m, c);
        }
      }
    case Sinusoidal =>
      var v := SinPoints(data, ext);
      if Forced(forceOrigin) {
        var m := LinearRegressionOrigin(v);
        p := LineParams(m, 0.0);
      } else {
        var m, c := SimpleLinearRegression(v);
        p := LineParams(m, c);
      }
    case NegativeExponential =>
      var fit := ext.negExpFit(data, Forced(forceOrigin));
      p := if fit.Some? then map[KeyA := fit.value.0, KeyB := fit.value.1, KeyC := fit.value.2] else map[];
    case Spline =>
      p := map[KeyTension := 0.5];
    case NoRegression =>
      p := map[];
    case Manual =>
      p := map[];
  }

  /** Forced-origin lines, square-root and sine fits set c to exactly 0 and m to the origin fit of their points. */
  lemma {:induction false} ForcedOriginInterceptZero(data: seq<DataPoint>, kind: RegressionType, order: Option<nat>,
                                  forceOrigin: Option<bool>, ext: Externals)
    requires Forced(forceOrigin) && kind in {Linear, Sqrt, Sinusoidal}
    requires kind == Sqrt ==> |SqrtPoints(data, ext)| > 0
    ensures var p := AutoParameters(data, kind, order, forceOrigin, ext);
      p.Keys == {KeyM, KeyC} && p[KeyC] == 0.0
      && p[KeyM] == OriginFit(match kind case Linear => data case Sqrt => SqrtPoints(data, ext)
                                         case _ => SinPoints(data, ext))
  {
  }

  /**
   * A forced-origin polynomial of order n (2 when unset) has a0 = 0 and the
   * keys a0..an, holding the solution of the normal equations; when those are
   * singular the record is empty.
   */
  lemma {:induction false} ForcedOriginPolynomialKeys(data: seq<DataPoint>, order: Option<nat>, forceOrigin: Option<bool>, ext: Externals)
    requires Forced(forceOrigin)
    ensures var p := AutoParameters(data, Polynomial, order, forceOrigin, ext);
      var n := Order(order);
      var sol := GaussSolution(NormalMatrix(data, n), NormalVector(data, n));
      (sol.Some? ==> p.Keys == (set j | 0 <= j <= n :: KeyCoef(j)) && p[KeyCoef(0)] == 0.0
                     && forall j :: 1 <= j <= n ==> p[KeyCoef(j)] == sol.value[j - 1])
      && (sol.None? <==> p == map[])
  {
    var n := Order(order);
    var sol := GaussSolution(NormalMatrix(data, n), NormalVector(data, n));
    if sol.Some? {
      assert |sol.value| == n;
      assert KeyCoef(0) in AutoParameters(data, Polynomial, order, forceOrigin, ext);
    }
  }

  /** The exponential, logarithmic and power fits need at least two usable points; otherwise the record is empty. */
  lemma {:induction false} TooFewPointsGiveEmpty(data: seq<DataPoint>, kind: RegressionType, order: Option<nat>,
                              forceOrigin: Option<bool>, ext: Externals)
    requires kind in {Exponential, Logarithmic, Power}
    ensures var v := match kind case Exponential => ExpPoints(data, ext) case Logarithmic => LogPoints(data, ext)
                                case _ => PowerPoints(data, ext);
      (AutoParameters(data, kind, order, forceOrigin, ext) == map[]) <==> |v| <= 1
  {
    match kind
    case Exponential =>
      var v := ExpPoints(data, ext);
      if |v| > 1 {
        assert KeyB in LogLinearParams(LinearFit(v), ext.exp(LinearFit(v).1));
      }
    case Logarithmic =>
      var v := LogPoints(data, ext);
      if |v| > 1 {
        assert KeyB in LogLinearParams(LinearFit(v), LinearFit(v).1);
      }
    case Power =>
      var v := PowerPoints(data, ext);
      if |v| > 1 {
        assert KeyB in LogLinearParams(LinearFit(v), ext.exp(LinearFit(v).1));
      }
  }

  /** Splines get the default tension 0.5; none and manual get no parameters. */
  lemma {:induction false} FixedParameters(data: seq<DataPoint>, order: Option<nat>, forceOrigin: Option<bool>, ext: Externals)
    ensures AutoParameters(data, Spline, order, forceOrigin, ext)[KeyTension] == 0.5
    ensures AutoParameters(data, Spline, order, forceOrigin, ext).Keys == {KeyTension}
    ensures AutoParameters(data, NoRegression, order, forceOrigin, ext) == map[]
    ensures AutoParameters(data, Manual, order, forceOrigin, ext) == map[]
  {
  }

  // ---------------------------------------------------------------------------
  // calculateError
  // ---------------------------------------------------------------------------

  /** The sum of squared residuals over the points whose prediction is finite. */
  function SquaredErrors(data: seq<DataPoint>, predict: real -> Float): real
  {
    if data == [] then 0.0
    else
      var p := data[|data| - 1];
      SquaredErrors(data[..|data| - 1], predict)
      + (if predict(p.x).Finite? then Sq(p.y - predict(p.x).value) else 0.0)
  }

  /** How many points have a finite prediction. */
  function FiniteCount(data: seq<DataPoint>, predict: real -> Float): nat
  {
    if data == [] then 0
    else FiniteCount(data[..|data| - 1], predict) + (if predict(data[|data| - 1].x).Finite? then 1 else 0)
  }

  /** The mean squared error: 0 on no data, Infinity when no prediction is finite. */
  function Mse(data: seq<DataPoint>, predict: real -> Float): Float
  {
    if data == [] then Finite(0.0)
    else if FiniteCount(data, predict) > 0 then
      Finite(SquaredErrors(data, predict) / FiniteCount(data, predict) as real)
    else NonFinite
  }

  /** calculateError: one pass accumulating sse and count over the finite predictions. */
  method CalculateError(data: seq<DataPoint>, predict: real -> Float) returns (r: Float)
    ensures r == Mse(data, predict)
  {
    if |data| == 0 {
      return Finite(0.0);
    }
    var sse := 0.0;
    var count := 0;
    var i := 0;
    while i < |data|
      invariant 0 <= i <= |data|
      invariant sse == SquaredErrors(data[..i], predict)
      invariant count == FiniteCount(data[..i], predict)
    {
      assert data[..i + 1][..i] == data[..i];
      var yPred := predict(data[i].x);
      if yPred.Finite? {
        sse := sse + Sq(data[i].y - yPred.value);
        count := count + 1;
      }
      i := i + 1;
    }
    assert data[..|data|] == data;
    r := if count > 0 then Finite(sse / count as real) else NonFinite;
  }

  /** Every point whose prediction is finite is predicted exactly. */
  predicate FitsExactly(data: seq<DataPoint>, predict: real -> Float)
  {
    forall i :: 0 <= i < |data| && predict(data[i].x).Finite? ==> predict(data[i].x).value == data[i].y
  }

  lemma {:induction false} SquaredErrorsZero(data: seq<DataPoint>, predict: real -> Float)
    ensures SquaredErrors(data, predict) >= 0.0
    ensures SquaredErrors(data, predict) == 0.0 <==> FitsExactly(data, predict)
  {
    if data != [] {
      var init := data[..|data| - 1];
      var p := data[|data| - 1];
      SquaredErrorsZero(init, predict);
      if predict(p.x).Finite? {
        SquareNonneg(p.y - predict(p.x).value);
        if p.y != predict(p.x).value {
          NonzeroSquare(p.y - predict(p.x).value);
        }
      }
      assert forall i :: 0 <= i < |init| ==> init[i] == data[i];
      if FitsExactly(data, predict) {
        assert FitsExactly(init, predict);
      }
    }
  }

  lemma {:induction false} SquareNonneg(x: real)
    ensures Sq(x) >= 0.0
  {
    if x != 0.0 {
      NonzeroSquare(x);
    }
  }

  lemma {:induction false} FiniteCountPositive(data: seq<DataPoint>, predict: real -> Float)
    ensures FiniteCount(data, predict) > 0 <==> exists i :: 0 <= i < |data| && predict(data[i].x).Finite?
  {
    if data != [] {
      var init := data[..|data| - 1];
      FiniteCountPositive(init, predict);
      assert forall i :: 0 <= i < |init| ==> init[i] == data[i];
    }
  }

  /**
   * The error is 0 on no data; otherwise it is Infinity exactly when no
   * prediction is finite, and else a non-negative number that is 0 exactly
   * when every finitely predicted point lies on the curve.
   */
  lemma {:induction false} MseMeaning(data: seq<DataPoint>, predict: real -> Float)
    ensures data == [] ==> Mse(data, predict) == Finite(0.0)
    ensures Mse(data, predict).NonFinite?
      <==> data != [] && forall i :: 0 <= i < |data| ==> predict(data[i].x).NonFinite?
    ensures Mse(data, predict).Finite? ==> Mse(data, predict).value >= 0.0
    ensures Mse(data, predict) == Finite(0.0)
      <==> data == [] || (Mse(data, predict).Finite? && FitsExactly(data, predict))
  {
    SquaredErrorsZero(data, predict);
    FiniteCountPositive(data, predict);
    if data != [] && FiniteCount(data, predict) > 0 {
      QuotientSign(SquaredErrors(data, predict), FiniteCount(data, predict) as real);
    }
  }

  lemma {:induction false} QuotientSign(s: real, n: real)
    requires s >= 0.0 && n > 0.0
    ensures s / n >= 0.0
    ensures s / n == 0.0 <==> s == 0.0
  {
  }

  // ---------------------------------------------------------------------------
  // calculateRegressionDetails
  // ---------------------------------------------------------------------------

  function Min(a: real, b: real): real { if a <= b then a else b }

  function Max(a: real, b: real): real { if a >= b then a else b }

  /** Math.min(...xs) */
  function MinX(s: seq<DataPoint>): (m: real)
    requires s != []
    ensures exists i :: 0 <= i < |s| && s[i].x == m
    ensures forall i :: 0 <= i < |s| ==> m <= s[i].x
  {
    if |s| == 1 then s[0].x else Min(MinX(s[..|s| - 1]), s[|s| - 1].x)
  }

  /** Math.max(...xs) */
  function MaxX(s: seq<DataPoint>): (m: real)
    requires s != []
    ensures exists i :: 0 <= i < |s| && s[i].x == m
    ensures forall i :: 0 <= i < |s| ==> s[i].x <= m
  {
    if |s| == 1 then s[0].x else Max(MaxX(s[..|s| - 1]), s[|s| - 1].x)
  }

  /** The families whose forced-origin curve is drawn out to x = 0. */
  predicate ReachesOrigin(kind: RegressionType)
  {
    kind in {Linear, Polynomial, Sqrt, Sinusoidal}
  }

  /** The sampling interval [xMin, xMax]: the data's x range, [0, 10] without data, widened to 0 for a forced origin. */
  function Domain(data: seq<DataPoint>, kind: RegressionType, forceOrigin: Option<bool>): (d: (real, real))
    ensures d.0 <= d.1
  {
    var lo := if data == [] then 0.0 else MinX(data);
    var hi := if data == [] then 10.0 else MaxX(data);
    if Forced(forceOrigin) && ReachesOrigin(kind) then (Min(lo, 0.0), Max(hi, 0.0)) else (lo, hi)
  }

  /** The data's x range is widened to include 0 only for a forced origin in the four families. */
  lemma {:induction false} DomainWidening(data: seq<DataPoint>, kind: RegressionType, forceOrigin: Option<bool>)
    ensures var d := Domain(data, kind, forceOrigin);
      Forced(forceOrigin) && ReachesOrigin(kind) ==> d.0 <= 0.0 <= d.1
    ensures var d := Domain(data, kind, forceOrigin);
      !(Forced(forceOrigin) && ReachesOrigin(kind)) ==>
        d == (if data == [] then (0.0, 10.0) else (MinX(data), MaxX(data)))
    ensures var d := Domain(data, kind, forceOrigin);
      data != [] ==> d.0 <= MinX(data) && MaxX(data) <= d.1
  {
  }

  /** The sample at x when its prediction is finite, and nothing otherwise. */
  function SampleAt(predict: real -> Float, x: real): seq<DataPoint>
  {
    if predict(x).Finite? then [DataPoint(x, predict(x).value)] else []
  }

  /** The finite samples at x = xMin + k*step for k < count. */
  function Samples(predict: real -> Float, xMin: real, step: real, count: nat): seq<DataPoint>
  {
    if count == 0 then []
    else Samples(predict, xMin, step, count - 1) + SampleAt(predict, xMin + (count - 1) as real * step)
  }

  /** The fitted curve: one sample at xMin for a zero range, else 101 samples a hundredth of the range apart. */
  function Curve(predict: real -> Float, xMin: real, xMax: real): seq<DataPoint>
  {
    if xMax - xMin == 0.0 then SampleAt(predict, xMin)
    else Samples(predict, xMin, (xMax - xMin) / 100.0, 101)
  }

  /** The sampling loop: x runs from xMin while x <= xMax, advancing by a hundredth of the range. */
  method SampleCurve(predict: real -> Float, xMin: real, xMax: real) returns (pts: seq<DataPoint>)
    requires xMin <= xMax
    ensures pts == Curve(predict, xMin, xMax)
  {
    var range := xMax - xMin;
    if range == 0.0 {
      pts := [];
      var y := predict(xMin);
      if y.Finite? {
        pts := [DataPoint(xMin, y.value)];
      }
    } else {
      pts := SampleRange(predict, xMin, xMax, range / 100.0);
    }
  }

  /** The loop of SampleCurve over a non-empty range. */
  method SampleRange(predict: real -> Float, xMin: real, xMax: real, step: real) returns (pts: seq<DataPoint>)
    requires xMax - xMin > 0.0 && step == (xMax - xMin) / 100.0
    ensures pts == Samples(predict, xMin, step, 101)
  {
    pts := [];
    var k: nat := 0;
    StepBound(xMin, xMax, step, 0);
    while xMin + k as real * step <= xMax
      invariant k <= 101
      invariant xMin + k as real * step <= xMax <==> k <= 100
      invariant pts == Samples(predict, xMin, step, k)
      decreases 101 - k
    {
      var x := xMin + k as real * step;
      var y := predict(x);
      if y.Finite? {
        pts := pts + [DataPoint(x, y.value)];
      }
      assert pts == Samples(predict, xMin, step, k + 1);
      k := k + 1;
      StepBound(xMin, xMax, step, k);
    }
  }

  /** x = xMin + k*(xMax - xMin)/100 stays within the range exactly for k <= 100. */
  lemma {:induction false} StepBound(xMin: real, xMax: real, step: real, k: nat)
    requires xMax - xMin > 0.0 && step == (xMax - xMin) / 100.0
    ensures xMin + k as real * step <= xMax <==> k <= 100
  {
    assert k as real * step == (k as real / 100.0) * (xMax - xMin);
  }

  /** Sample k lies at xMin + k*step, so with step > 0 the samples ascend within [xMin, xMin + (count-1)*step]. */
  lemma {:induction false} SamplesShape(predict: real -> Float, xMin: real, step: real, count: nat)
    requires step > 0.0
    ensures var s := Samples(predict, xMin, step, count);
      |s| <= count
      && (forall i :: 0 <= i < |s| ==> predict(s[i].x) == Finite(s[i].y))
      && (forall i :: 0 <= i < |s| ==> xMin <= s[i].x <= xMin + (count - 1) as real * step)
      && (forall i, j :: 0 <= i < j < |s| ==> s[i].x < s[j].x)
  {
    SamplesOnCurve(predict, xMin, step, count);
    SamplesWithin(predict, xMin, step, count);
    SamplesAscending(predict, xMin, step, count);
  }

  /** At most one sample per step, each on the prediction. */
  lemma {:induction false} SamplesOnCurve(predict: real -> Float, xMin: real, step: real, count: nat)
    ensures var s := Samples(predict, xMin, step, count);
      |s| <= count && forall i :: 0 <= i < |s| ==> predict(s[i].x) == Finite(s[i].y)
  {
    if count > 0 {
      SamplesOnCurve(predict, xMin, step, count - 1);
      var s := Samples(predict, xMin, step, count - 1);
      var tail := SampleAt(predict, xMin + (count - 1) as real * step);
      assert Samples(predict, xMin, step, count) == s + tail;
    }
  }

  /** Every point has its x in [lo, hi]. */
  predicate XWithin(s: seq<DataPoint>, lo: real, hi: real)
  {
    forall i :: 0 <= i < |s| ==> lo <= s[i].x <= hi
  }

  /** The points ascend strictly in x. */
  predicate XAscending(s: seq<DataPoint>)
  {
    forall i, j :: 0 <= i < j < |s| ==> s[i].x < s[j].x
  }

  /** Every sample lies in [xMin, xMin + (count-1)*step]. */
  lemma {:induction false} SamplesWithin(predict: real -> Float, xMin: real, step: real, count: nat)
    requires step > 0.0
    ensures XWithin(Samples(predict, xMin, step, count), xMin, xMin + (count - 1) as real * step)
  {
    if count > 0 {
      var last := xMin + (count - 1) as real * step;
      SampleAtX(predict, last);
      StepLess(xMin, step, count - 1);
      if count > 1 {
        SamplesWithin(predict, xMin, step, count - 1);
        AppendWithin(Samples(predict, xMin, step, count - 1), SampleAt(predict, last),
                     xMin, xMin + (count - 1 - 1) as real * step, last);
      } else {
        AppendWithin([], SampleAt(predict, last), xMin, last, last);
      }
    }
  }

  /** The samples ascend strictly in x. */
  lemma {:induction false} SamplesAscending(predict: real -> Float, xMin: real, step: real, count: nat)
    requires step > 0.0
    ensures XAscending(Samples(predict, xMin, step, count))
  {
    if count > 1 {
      SamplesAscending(predict, xMin, step, count - 1);
      SamplesWithin(predict, xMin, step, count - 1);
      var last := xMin + (count - 1) as real * step;
      SampleAtX(predict, last);
      StepLess(xMin, step, count - 1);
      AppendAscending(Samples(predict, xMin, step, count - 1), SampleAt(predict, last),
                      xMin, xMin + (count - 1 - 1) as real * step, last);
    }
  }

  /** The sample at x, if any, is the one point (x, predict(x)). */
  lemma SampleAtX(predict: real -> Float, x: real)
    ensures |SampleAt(predict, x)| <= 1
    ensures forall i :: 0 <= i < |SampleAt(predict, x)| ==> SampleAt(predict, x)[i].x == x
  {
  }

  /** Appending samples at `last` to samples within [lo, prev], prev <= last, keeps them within [lo, last]. */
  lemma AppendWithin(s: seq<DataPoint>, tail: seq<DataPoint>, lo: real, prev: real, last: real)
    requires XWithin(s, lo, prev)
    requires lo <= last && prev <= last
    requires forall i :: 0 <= i < |tail| ==> tail[i].x == last
    ensures XWithin(s + tail, lo, last)
  {
  }

  /** Appending at most one sample at `last` to ascending samples below it keeps them ascending. */
  lemma AppendAscending(s: seq<DataPoint>, tail: seq<DataPoint>, lo: real, prev: real, last: real)
    requires XAscending(s) && XWithin(s, lo, prev)
    requires prev < last && |tail| <= 1
    requires forall i :: 0 <= i < |tail| ==> tail[i].x == last
    ensures XAscending(s + tail)
  {
  }

  /** Sample k lies at or after xMin, and every earlier sample lies strictly before it. */
  lemma {:induction false} StepLess(xMin: real, step: real, k: nat)
    requires step > 0.0
    ensures xMin <= xMin + k as real * step
    ensures k > 0 ==> xMin + (k - 1) as real * step < xMin + k as real * step
  {
    assert k as real * step >= 0.0;
  }

  /**
   * The curve has at most 101 points, each on the prediction, inside
   * [xMin, xMax] and in strictly ascending x; a zero range gives at most the
   * single point at xMin.
   */
  lemma {:induction false} CurveShape(predict: real -> Float, xMin: real, xMax: real)
    requires xMin <= xMax
    ensures var c := Curve(predict, xMin, xMax);
      |c| <= 101
      && (forall i :: 0 <= i < |c| ==> predict(c[i].x) == Finite(c[i].y))
      && (forall i :: 0 <= i < |c| ==> xMin <= c[i].x <= xMax)
      && (forall i, j :: 0 <= i < j < |c| ==> c[i].x < c[j].x)
    ensures xMin == xMax ==> Curve(predict, xMin, xMax) == SampleAt(predict, xMin)
  {
    if xMax - xMin != 0.0 {
      var step := (xMax - xMin) / 100.0;
      SamplesShape(predict, xMin, step, 101);
      assert xMin + 100 as real * step == xMax;
    }
  }

  /** When the prediction is finite everywhere the curve has all 101 samples, or the one sample of a zero range. */
  lemma {:induction false} CurveComplete(predict: real -> Float, xMin: real, xMax: real)
    requires xMin <= xMax
    requires forall x :: predict(x).Finite?
    ensures |Curve(predict, xMin, xMax)| == if xMin == xMax then 1 else 101
  {
    if xMax - xMin != 0.0 {
      SamplesComplete(predict, xMin, (xMax - xMin) / 100.0, 101);
    }
  }

  lemma {:induction false} SamplesComplete(predict: real -> Float, xMin: real, step: real, count: nat)
    requires forall x :: predict(x).Finite?
    ensures |Samples(predict, xMin, step, count)| == count
  {
    if count > 0 {
      SamplesComplete(predict, xMin, step, count - 1);
    }
  }

  datatype RegressionResult = RegressionResult(
    points: seq<DataPoint>,
    params: Option<Params>,
    error: Option<Float>,
    success: bool,
    errorMessage: Option<string>)

  const NoDataMessage := "No data points"
  const ParamsMessage := "Could not calculate parameters (check data range or validity)"
  const PredictorMessage := "Could not generate prediction function"
  const InvalidMessage := "Calculation resulted in invalid values (NaN/Infinity)"

  function Failed(message: string): RegressionResult
  {
    RegressionResult([], None, None, false, Some(message))
  }

  function Drawn(points: seq<DataPoint>): RegressionResult
  {
    RegressionResult(points, None, None, true, None)
  }

  /** `manualParams?.tension ?? 0.5` */
  function Tension(manualParams: Option<Params>): real
  {
    if manualParams.Some? && KeyTension in manualParams.value then manualParams.value[KeyTension] else 0.5
  }

  /** The parameters the curve is drawn with: the manual record when given, else the automatic fit. */
  ghost function ChosenParams(data: seq<DataPoint>, kind: RegressionType, order: Option<nat>,
                              forceOrigin: Option<bool>, manualParams: Option<Params>, ext: Externals): Params
  {
    if manualParams.Some? then manualParams.value else AutoParameters(data, kind, order, forceOrigin, ext)
  }

  /** The outcome once a non-empty or empty parameter record has been chosen: draw the curve over d and score it. */
  function FitOutcome(data: seq<DataPoint>, kind: RegressionType, params: Params, ext: Externals, d: (real, real))
    : RegressionResult
  {
    if params == map[] then Failed(ParamsMessage)
    else if !HasPredictor(kind) then Failed(PredictorMessage)
    else
      var predict := Predictor(kind, params, ext);
      var pts := Curve(predict, d.0, d.1);
      if pts == [] then Failed(InvalidMessage)
      else RegressionResult(pts, Some(params), Some(Mse(data, predict)), true, None)
  }

  /** What calculateRegressionDetails returns (the equation text is not modelled). */
  ghost function RegressionDetails(data: seq<DataPoint>, kind: RegressionType, order: Option<nat>,
                                   forceOrigin: Option<bool>, manualParams: Option<Params>,
                                   manualPoints: Option<seq<DataPoint>>, ext: Externals): RegressionResult
  {
    if kind == Manual then Drawn(if manualPoints.Some? then SplineOf(manualPoints.value, 0.5) else [])
    else if kind == Spline then Drawn(SplineOf(data, Tension(manualParams)))
    else if data == [] && manualParams.None? then Failed(NoDataMessage)
    else FitOutcome(data, kind, ChosenParams(data, kind, order, forceOrigin, manualParams, ext), ext,
                    Domain(data, kind, forceOrigin))
  }

  /** calculateRegressionDetails */
  method CalculateRegressionDetails(data: seq<DataPoint>, kind: RegressionType, order: Option<nat>,
                                    forceOrigin: Option<bool>, manualParams: Option<Params>,
                                    manualPoints: Option<seq<DataPoint>>, ext: Externals)
    returns (r: RegressionResult)
    ensures r == RegressionDetails(data, kind, order, forceOrigin, manualParams, manualPoints, ext)
  {
    if kind == Manual {
      var points: seq<DataPoint> := [];
      if manualPoints.Some? {
        points := CalculateSpline(manualPoints.value, 0.5);
      }
      return Drawn(points);
    }
    if kind == Spline {
      var points := CalculateSpline(data, Tension(manualParams));
      return Drawn(points);
    }
    if |data| == 0 && manualParams.None? {
      return Failed(NoDataMessage);
    }
    r := FitChosen(data, kind, order, forceOrigin, manualParams, ext);
  }

  /** The path of calculateRegressionDetails for a fitted family: the interval, the record, then the fit. */
  method FitChosen(data: seq<DataPoint>, kind: RegressionType, order: Option<nat>, forceOrigin: Option<bool>,
                   manualParams: Option<Params>, ext: Externals) returns (r: RegressionResult)
    ensures r == FitOutcome(data, kind, ChosenParams(data, kind, order, forceOrigin, manualParams, ext), ext,
                            Domain(data, kind, forceOrigin))
  {
    var xMin, xMax := SamplingDomain(data, kind, forceOrigin);
    var params: Params;
    if manualParams.Some? {
      params := manualParams.value;
    } else {
      params := GetAutoParameters(data, kind, order, forceOrigin, ext);
    }
    r := FitWithParams(data, kind, params, ext, xMin, xMax);
  }

  /** The x range of the data, [0, 10] without data, then widened to 0 for a forced origin. */
  method SamplingDomain(data: seq<DataPoint>, kind: RegressionType, forceOrigin: Option<bool>)
    returns (xMin: real, xMax: real)
    ensures (xMin, xMax) == Domain(data, kind, forceOrigin)
  {
    xMin, xMax := 0.0, 10.0;
    if |data| > 0 {
      xMin, xMax := MinX(data), MaxX(data);
    }
    if Forced(forceOrigin) && ReachesOrigin(kind) {
      xMin, xMax := Min(xMin, 0.0), Max(xMax, 0.0);
    }
  }

  /** The second half of calculateRegressionDetails: the empty-record and predictor checks, sampling and scoring. */
  method FitWithParams(data: seq<DataPoint>, kind: RegressionType, params: Params, ext: Externals,
                       xMin: real, xMax: real) returns (r: RegressionResult)
    requires xMin <= xMax
    ensures r == FitOutcome(data, kind, params, ext, (xMin, xMax))
  {
    if params == map[] {
      return Failed(ParamsMessage);
    }
    if !HasPredictor(kind) {
      return Failed(PredictorMessage);
    }
    var predict := Predictor(kind, params, ext);
    var fitted := SampleCurve(predict, xMin, xMax);
    if fitted == [] {
      return Failed(InvalidMessage);
    }
    var error := CalculateError(data, predict);
    r := RegressionResult(fitted, Some(params), Some(error), true, None);
  }

  /**
   * A prediction that is finite everywhere and exact on the data succeeds:
   * error 0, and all 101 samples (one for a zero range) on the prediction.
   */
  lemma {:induction false} ExactOutcome(data: seq<DataPoint>, kind: RegressionType, params: Params, ext: Externals, d: (real, real))
    requires HasPredictor(kind) && params != map[] && d.0 <= d.1
    requires forall x :: Predict(kind, params, ext, x).Finite?
    requires FitsExactly(data, Predictor(kind, params, ext))
    ensures var r := FitOutcome(data, kind, params, ext, d);
      r.success && r.params == Some(params) && r.error == Some(Finite(0.0))
      && |r.points| == (if d.0 == d.1 then 1 else 101)
      && forall i :: 0 <= i < |r.points| ==> Predict(kind, params, ext, r.points[i].x) == Finite(r.points[i].y)
  {
    var predict := Predictor(kind, params, ext);
    CurveShape(predict, d.0, d.1);
    CurveComplete(predict, d.0, d.1);
    MseMeaning(data, predict);
  }

  /** 'manual' always succeeds with the spline through the control points, or nothing without them. */
  lemma {:induction false} ManualOutcome(data: seq<DataPoint>, order: Option<nat>, forceOrigin: Option<bool>,
                      manualParams: Option<Params>, manualPoints: Option<seq<DataPoint>>, ext: Externals)
    ensures var r := RegressionDetails(data, Manual, order, forceOrigin, manualParams, manualPoints, ext);
      r.success && r.errorMessage.None?
      && r.points == (if manualPoints.Some? then SplineOf(manualPoints.value, 0.5) else [])
  {
  }

  /** 'spline' always succeeds with the spline through the data, at the given tension or 0.5. */
  lemma {:induction false} SplineOutcome(data: seq<DataPoint>, order: Option<nat>, forceOrigin: Option<bool>,
                      manualParams: Option<Params>, manualPoints: Option<seq<DataPoint>>, ext: Externals)
    ensures var r := RegressionDetails(data, Spline, order, forceOrigin, manualParams, manualPoints, ext);
      r.success && r.points == SplineOf(data, Tension(manualParams))
    ensures manualParams.None? ==> Tension(manualParams) == 0.5
  {
  }

  /** Without data and without manual parameters every fitted family fails with "No data points". */
  lemma {:induction false} NoDataOutcome(kind: RegressionType, order: Option<nat>, forceOrigin: Option<bool>,
                      manualPoints: Option<seq<DataPoint>>, ext: Externals)
    requires kind != Manual && kind != Spline
    ensures RegressionDetails([], kind, order, forceOrigin, None, manualPoints, ext) == Failed(NoDataMessage)
  {
  }

  /**
   * Every outcome of a fitted family: a failure carries no points and one of
   * the four messages; a success carries the non-empty record used, a
   * non-empty curve inside the sampling interval in ascending x with every
   * point on the prediction, and the mean squared error of the data.
   */
  lemma {:induction false} FittedOutcome(data: seq<DataPoint>, kind: RegressionType, order: Option<nat>,
                      forceOrigin: Option<bool>, manualParams: Option<Params>,
                      manualPoints: Option<seq<DataPoint>>, ext: Externals)
    requires kind != Manual && kind != Spline
    ensures var r := RegressionDetails(data, kind, order, forceOrigin, manualParams, manualPoints, ext);
      !r.success ==> (r.points == [] && r.errorMessage.Some?
        && r.errorMessage.value in {NoDataMessage, ParamsMessage, PredictorMessage, InvalidMessage})
    ensures var r := RegressionDetails(data, kind, order, forceOrigin, manualParams, manualPoints, ext);
      var params := ChosenParams(data, kind, order, forceOrigin, manualParams, ext);
      var d := Domain(data, kind, forceOrigin);
      r.success ==> (
        HasPredictor(kind) && r.params == Some(params) && params != map[] && r.errorMessage.None?
        && r.points != [] && |r.points| <= 101
        && r.error == Some(Mse(data, Predictor(kind, params, ext)))
        && (forall i :: 0 <= i < |r.points| ==> Predict(kind, params, ext, r.points[i].x) == Finite(r.points[i].y))
        && (forall i :: 0 <= i < |r.points| ==> d.0 <= r.points[i].x <= d.1)
        && (forall i, j :: 0 <= i < j < |r.points| ==> r.points[i].x < r.points[j].x))
    ensures var r := RegressionDetails(data, kind, order, forceOrigin, manualParams, manualPoints, ext);
      var d := Domain(data, kind, forceOrigin);
      r.success && d.0 == d.1 ==> |r.points| == 1 && r.points[0].x == d.0
  {
    var params := ChosenParams(data, kind, order, forceOrigin, manualParams, ext);
    var d := Domain(data, kind, forceOrigin);
    if !(data == [] && manualParams.None?) {
      assert RegressionDetails(data, kind, order, forceOrigin, manualParams, manualPoints, ext)
        == FitOutcome(data, kind, params, ext, d);
      FitOutcomeShape(data, kind, params, ext, d);
    }
  }

  /** FittedOutcome for a chosen record and sampling interval. */
  lemma {:induction false} FitOutcomeShape(data: seq<DataPoint>, kind: RegressionType, params: Params, ext: Externals,
                                           d: (real, real))
    requires d.0 <= d.1
    ensures var r := FitOutcome(data, kind, params, ext, d);
      !r.success ==> (r.points == [] && r.errorMessage.Some?
        && r.errorMessage.value in {ParamsMessage, PredictorMessage, InvalidMessage})
    ensures var r := FitOutcome(data, kind, params, ext, d);
      r.success ==> (
        HasPredictor(kind) && r.params == Some(params) && params != map[] && r.errorMessage.None?
        && r.points != [] && |r.points| <= 101
        && r.error == Some(Mse(data, Predictor(kind, params, ext)))
        && (forall i :: 0 <= i < |r.points| ==> Predict(kind, params, ext, r.points[i].x) == Finite(r.points[i].y))
        && (forall i :: 0 <= i < |r.points| ==> d.0 <= r.points[i].x <= d.1)
        && (forall i, j :: 0 <= i < j < |r.points| ==> r.points[i].x < r.points[j].x))
    ensures var r := FitOutcome(data, kind, params, ext, d);
      r.success && d.0 == d.1 ==> |r.points| == 1 && r.points[0].x == d.0
  {
    if params != map[] && HasPredictor(kind) {
      CurveShape(Predictor(kind, params, ext), d.0, d.1);
    }
  }

  /**
   * Data lying exactly on y = m*x + c with two distinct x are fitted by that
   * line: the automatic linear fit succeeds with {m, c}, its error is 0, and
   * all 101 drawn points lie on the line.
   */
  lemma {:induction false} ExactLineOutcome(data: seq<DataPoint>, m: real, c: real, order: Option<nat>, forceOrigin: Option<bool>,
                         manualPoints: Option<seq<DataPoint>>, ext: Externals)
    requires OnLine(data, m, c) && HasDistinctX(data) && !Forced(forceOrigin)
    ensures var r := RegressionDetails(data, Linear, order, forceOrigin, None, manualPoints, ext);
      r.success && r.params == Some(LineParams(m, c)) && r.error == Some(Finite(0.0))
      && |r.points| == 101 && OnLine(r.points, m, c)
  {
    ExactLineDetails(data, m, c, order, forceOrigin, manualPoints, ext);
    DistinctDomain(data, Linear, forceOrigin);
    ExactLineFit(data, m, c, ext, Domain(data, Linear, forceOrigin));
  }

  /** On such data the orchestrator takes the fitted path with the line's own parameters. */
  lemma {:induction false} ExactLineDetails(data: seq<DataPoint>, m: real, c: real, order: Option<nat>,
                                            forceOrigin: Option<bool>, manualPoints: Option<seq<DataPoint>>,
                                            ext: Externals)
    requires OnLine(data, m, c) && HasDistinctX(data) && !Forced(forceOrigin)
    ensures RegressionDetails(data, Linear, order, forceOrigin, None, manualPoints, ext)
      == FitOutcome(data, Linear, LineParams(m, c), ext, Domain(data, Linear, forceOrigin))
  {
    AutoLine(data, m, c, order, forceOrigin, ext);
    assert data != [];
  }

  /** The automatic linear parameters of such data are the line's own. */
  lemma AutoLine(data: seq<DataPoint>, m: real, c: real, order: Option<nat>, forceOrigin: Option<bool>, ext: Externals)
    requires OnLine(data, m, c) && HasDistinctX(data) && !Forced(forceOrigin)
    ensures AutoParameters(data, Linear, order, forceOrigin, ext) == LineParams(m, c)
  {
    LinearFitRecoversLine(data, m, c);
  }

  /** Without forcing the origin, two distinct x values give a proper sampling interval. */
  lemma {:induction false} DistinctDomain(data: seq<DataPoint>, kind: RegressionType, forceOrigin: Option<bool>)
    requires HasDistinctX(data) && !Forced(forceOrigin)
    ensures Domain(data, kind, forceOrigin).0 < Domain(data, kind, forceOrigin).1
  {
    var i, j :| 0 <= i < |data| && 0 <= j < |data| && data[i].x != data[j].x;
    assert MinX(data) <= data[i].x <= MaxX(data) && MinX(data) <= data[j].x <= MaxX(data);
  }

  lemma {:induction false} ExactLineFit(data: seq<DataPoint>, m: real, c: real, ext: Externals, d: (real, real))
    requires OnLine(data, m, c) && d.0 < d.1
    ensures var r := FitOutcome(data, Linear, LineParams(m, c), ext, d);
      r.success && r.params == Some(LineParams(m, c)) && r.error == Some(Finite(0.0))
      && |r.points| == 101 && OnLine(r.points, m, c)
  {
    var params := LineParams(m, c);
    assert KeyM in params;
    forall x: real
      ensures Predict(Linear, params, ext, x) == Finite(m * x + c)
    {
      LinePredict(m, c, ext, x);
    }
    assert FitsExactly(data, Predictor(Linear, params, ext));
    ExactOutcome(data, Linear, params, ext, d);
  }

  lemma {:induction false} LinePredict(m: real, c: real, ext: Externals, x: real)
    ensures Predict(Linear, LineParams(m, c), ext, x) == Finite(m * x + c)
  {
    var p := LineParams(m, c);
    assert KeyM in p && p[KeyM] == m && KeyC in p && p[KeyC] == c;
  }

  /**
   * Data lying exactly on a polynomial a1*x + ... + an*x^n of the requested
   * order are fitted through the origin by that polynomial whenever the normal
   * equations are non-singular: the fit succeeds with a0 = 0 and those
   * coefficients, its error is 0, and every drawn point lies on the polynomial.
   */
  lemma {:induction false} ExactOriginPolynomialOutcome(data: seq<DataPoint>, a: seq<real>, order: Option<nat>,
                                     forceOrigin: Option<bool>, manualPoints: Option<seq<DataPoint>>, ext: Externals)
    requires Forced(forceOrigin) && |a| == Order(order) && data != []
    requires forall k :: 0 <= k < |data| ==> data[k].y == OriginPoly(a, data[k].x)
    requires !Singular(NormalMatrix(data, |a|))
    ensures var r := RegressionDetails(data, Polynomial, order, forceOrigin, None, manualPoints, ext);
      r.success && r.params == Some(OriginParams(a)) && r.error == Some(Finite(0.0))
      && forall i :: 0 <= i < |r.points| ==> r.points[i].y == OriginPoly(a, r.points[i].x)
  {
    ExactOriginDetails(data, a, order, forceOrigin, manualPoints, ext);
    ExactOriginFit(data, a, ext, Domain(data, Polynomial, forceOrigin));
  }

  /** On such data the orchestrator takes the fitted path with the polynomial's own record. */
  lemma {:induction false} ExactOriginDetails(data: seq<DataPoint>, a: seq<real>, order: Option<nat>,
                                              forceOrigin: Option<bool>, manualPoints: Option<seq<DataPoint>>,
                                              ext: Externals)
    requires Forced(forceOrigin) && |a| == Order(order) && data != []
    requires forall k :: 0 <= k < |data| ==> data[k].y == OriginPoly(a, data[k].x)
    requires !Singular(NormalMatrix(data, |a|))
    ensures RegressionDetails(data, Polynomial, order, forceOrigin, None, manualPoints, ext)
      == FitOutcome(data, Polynomial, OriginParams(a), ext, Domain(data, Polynomial, forceOrigin))
  {
    AutoOriginPolynomial(data, a, order, forceOrigin, ext);
  }

  /** The automatic forced-origin polynomial parameters of such data are a0 = 0 and the coefficients. */
  lemma AutoOriginPolynomial(data: seq<DataPoint>, a: seq<real>, order: Option<nat>, forceOrigin: Option<bool>,
                             ext: Externals)
    requires Forced(forceOrigin) && |a| == Order(order) && data != []
    requires forall k :: 0 <= k < |data| ==> data[k].y == OriginPoly(a, data[k].x)
    requires !Singular(NormalMatrix(data, |a|))
    ensures AutoParameters(data, Polynomial, order, forceOrigin, ext) == OriginParams(a)
  {
    OriginFitRecoversPolynomial(data, a);
  }

  /** The fitted outcome with that record: success, error 0, every drawn point on the polynomial. */
  lemma {:induction false} ExactOriginFit(data: seq<DataPoint>, a: seq<real>, ext: Externals, d: (real, real))
    requires forall k :: 0 <= k < |data| ==> data[k].y == OriginPoly(a, data[k].x)
    requires d.0 <= d.1
    ensures var r := FitOutcome(data, Polynomial, OriginParams(a), ext, d);
      r.success && r.params == Some(OriginParams(a)) && r.error == Some(Finite(0.0))
      && forall i :: 0 <= i < |r.points| ==> r.points[i].y == OriginPoly(a, r.points[i].x)
  {
    var params := OriginParams(a);
    assert KeyCoef(0) in params;
    forall x: real
      ensures Predict(Polynomial, params, ext, x) == Finite(OriginPoly(a, x))
    {
      PolyOfOriginParams(a, x);
    }
    assert FitsExactly(data, Predictor(Polynomial, params, ext));
    ExactOutcome(data, Polynomial, params, ext, d);
  }
}

=== FILE: resolution.dfy ===
/**
 * The export-resolution control (src/components/plot/ResolutionControl.tsx):
 * a scale that is either the low-resolution preview 0.1 or a multiple of
 * 0.5 between 0.5 and 10, typed into a number box, picked on a slider, or
 * toggled by the "0.1x" button. Numbers are exact reals here.
 */
module Resolution {
  import opened Types

  /** The low-resolution preview scale. */
  const Preview: real := 0.1

  function Abs(x: real): real { if x < 0.0 then -x else x }

  /** Math.round: the nearest integer, halves rounded up. */
  function Round(x: real): (n: int)
    ensures n as real - 0.5 <= x < n as real + 0.5
  {
    (x + 0.5).Floor
  }

  /** The scales the control emits: 0.1, or k/2 for k in 1..20. */
  predicate OnGrid(s: real)
  {
    s == Preview || (0.5 <= s <= 10.0 && (s * 2.0).Floor as real == s * 2.0)
  }

  /**
   * The number box's rule: within 0.01 of 0.1 means 0.1; anything else is
   * rounded to the nearest 0.5 and raised to at least 0.5; the result is
   * then clamped to [0.1, 10].
   */
  function Snap(v: real): (s: real)
    ensures Preview <= s <= 10.0
    ensures Abs(v - Preview) < 0.01 ==> s == Preview
  {
    var snapped :=
      if Abs(v - Preview) < 0.01 then Preview
      else
        var half := Round(v * 2.0) as real / 2.0;
        if half < 0.5 then 0.5 else half;
    var capped := if snapped < 10.0 then snapped else 10.0;
    if capped > Preview then capped else Preview
  }

  /** The onChange handler: undefined input emits nothing. */
  function OnInput(val: Option<real>): (emitted: Option<real>)
    ensures val.None? <==> emitted.None?
  {
    if val.None? then None else Some(Snap(val.value))
  }

  /** The emitted scale is always in [0.1, 10] and on the grid. */
  lemma SnapOnGrid(v: real)
    ensures Preview <= Snap(v) <= 10.0 && OnGrid(Snap(v))
  {
    if Abs(v - Preview) >= 0.01 {
      var k := Round(v * 2.0);
      var half := k as real / 2.0;
      assert half * 2.0 == k as real;
      if half < 0.5 {
      } else if half >= 10.0 {
        assert (10.0 * 2.0).Floor == 20;
      } else {
        assert (half * 2.0).Floor == k;
      }
    }
  }

  /** Input near 0.1 becomes exactly 0.1. */
  lemma SnapPreview(v: real)
    requires Abs(v - Preview) < 0.01
    ensures Snap(v) == Preview
  {
  }

  /**
   * Other input in [0.5, 10] moves to the nearest half, a tie going up as
   * Math.round does: 1.25 becomes 1.5.
   */
  lemma SnapNearest(v: real)
    requires Abs(v - Preview) >= 0.01 && 0.5 <= v <= 10.0
    ensures Snap(v) - 0.25 <= v < Snap(v) + 0.25
  {
    var k := Round(v * 2.0);
    assert 1 <= k <= 20;
  }

  /** Other input that rounds below 0.5, anything under 0.75, is raised to 0.5. */
  lemma SnapLow(v: real)
    requires Abs(v - Preview) >= 0.01 && v < 0.75
    ensures Snap(v) == 0.5
  {
  }

  /** Snapping a snapped value changes nothing. */
  lemma SnapIdempotent(v: real)
    ensures Snap(Snap(v)) == Snap(v)
  {
    SnapOnGrid(v);
    var s := Snap(v);
    if s != Preview {
      var k := (s * 2.0).Floor;
      assert s == k as real / 2.0;
      assert 1 <= k <= 20;
      assert Abs(s - Preview) >= 0.01;
      assert Round(s * 2.0) == k;
    }
  }

  /** The "0.1x" button. */
  function Toggle(scale: real): (s: real)
    ensures OnGrid(s)
  {
    if scale == Preview then 0.5 else Preview
  }

  /** The button switches between 0.1 and 0.5: pressed twice from either, it is back where it was. */
  lemma ToggleTwice(scale: real)
    ensures Toggle(scale) == Preview <==> scale != Preview
    ensures (scale == Preview || scale == 0.5) ==> Toggle(Toggle(scale)) == scale
  {
  }

  /**
   * The number box's min and step: (0.1, 0.4) at the preview scale, (0.5,
   * 0.5) otherwise. The minimum is on the grid and never above a scale the
   * control can show.
   */
  function InputBounds(scale: real): (bounds: (real, real))
    ensures OnGrid(bounds.0) && bounds.1 > 0.0
    ensures OnGrid(scale) ==> bounds.0 <= scale
  {
    if scale == Preview then (0.1, 0.4) else (0.5, 0.5)
  }

  /** One step up from the minimum lands on the 0.5 grid in both cases. */
  lemma StepFromMinimum(scale: real)
    ensures var b := InputBounds(scale);
      OnGrid(b.0 + b.1) && b.0 + b.1 != Preview
  {
    var b := InputBounds(scale);
    assert ((b.0 + b.1) * 2.0).Floor as real == (b.0 + b.1) * 2.0;
  }
}

=== FILE: sorting.dfy ===
/**
 * `points.sort((a, b) => a.x - b.x)`: JavaScript's stable sort by x, used by
 * the spline (src/regressionHelper.ts:333) and by the control-point editor
 * (src/components/PlotArea.tsx:227,291).
 */
module Sorting {
  import opened Types

  predicate SortedByX(s: seq<DataPoint>)
  {
    forall i, j :: 0 <= i < j < |s| ==> s[i].x <= s[j].x
  }

  /** Places p after every element whose x is at most p.x, so equal keys keep their order. */
  function InsertByX(s: seq<DataPoint>, p: DataPoint): (r: seq<DataPoint>)
    requires SortedByX(s)
    ensures |r| == |s| + 1
    ensures multiset(r) == multiset(s) + multiset{p}
    ensures SortedByX(r)
  {
    if s == [] || s[|s| - 1].x <= p.x then
      SortedAppend(s, p);
      s + [p]
    else
      var init := s[..|s| - 1];
      var last := s[|s| - 1];
      assert s == init + [last];
      var r' := InsertByX(init, p);
      BelowLast(s, p, r');
      SortedAppend(r', last);
      r' + [last]
  }

  lemma SortedAppend(a: seq<DataPoint>, z: DataPoint)
    requires SortedByX(a)
    requires forall i :: 0 <= i < |a| ==> a[i].x <= z.x
    ensures SortedByX(a + [z])
  {
  }

  lemma BelowLast(s: seq<DataPoint>, p: DataPoint, r: seq<DataPoint>)
    requires SortedByX(s) && |s| > 0 && p.x < s[|s| - 1].x
    requires multiset(r) == multiset(s[..|s| - 1]) + multiset{p}
    ensures forall i :: 0 <= i < |r| ==> r[i].x <= s[|s| - 1].x
  {
    forall i | 0 <= i < |r|
      ensures r[i].x <= s[|s| - 1].x
    {
      assert r[i] in multiset(r);
      if r[i] != p {
        assert r[i] in multiset(s[..|s| - 1]);
        var k :| 0 <= k < |s| - 1 && s[..|s| - 1][k] == r[i];
        assert s[k] == r[i];
      }
    }
  }

  /** The stable sort: sorted by x, and a permutation of its input. */
  function SortByX(s: seq<DataPoint>): (r: seq<DataPoint>)
    ensures |r| == |s|
    ensures multiset(r) == multiset(s)
    ensures SortedByX(r)
  {
    if s == [] then []
    else
      assert s == s[..|s| - 1] + [s[|s| - 1]];
      InsertByX(SortByX(s[..|s| - 1]), s[|s| - 1])
  }

  /** The points whose x is v, in their order in s. */
  function WithX(s: seq<DataPoint>, v: real): (r: seq<DataPoint>)
    ensures |r| <= |s|
  {
    if s == [] then [] else WithX(s[..|s| - 1], v) + OneWithX(s[|s| - 1], v)
  }

  function OneWithX(p: DataPoint, v: real): seq<DataPoint>
  {
    if p.x == v then [p] else []
  }

  lemma {:induction false} WithXAppend(a: seq<DataPoint>, b: seq<DataPoint>, v: real)
    ensures WithX(a + b, v) == WithX(a, v) + WithX(b, v)
    decreases |b|
  {
    if b != [] {
      assert (a + b)[..|a + b| - 1] == a + b[..|b| - 1];
      WithXAppend(a, b[..|b| - 1], v);
    } else {
      assert a + b == a;
    }
  }

  /** Inserting p adds p at the end of the points with its x, and leaves the others in order. */
  lemma {:induction false} InsertByXStable(s: seq<DataPoint>, p: DataPoint, v: real)
    requires SortedByX(s)
    ensures WithX(InsertByX(s, p), v) == WithX(s, v) + OneWithX(p, v)
  {
    if s == [] || s[|s| - 1].x <= p.x {
      WithXAppend(s, [p], v);
      assert WithX([p], v) == OneWithX(p, v);
    } else {
      var init := s[..|s| - 1];
      InsertByXStable(init, p, v);
      InsertBeforeLast(s, p, v);
    }
  }

  /** The step where p goes before the last element, whose x is larger. */
  lemma InsertBeforeLast(s: seq<DataPoint>, p: DataPoint, v: real)
    requires SortedByX(s) && s != [] && p.x < s[|s| - 1].x
    requires WithX(InsertByX(s[..|s| - 1], p), v) == WithX(s[..|s| - 1], v) + OneWithX(p, v)
    ensures WithX(InsertByX(s, p), v) == WithX(s, v) + OneWithX(p, v)
  {
    BeforeLast(s, InsertByX(s, p), InsertByX(s[..|s| - 1], p), p, v);
  }

  /** r' + [last] holds the points with x = v in the order of the rest of s, p, last, when p.x < last.x. */
  lemma BeforeLast(s: seq<DataPoint>, r: seq<DataPoint>, r': seq<DataPoint>, p: DataPoint, v: real)
    requires s != [] && r == r' + [s[|s| - 1]] && p.x < s[|s| - 1].x
    requires WithX(r', v) == WithX(s[..|s| - 1], v) + OneWithX(p, v)
    ensures WithX(r, v) == WithX(s, v) + OneWithX(p, v)
  {
    var last := s[|s| - 1];
    WithXAppend(r', [last], v);
    assert WithX([last], v) == OneWithX(last, v);
    SwapEmpty(WithX(s[..|s| - 1], v), OneWithX(p, v), OneWithX(last, v));
  }

  /** Two pieces one of which is empty can be appended in either order. */
  lemma SwapEmpty(a: seq<DataPoint>, b: seq<DataPoint>, c: seq<DataPoint>)
    requires b == [] || c == []
    ensures (a + b) + c == (a + c) + b
  {
    if b == [] {
      assert a + b == a;
      assert (a + c) + b == a + c;
    } else {
      assert (a + b) + c == a + b;
      assert a + c == a;
    }
  }

  /** The sort is stable: for every x, the points with that x keep their input order. */
  lemma {:induction false} SortByXStable(s: seq<DataPoint>, v: real)
    ensures WithX(SortByX(s), v) == WithX(s, v)
  {
    if s != [] {
      SortByXStable(s[..|s| - 1], v);
      InsertByXStable(SortByX(s[..|s| - 1]), s[|s| - 1], v);
    }
  }

  /** The first element of a sorted permutation has the least x of the input, the last the greatest. */
  lemma SortByXExtremes(s: seq<DataPoint>)
    requires |s| > 0
    ensures SortByX(s)[0] in s && SortByX(s)[|s| - 1] in s
    ensures forall p :: p in s ==> SortByX(s)[0].x <= p.x <= SortByX(s)[|s| - 1].x
  {
    var r := SortByX(s);
    assert r[0] in multiset(r) && r[|r| - 1] in multiset(r);
    forall p | p in s
      ensures r[0].x <= p.x <= r[|s| - 1].x
    {
      assert p in multiset(s);
      assert p in r;
      var k :| 0 <= k < |r| && r[k] == p;
      assert r[0].x <= r[k].x || k == 0;
    }
  }
}

=== FILE: spline.dfy ===
/**
 * calculateSpline (src/regressionHelper.ts:330-366): a Catmull-Rom curve
 * through the points sorted by x. The sorted list is padded by repeating its
 * first and last points; every window of four consecutive points contributes
 * one segment of 20 samples at t = k/20, k = 0..19, and the last sorted
 * point closes the curve.
 */
module Spline {
  import opened Types
  import opened Sorting

  /** Samples per segment (numSegments). */
  const Steps: nat := 20

  /** The weights of p0, p1, p2, p3 at parameter t. */
  function Weights(tension: real, t: real): (real, real, real, real)
  {
    var t2 := t * t;
    var t3 := t2 * t;
    (-tension * t3 + 2.0 * tension * t2 - tension * t,
     (2.0 - tension) * t3 + (tension - 3.0) * t2 + 1.0,
     (tension - 2.0) * t3 + (3.0 - 2.0 * tension) * t2 + tension * t,
     tension * t3 - tension * t2)
  }

  /** At every t the four weights sum to 1, so a segment is an affine combination of its control points. */
  lemma WeightsSumToOne(tension: real, t: real)
    ensures var w := Weights(tension, t); w.0 + w.1 + w.2 + w.3 == 1.0
  {
    var t2 := t * t;
    var t3 := t2 * t;
    WeightAlgebra(tension, t, t2, t3);
  }

  lemma WeightAlgebra(a: real, t: real, t2: real, t3: real)
    ensures (-a * t3 + 2.0 * a * t2 - a * t) + ((2.0 - a) * t3 + (a - 3.0) * t2 + 1.0)
      + ((a - 2.0) * t3 + (3.0 - 2.0 * a) * t2 + a * t) + (a * t3 - a * t2) == 1.0
  {
  }

  /** The weighted sum of four control points. */
  function Combine(p0: DataPoint, p1: DataPoint, p2: DataPoint, p3: DataPoint, w: (real, real, real, real)): DataPoint
  {
    DataPoint(w.0 * p0.x + w.1 * p1.x + w.2 * p2.x + w.3 * p3.x,
              w.0 * p0.y + w.1 * p1.y + w.2 * p2.y + w.3 * p3.y)
  }

  /** The curve point at parameter t between p1 and p2. */
  function Blend(p0: DataPoint, p1: DataPoint, p2: DataPoint, p3: DataPoint, tension: real, t: real): DataPoint
  {
    Combine(p0, p1, p2, p3, Weights(tension, t))
  }

  /** The weights as the loop body spells them out. */
  lemma WeightsAre(tension: real, t: real, t2: real, t3: real, c0: real, c1: real, c2: real, c3: real)
    requires t2 == t * t && t3 == t2 * t
    requires c0 == -tension * t3 + 2.0 * tension * t2 - tension * t
    requires c1 == (2.0 - tension) * t3 + (tension - 3.0) * t2 + 1.0
    requires c2 == (tension - 2.0) * t3 + (3.0 - 2.0 * tension) * t2 + tension * t
    requires c3 == tension * t3 - tension * t2
    ensures Weights(tension, t) == (c0, c1, c2, c3)
  {
    var w := Weights(tension, t);
    assert w.0 == c0;
    assert w.1 == c1;
    assert w.2 == c2;
    assert w.3 == c3;
  }

  lemma CombineIs(p0: DataPoint, p1: DataPoint, p2: DataPoint, p3: DataPoint, w: (real, real, real, real),
                  c0: real, c1: real, c2: real, c3: real, x: real, y: real)
    requires w == (c0, c1, c2, c3)
    requires x == c0 * p0.x + c1 * p1.x + c2 * p2.x + c3 * p3.x
    requires y == c0 * p0.y + c1 * p1.y + c2 * p2.y + c3 * p3.y
    ensures Combine(p0, p1, p2, p3, w) == DataPoint(x, y)
  {
  }

  /** At t = 0 a segment starts exactly at its second control point. */
  lemma BlendAtZero(p0: DataPoint, p1: DataPoint, p2: DataPoint, p3: DataPoint, tension: real, t: real)
    requires t == 0.0
    ensures Blend(p0, p1, p2, p3, tension, t) == p1
  {
    WeightsAre(tension, 0.0, 0.0, 0.0, 0.0, 1.0, 0.0, 0.0);
  }

  /** The 20 samples of one window, at t = k/20. */
  function Window(p0: DataPoint, p1: DataPoint, p2: DataPoint, p3: DataPoint, tension: real): (r: seq<DataPoint>)
    ensures |r| == Steps
  {
    seq(Steps, k requires 0 <= k < Steps => Blend(p0, p1, p2, p3, tension, k as real / Steps as real))
  }

  /** The samples of the first m windows of p, window after window. */
  function Segments(p: seq<DataPoint>, tension: real, m: nat): (r: seq<DataPoint>)
    requires m + 3 <= |p|
    ensures |r| == Steps * m
  {
    if m == 0 then []
    else Segments(p, tension, m - 1) + Window(p[m - 1], p[m], p[m + 1], p[m + 2], tension)
  }

  /** The sorted points with the first and the last repeated. */
  function Padded(s: seq<DataPoint>): (p: seq<DataPoint>)
    requires |s| >= 1
    ensures |p| == |s| + 2 && p[0] == s[0] && p[|p| - 1] == s[|s| - 1]
    ensures forall i :: 0 <= i < |s| ==> p[i + 1] == s[i]
  {
    [s[0]] + s + [s[|s| - 1]]
  }

  /** What calculateSpline returns. */
  function SplineOf(points: seq<DataPoint>, tension: real): seq<DataPoint>
  {
    if |points| < 2 then []
    else
      var s := SortByX(points);
      Segments(Padded(s), tension, |s| - 1) + [s[|s| - 1]]
  }

  /** calculateSpline: the nested loops push the samples of each window in turn. */
  method CalculateSpline(points: seq<DataPoint>, tension: real) returns (r: seq<DataPoint>)
    ensures r == SplineOf(points, tension)
  {
    if |points| < 2 {
      return [];
    }
    var sorted := SortByX(points);
    var p := [sorted[0]] + sorted + [sorted[|sorted| - 1]];
    assert p == Padded(sorted);
    r := [];
    var i := 0;
    while i < |p| - 3
      invariant 0 <= i <= |p| - 3
      invariant r == Segments(p, tension, i)
    {
      var seg := SegmentSamples(p[i], p[i + 1], p[i + 2], p[i + 3], tension);
      r := r + seg;
      i := i + 1;
    }
    r := r + [sorted[|sorted| - 1]];
  }

  /** The inner loop: 20 samples of one window. */
  method SegmentSamples(p0: DataPoint, p1: DataPoint, p2: DataPoint, p3: DataPoint, tension: real)
    returns (seg: seq<DataPoint>)
    ensures seg == Window(p0, p1, p2, p3, tension)
  {
    seg := [];
    var k := 0;
    while k < Steps
      invariant 0 <= k <= Steps
      invariant seg == Window(p0, p1, p2, p3, tension)[..k]
    {
      var q := SamplePoint(p0, p1, p2, p3, tension, k as real / Steps as real);
      seg := seg + [q];
      k := k + 1;
    }
  }

  /** One sample: the weights at t and the weighted sum of the window, as the loop body computes them. */
  method SamplePoint(p0: DataPoint, p1: DataPoint, p2: DataPoint, p3: DataPoint, tension: real, t: real)
    returns (q: DataPoint)
    ensures q == Blend(p0, p1, p2, p3, tension, t)
  {
    var t2 := t * t;
    var t3 := t2 * t;
    var c0 := -tension * t3 + 2.0 * tension * t2 - tension * t;
    var c1 := (2.0 - tension) * t3 + (tension - 3.0) * t2 + 1.0;
    var c2 := (tension - 2.0) * t3 + (3.0 - 2.0 * tension) * t2 + tension * t;
    var c3 := tension * t3 - tension * t2;
    var x := c0 * p0.x + c1 * p1.x + c2 * p2.x + c3 * p3.x;
    var y := c0 * p0.y + c1 * p1.y + c2 * p2.y + c3 * p3.y;
    WeightsAre(tension, t, t2, t3, c0, c1, c2, c3);
    CombineIs(p0, p1, p2, p3, Weights(tension, t), c0, c1, c2, c3, x, y);
    q := DataPoint(x, y);
  }

  /** Fewer than two points give no curve; otherwise 20 samples per gap between sorted points, plus the last point. */
  lemma SplineLength(points: seq<DataPoint>, tension: real)
    ensures |points| < 2 ==> SplineOf(points, tension) == []
    ensures |points| >= 2 ==> |SplineOf(points, tension)| == Steps * (|points| - 1) + 1
  {
  }

  /** Sample k of window i sits at index 20*i + k. */
  lemma {:induction false} SegmentsAt(p: seq<DataPoint>, tension: real, m: nat, i: nat, k: nat)
    requires m + 3 <= |p| && i < m && k < Steps
    ensures Segments(p, tension, m)[Steps * i + k] == Window(p[i], p[i + 1], p[i + 2], p[i + 3], tension)[k]
  {
    if i < m - 1 {
      SegmentsAt(p, tension, m - 1, i, k);
    }
  }

  /** Window i starts at its second point. */
  lemma {:induction false} WindowStart(p: seq<DataPoint>, tension: real, m: nat, i: nat)
    requires m + 3 <= |p| && i < m
    ensures Segments(p, tension, m)[Steps * i] == p[i + 1]
  {
    SegmentsAt(p, tension, m, i, 0);
    assert Window(p[i], p[i + 1], p[i + 2], p[i + 3], tension)[0]
      == Blend(p[i], p[i + 1], p[i + 2], p[i + 3], tension, 0 as real / Steps as real);
    BlendAtZero(p[i], p[i + 1], p[i + 2], p[i + 3], tension, 0 as real / Steps as real);
  }

  /**
   * The curve passes through every input point in x order: sample 20*i is
   * the i-th sorted point, and the last sample is the last sorted point.
   */
  lemma {:induction false} SplineInterpolates(points: seq<DataPoint>, tension: real, i: nat)
    requires |points| >= 2 && i < |points|
    ensures SplineOf(points, tension)[Steps * i] == SortByX(points)[i]
  {
    var s := SortByX(points);
    var c := Segments(Padded(s), tension, |s| - 1) + [s[|s| - 1]];
    assert SplineOf(points, tension) == c;
    CurveThrough(s, tension, i);
  }

  lemma {:induction false} CurveThrough(s: seq<DataPoint>, tension: real, i: nat)
    requires |s| >= 2 && i < |s|
    ensures (Segments(Padded(s), tension, |s| - 1) + [s[|s| - 1]])[Steps * i] == s[i]
  {
    var p := Padded(s);
    var segs := Segments(p, tension, |s| - 1);
    if i < |s| - 1 {
      WindowStart(p, tension, |s| - 1, i);
      assert (segs + [s[|s| - 1]])[Steps * i] == segs[Steps * i];
    } else {
      assert Steps * i == |segs|;
    }
  }

  /** The curve starts at the input point of least x and ends at the one of greatest x. */
  lemma SplineEndpoints(points: seq<DataPoint>, tension: real)
    requires |points| >= 2
    ensures var r := SplineOf(points, tension);
      r[0] in points && r[|r| - 1] in points
      && forall q :: q in points ==> r[0].x <= q.x <= r[|r| - 1].x
  {
    SplineInterpolates(points, tension, 0);
    SortByXExtremes(points);
  }
}

=== FILE: text.dfy ===
/**
 * The JavaScript string operations the app relies on: decimal printing of
 * counters, `trim`, `split("\n")`, `split(/[\s,]+/)` and `join("\n")`.
 */
module Text {
  /** The characters `\s` matches and `trim` removes (WhiteSpace and LineTerminator). */
  predicate IsSpace(c: char)
  {
    ('\U{0009}' <= c <= '\U{000D}') || c == ' ' || c == '\U{00A0}' || c == '\U{1680}'
    || ('\U{2000}' <= c <= '\U{200A}') || c == '\U{2028}' || c == '\U{2029}'
    || c == '\U{202F}' || c == '\U{205F}' || c == '\U{3000}' || c == '\U{FEFF}'
  }

  /** The character class `[\s,]`. */
  predicate IsSeparator(c: char)
  {
    IsSpace(c) || c == ','
  }

  predicate IsDigit(c: char) { '0' as int <= c as int <= '9' as int }

  function DigitChar(d: nat): char
    requires d < 10
  {
    ['0', '1', '2', '3', '4', '5', '6', '7', '8', '9'][d]
  }

  /** The decimal text of a counter, as template literals print it. */
  function NatToString(n: nat): (s: string)
    ensures |s| >= 1 && forall i :: 0 <= i < |s| ==> IsDigit(s[i])
  {
    if n < 10 then [DigitChar(n)] else NatToString(n / 10) + [DigitChar(n % 10)]
  }

  /** The value of a string of decimal digits, as parseInt reads it. */
  function DigitsValue(s: string): nat
    requires forall i :: 0 <= i < |s| ==> IsDigit(s[i])
  {
    if s == [] then 0
    else
      assert IsDigit(s[|s| - 1]);
      10 * DigitsValue(s[..|s| - 1]) + (s[|s| - 1] as int - '0' as int)
  }

  lemma DigitCharValue(d: nat)
    requires d < 10
    ensures DigitChar(d) as int - '0' as int == d
  {
  }

  /** Printing a counter and reading it back gives the counter. */
  lemma {:induction false} DigitsValueOfNatToString(n: nat)
    ensures DigitsValue(NatToString(n)) == n
  {
    DigitCharValue(n % 10);
    var s := NatToString(n);
    if n >= 10 {
      var q := n / 10;
      assert s == NatToString(q) + [DigitChar(n % 10)];
      assert s[..|s| - 1] == NatToString(q);
      DigitsValueOfNatToString(q);
      assert DigitsValue(s) == 10 * q + n % 10;
    } else {
      assert s == [DigitChar(n)];
      assert s[..|s| - 1] == [];
    }
  }

  /** Different counters print differently, so keys such as "a0", "a1", ... never collide. */
  lemma NatToStringInjective(m: nat, n: nat)
    requires NatToString(m) == NatToString(n)
    ensures m == n
  {
    DigitsValueOfNatToString(m);
    DigitsValueOfNatToString(n);
  }

  /** `s.trim()` */
  function Trim(s: string): (r: string)
    ensures |r| <= |s|
    ensures r != [] ==> !IsSpace(r[0]) && !IsSpace(r[|r| - 1])
  {
    TrimEnd(TrimStart(s))
  }

  function TrimStart(s: string): (r: string)
    ensures |r| <= |s|
    ensures r != [] ==> !IsSpace(r[0]) && r[|r| - 1] == s[|s| - 1]
  {
    if s != [] && IsSpace(s[0]) then TrimStart(s[1..]) else s
  }

  function TrimEnd(s: string): (r: string)
    ensures |r| <= |s|
    ensures r != [] ==> !IsSpace(r[|r| - 1]) && r[0] == s[0]
  {
    if s != [] && IsSpace(s[|s| - 1]) then TrimEnd(s[..|s| - 1]) else s
  }

  /** A string that starts and ends with a non-space character is its own trim. */
  lemma TrimUnchanged(s: string)
    requires s != [] && !IsSpace(s[0]) && !IsSpace(s[|s| - 1])
    ensures Trim(s) == s
  {
  }

  /** `s.split(c)` for a one-character separator: always at least one piece. */
  function SplitOn(s: string, c: char): (r: seq<string>)
    ensures |r| >= 1
  {
    if s == [] then [""]
    else
      var rest := SplitOn(s[1..], c);
      if s[0] == c then [""] + rest else [[s[0]] + rest[0]] + rest[1..]
  }

  /** `lines.join(c)` */
  function JoinWith(lines: seq<string>, c: char): string
  {
    if lines == [] then "" else if |lines| == 1 then lines[0] else lines[0] + [c] + JoinWith(lines[1..], c)
  }

  predicate Free(s: string, c: char)
  {
    forall i :: 0 <= i < |s| ==> s[i] != c
  }

  lemma {:induction false} SplitOnFree(w: string, t: string, c: char)
    requires Free(w, c)
    ensures SplitOn(w + t, c) == [w + SplitOn(t, c)[0]] + SplitOn(t, c)[1..]
  {
    if w != [] {
      assert (w + t)[0] == w[0] && (w + t)[1..] == w[1..] + t;
      SplitOnFree(w[1..], t, c);
      var tail := SplitOn(t, c);
      assert [w[0]] + (w[1..] + tail[0]) == w + tail[0];
    } else {
      var tail := SplitOn(t, c);
      assert w + t == t && w + tail[0] == tail[0] && [tail[0]] + tail[1..] == tail;
    }
  }

  /** Splitting a join of separator-free pieces gives the pieces back. */
  lemma {:induction false} SplitOnJoin(lines: seq<string>, c: char)
    requires |lines| >= 1
    requires forall i :: 0 <= i < |lines| ==> Free(lines[i], c)
    ensures SplitOn(JoinWith(lines, c), c) == lines
  {
    if |lines| == 1 {
      SplitOnFree(lines[0], "", c);
      assert lines[0] + "" == lines[0];
    } else {
      var rest := JoinWith(lines[1..], c);
      SplitOnJoin(lines[1..], c);
      assert lines[0] + [c] + rest == lines[0] + ([c] + rest);
      SplitOnFree(lines[0], [c] + rest, c);
      assert ([c] + rest)[1..] == rest;
      assert lines[0] + "" == lines[0];
      assert [lines[0]] + lines[1..] == lines;
    }
  }

  /**
   * `s.split(/[\s,]+/)`: the pieces between maximal runs of separators; a
   * leading or trailing run yields an empty first or last piece.
   */
  function Tokens(s: string): (r: seq<string>)
    ensures |r| >= 1
  {
    if s == [] then [""]
    else
      var rest := Tokens(s[1..]);
      if IsSeparator(s[0]) then
        (if |s| > 1 && IsSeparator(s[1]) then rest else [""] + rest)
      else [[s[0]] + rest[0]] + rest[1..]
  }

  predicate NoSeparator(s: string)
  {
    forall i :: 0 <= i < |s| ==> !IsSeparator(s[i])
  }

  lemma {:induction false} TokensOfWord(w: string, t: string)
    requires NoSeparator(w)
    ensures Tokens(w + t) == [w + Tokens(t)[0]] + Tokens(t)[1..]
  {
    if w != [] {
      assert (w + t)[0] == w[0] && (w + t)[1..] == w[1..] + t;
      TokensOfWord(w[1..], t);
      var tail := Tokens(t);
      assert [w[0]] + (w[1..] + tail[0]) == w + tail[0];
    } else {
      var tail := Tokens(t);
      assert w + t == t && w + tail[0] == tail[0] && [tail[0]] + tail[1..] == tail;
    }
  }

  /** Two separator-free words joined by one space split back into the two words. */
  lemma TokensOfPair(u: string, v: string)
    requires u != [] && v != [] && NoSeparator(u) && NoSeparator(v)
    ensures Tokens(u + " " + v) == [u, v]
  {
    TokensOfWord(v, "");
    assert v + "" == v;
    assert Tokens(" " + v) == [""] + Tokens(v) by {
      assert (" " + v)[1..] == v;
    }
    assert u + " " + v == u + (" " + v);
    TokensOfWord(u, " " + v);
    assert u + "" == u;
  }
}

=== FILE: types.dfy ===
/**
 * The records shared by the plotting app: data points, series, regression
 * settings, plot settings, view modes and notifications (src/types.ts).
 */
module Types {
  datatype Option<+T> = None | Some(value: T)

  /**
   * A JavaScript number as the fitting engine produces it: either a finite
   * value, or one of the IEEE special values NaN, +Infinity and -Infinity,
   * which the model does not tell apart.
   */
  datatype Float = Finite(value: real) | NonFinite

  datatype DataPoint = DataPoint(x: real, y: real)

  datatype RegressionType =
    | NoRegression
    | Linear
    | Polynomial
    | Exponential
    | Logarithmic
    | Power
    | Sqrt
    | Sinusoidal
    | NegativeExponential
    | Spline
    | Manual

  /** Whether the parameters of a fit are computed from the data or set by sliders. */
  datatype FitMode = AutoMode | ManualMode

  datatype LineStyle = Solid | Dashed | Dotted

  datatype PointStyle = Circle | Rect | Triangle | Cross | Star

  /** A slider: its current value and its range. */
  datatype ManualParameter = ManualParameter(value: real, min: real, max: real)

  /**
   * The names a parameter record uses: m and c for lines and their sqrt and
   * sine variants, a and b (and c) for the exponential families, tension for
   * splines, and a0, a1, ... for polynomial coefficients.
   */
  datatype ParamKey = KeyM | KeyC | KeyA | KeyB | KeyTension | KeyCoef(index: nat)

  /** A parameter record, such as {m, c} or {a0, a1, a2}. */
  type Params = map<ParamKey, real>

  datatype RegressionSettings = RegressionSettings(
    kind: RegressionType,
    order: Option<nat>,
    forceOrigin: Option<bool>,
    color: string,
    width: real,
    style: LineStyle,
    mode: FitMode,
    parameters: Option<map<ParamKey, ManualParameter>>,
    manualPoints: Option<seq<DataPoint>>)

  datatype Series = Series(
    id: string,
    name: string,
    data: seq<DataPoint>,
    visible: bool,
    color: string,
    width: real,
    showLine: bool,
    lineStyle: LineStyle,
    pointSize: real,
    pointStyle: PointStyle,
    regression: RegressionSettings,
    regressionPoints: seq<DataPoint>)

  /** A Partial<Series>: the fields an update overrides. */
  datatype SeriesPatch = SeriesPatch(
    id: Option<string>,
    name: Option<string>,
    data: Option<seq<DataPoint>>,
    visible: Option<bool>,
    color: Option<string>,
    width: Option<real>,
    showLine: Option<bool>,
    lineStyle: Option<LineStyle>,
    pointSize: Option<real>,
    pointStyle: Option<PointStyle>,
    regression: Option<RegressionSettings>,
    regressionPoints: Option<seq<DataPoint>>)

  /** The patch that sets only the regression settings and the fitted points. */
  function RegressionPatch(r: RegressionSettings, points: seq<DataPoint>): SeriesPatch
  {
    SeriesPatch(None, None, None, None, None, None, None, None, None, None, Some(r), Some(points))
  }

  function Override<T>(old_: T, new_: Option<T>): T
  {
    if new_.Some? then new_.value else old_
  }

  /** The object spread {...s, ...patch}: every field the patch sets wins. */
  function Merge(s: Series, p: SeriesPatch): Series
  {
    Series(
      Override(s.id, p.id), Override(s.name, p.name), Override(s.data, p.data),
      Override(s.visible, p.visible), Override(s.color, p.color), Override(s.width, p.width),
      Override(s.showLine, p.showLine), Override(s.lineStyle, p.lineStyle),
      Override(s.pointSize, p.pointSize), Override(s.pointStyle, p.pointStyle),
      Override(s.regression, p.regression), Override(s.regressionPoints, p.regressionPoints))
  }

  datatype PlotSettings = PlotSettings(
    title: string,
    titleFontSize: real,
    xLabel: string,
    yLabel: string,
    xAxisLabelFontSize: real,
    yAxisLabelFontSize: real,
    xTickLabelFontSize: real,
    yTickLabelFontSize: real,
    showLegend: bool,
    hideSystemLegendOnExport: bool,
    legendFontSize: real,
    showGridX: bool,
    showGridY: bool,
    gridLineWidthX: real,
    gridLineWidthY: real,
    axisLineWidthX: real,
    axisLineWidthY: real,
    xMin: Option<real>,
    xMax: Option<real>,
    yMin: Option<real>,
    yMax: Option<real>)

  datatype ViewMode = AutoView | ManualView | LockedView

  datatype NotificationType = Success | Error | Info | Warning

  datatype AppNotification = AppNotification(
    id: string,
    kind: NotificationType,
    message: string,
    timestamp: int,
    read: bool)
}

=== FILE: utils.dfy ===
/**
 * The helpers of src/utils.ts: spreadsheet column letters and cell ranges,
 * the defaults of a new series, and the auto-crop box that trimCanvas
 * computes over the captured image.
 */
module Utils {
  import opened Types
  import opened Text

  // ---------------------------------------------------------------------------
  // Column letters: bijective base 26, "A" = 1, ..., "Z" = 26, "AA" = 27

  predicate IsUpper(c: char) { 'A' <= c <= 'Z' }

  predicate AllUpper(s: string)
  {
    forall i :: 0 <= i < |s| ==> IsUpper(s[i])
  }

  /** charCodeAt(i) - 'A'.charCodeAt(0) + 1 */
  function LetterValue(c: char): int
  {
    c as int - 'A' as int + 1
  }

  /** The value `sum` reaches after reading every letter of col. */
  function ColumnNumber(col: string): int
  {
    if col == [] then 0 else 26 * ColumnNumber(col[..|col| - 1]) + LetterValue(col[|col| - 1])
  }

  /** parseColumn: the loop multiplies by 26 and adds each letter's value; the index is one less. */
  method ParseColumn(col: string) returns (index: int)
    ensures index == ColumnNumber(col) - 1
  {
    var sum := 0;
    var i := 0;
    while i < |col|
      invariant 0 <= i <= |col| && sum == ColumnNumber(col[..i])
    {
      assert col[..i + 1][..i] == col[..i];
      sum := sum * 26;
      sum := sum + (col[i] as int - 'A' as int + 1);
      i := i + 1;
    }
    assert col[..|col|] == col;
    index := sum - 1;
  }

  /** "A" is column 0, "Z" column 25 and "AA" column 26. */
  lemma ColumnExamples()
    ensures ColumnNumber("A") - 1 == 0 && ColumnNumber("Z") - 1 == 25 && ColumnNumber("AA") - 1 == 26
  {
    assert "AA"[..1] == "A";
    assert "A"[..0] == "" && "Z"[..0] == "";
  }

  /** Appending a letter c to s gives column 26 * (parseColumn(s) + 1) + (c - 'A'). */
  lemma ColumnAppend(s: string, c: char)
    ensures ColumnNumber(s + [c]) - 1 == 26 * ((ColumnNumber(s) - 1) + 1) + (c as int - 'A' as int)
  {
    assert (s + [c])[..|s|] == s;
  }

  /** A non-empty run of capitals names a column index of at least 0. */
  lemma {:induction false} ColumnPositive(s: string)
    requires AllUpper(s)
    ensures s != [] ==> ColumnNumber(s) >= 1
    ensures ColumnNumber(s) >= 0
  {
    if s != [] {
      ColumnPositive(s[..|s| - 1]);
      assert IsUpper(s[|s| - 1]);
    }
  }

  /** Different capital strings name different columns. */
  lemma {:induction false} ColumnInjective(s: string, t: string)
    requires AllUpper(s) && AllUpper(t) && ColumnNumber(s) == ColumnNumber(t)
    ensures s == t
  {
    ColumnPositive(s);
    ColumnPositive(t);
    if s != [] && t != [] {
      var s', t' := s[..|s| - 1], t[..|t| - 1];
      ColumnPositive(s');
      ColumnPositive(t');
      assert IsUpper(s[|s| - 1]) && IsUpper(t[|t| - 1]);
      var d, e := LetterValue(s[|s| - 1]), LetterValue(t[|t| - 1]);
      assert 26 * ColumnNumber(s') + d == 26 * ColumnNumber(t') + e;
      assert ColumnNumber(s') == ColumnNumber(t');
      ColumnInjective(s', t');
      assert s == s' + [s[|s| - 1]] && t == t' + [t[|t| - 1]];
    }
  }

  // ---------------------------------------------------------------------------
  // Cell ranges such as "A1:A10"

  /** toUpperCase on the ASCII letters. */
  function UpperChar(c: char): char
  {
    if 'a' <= c <= 'z' then (c as int - 32) as char else c
  }

  function Upper(s: string): (r: string)
    ensures |r| == |s| && forall i :: 0 <= i < |s| ==> r[i] == UpperChar(s[i])
  {
    seq(|s|, i requires 0 <= i < |s| => UpperChar(s[i]))
  }

  predicate AllDigits(s: string)
  {
    forall i :: 0 <= i < |s| ==> IsDigit(s[i])
  }

  /** The length of the leading run of capitals. */
  function LetterRun(s: string): (n: nat)
    ensures n <= |s| && AllUpper(s[..n]) && (n < |s| ==> !IsUpper(s[n]))
  {
    if s != [] && IsUpper(s[0]) then
      var n := 1 + LetterRun(s[1..]);
      assert s[..n] == [s[0]] + s[1..][..n - 1];
      n
    else 0
  }

  /** The length of the leading run of digits. */
  function DigitRun(s: string): (n: nat)
    ensures n <= |s| && AllDigits(s[..n]) && (n < |s| ==> !IsDigit(s[n]))
  {
    if s != [] && IsDigit(s[0]) then
      var n := 1 + DigitRun(s[1..]);
      assert s[..n] == [s[0]] + s[1..][..n - 1];
      n
    else 0
  }

  /** The four groups of /^([A-Z]+)([0-9]+):([A-Z]+)([0-9]+)$/. */
  datatype RangeParts = RangeParts(col1: string, row1: string, col2: string, row2: string)

  predicate WellFormed(p: RangeParts)
  {
    p.col1 != [] && p.row1 != [] && p.col2 != [] && p.row2 != []
    && AllUpper(p.col1) && AllDigits(p.row1) && AllUpper(p.col2) && AllDigits(p.row2)
  }

  function Joined(p: RangeParts): string
  {
    p.col1 + p.row1 + ":" + p.col2 + p.row2
  }

  /** The regular-expression match: the groups when the whole string has the form, None otherwise. */
  function MatchRange(s: string): (r: Option<RangeParts>)
    ensures r.Some? ==> WellFormed(r.value) && Joined(r.value) == s
  {
    var a := LetterRun(s);
    if a == 0 then None
    else
      assert s == s[..a] + s[a..];
      MatchRow(s[..a], s[a..])
  }

  /** The rest of the match after the first column letters. */
  function MatchRow(col1: string, s: string): (r: Option<RangeParts>)
    requires col1 != [] && AllUpper(col1)
    ensures r.Some? ==> WellFormed(r.value) && Joined(r.value) == col1 + s && r.value.col1 == col1
  {
    var d := DigitRun(s);
    if d == 0 || d == |s| || s[d] != ':' then None
    else
      assert s == s[..d] + ":" + s[d + 1..];
      MatchSecond(col1, s[..d], s[d + 1..])
  }

  /** The match of the second cell, after the colon. */
  function MatchSecond(col1: string, row1: string, t: string): (r: Option<RangeParts>)
    requires col1 != [] && AllUpper(col1) && row1 != [] && AllDigits(row1)
    ensures r.Some? ==>
      WellFormed(r.value) && r == Some(RangeParts(col1, row1, r.value.col2, r.value.row2)) && r.value.col2 + r.value.row2 == t
  {
    var b := LetterRun(t);
    if b == 0 then None
    else
      var e := DigitRun(t[b..]);
      if e == 0 || b + e != |t| then None
      else
        assert t[b..][..e] == t[b..];
        assert t == t[..b] + t[b..];
        Some(RangeParts(col1, row1, t[..b], t[b..]))
  }

  /** Every string of the form is matched, with exactly its four groups. */
  lemma MatchRangeComplete(p: RangeParts)
    requires WellFormed(p)
    ensures MatchRange(Joined(p)) == Some(p)
  {
    var s := Joined(p);
    var rest := p.row1 + ":" + p.col2 + p.row2;
    assert s == p.col1 + rest;
    MatchRowComplete(p);
    assert s[..|p.col1|] == p.col1 && s[|p.col1|..] == rest;
    RunExact(s, p.col1);
  }

  lemma MatchRowComplete(p: RangeParts)
    requires WellFormed(p)
    ensures MatchRow(p.col1, p.row1 + ":" + p.col2 + p.row2) == Some(p)
  {
    var s := p.row1 + ":" + p.col2 + p.row2;
    var t := p.col2 + p.row2;
    assert s == p.row1 + ([':'] + t);
    assert s[..|p.row1|] == p.row1 && s[|p.row1|] == ':' && s[|p.row1| + 1..] == t;
    DigitRunExact(s, p.row1);
    MatchSecondComplete(p);
  }

  lemma MatchSecondComplete(p: RangeParts)
    requires WellFormed(p)
    ensures MatchSecond(p.col1, p.row1, p.col2 + p.row2) == Some(p)
  {
    var t := p.col2 + p.row2;
    assert t[..|p.col2|] == p.col2 && t[|p.col2|..] == p.row2;
    RunExact(t, p.col2);
    assert t[|p.col2|..][..|p.row2|] == p.row2;
    DigitRunExact(t[|p.col2|..], p.row2);
  }

  lemma {:induction false} RunExact(s: string, w: string)
    requires w != [] && AllUpper(w) && |w| <= |s| && s[..|w|] == w && (|w| < |s| ==> !IsUpper(s[|w|]))
    ensures LetterRun(s) == |w|
  {
  }

  lemma {:induction false} DigitRunExact(s: string, w: string)
    requires w != [] && AllDigits(w) && |w| <= |s| && s[..|w|] == w && (|w| < |s| ==> !IsDigit(s[|w|]))
    ensures DigitRun(s) == |w|
  {
  }

  /** A single-column range of rows, 0-based. */
  datatype CellRange = CellRange(col: int, rowStart: int, rowEnd: int)

  function MinInt(a: int, b: int): int { if a <= b then a else b }

  function MaxInt(a: int, b: int): int { if a >= b then a else b }

  /** The range the four groups describe, or null when the two columns differ. */
  function RangeOf(p: RangeParts): (r: Option<CellRange>)
    requires WellFormed(p)
    ensures r.Some? ==> r.value.rowStart <= r.value.rowEnd
  {
    var col1 := ColumnNumber(p.col1) - 1;
    var row1 := DigitsValue(p.row1) - 1;
    var col2 := ColumnNumber(p.col2) - 1;
    var row2 := DigitsValue(p.row2) - 1;
    if col1 != col2 then None
    else Some(CellRange(col1, MinInt(row1, row2), MaxInt(row1, row2)))
  }

  /** parseCellRange */
  function ParseCellRange(range: string): (r: Option<CellRange>)
    ensures r.Some? ==> r.value.rowStart <= r.value.rowEnd
  {
    var m := MatchRange(Upper(range));
    if m.None? then None else RangeOf(m.value)
  }

  /** Capitals, digits and ':' are unchanged by toUpperCase. */
  lemma UpperOfJoined(p: RangeParts)
    requires WellFormed(p)
    ensures Upper(Joined(p)) == Joined(p)
  {
    var s := Joined(p);
    forall i | 0 <= i < |s|
      ensures UpperChar(s[i]) == s[i]
    {
      assert IsUpper(s[i]) || IsDigit(s[i]) || s[i] == ':';
    }
  }

  /** parseCellRange of a well-formed range is the range its four groups describe. */
  lemma ParseJoined(p: RangeParts)
    requires WellFormed(p)
    ensures ParseCellRange(Joined(p)) == RangeOf(p)
  {
    UpperOfJoined(p);
    MatchRangeComplete(p);
  }

  /**
   * The groups of one column describe that column and the smaller and the
   * larger 0-based row; two different column names give null.
   */
  lemma RangeOfCases(p: RangeParts)
    requires WellFormed(p)
    ensures p.col1 != p.col2 ==> RangeOf(p).None?
    ensures p.col1 == p.col2 ==> RangeOf(p) == Some(CellRange(ColumnNumber(p.col1) - 1,
      MinInt(DigitsValue(p.row1), DigitsValue(p.row2)) - 1, MaxInt(DigitsValue(p.row1), DigitsValue(p.row2)) - 1))
  {
    if p.col1 != p.col2 && ColumnNumber(p.col1) == ColumnNumber(p.col2) {
      ColumnInjective(p.col1, p.col2);
    }
  }

  /** Only strings of the form parse. */
  lemma ParseCellRangeNeedsForm(range: string)
    requires ParseCellRange(range).Some?
    ensures exists p :: WellFormed(p) && Joined(p) == Upper(range)
  {
    var p := MatchRange(Upper(range)).value;
    assert WellFormed(p) && Joined(p) == Upper(range);
  }

  /** Writing the two ends the other way round describes the same range. */
  lemma RangeOfSymmetric(p: RangeParts)
    requires WellFormed(p)
    ensures RangeOf(p) == RangeOf(RangeParts(p.col2, p.row2, p.col1, p.row1))
  {
  }

  // ---------------------------------------------------------------------------
  // createSeries

  function HexDigit(d: nat): char
    requires d < 16
  {
    "0123456789abcdef"[d]
  }

  /** n.toString(16) */
  function ToHex(n: nat): (s: string)
    ensures |s| >= 1
    ensures n < 16 ==> |s| == 1
    ensures n >= 16 ==> |s| == |ToHex(n / 16)| + 1
  {
    if n < 16 then [HexDigit(n)] else ToHex(n / 16) + [HexDigit(n % 16)]
  }

  lemma {:induction false} ToHexLength(n: nat, k: nat)
    requires n < Pow16(k)
    ensures |ToHex(n)| <= if k == 0 then 1 else k
    decreases k
  {
    if n >= 16 {
      assert k >= 2;
      ToHexLength(n / 16, k - 1);
    }
  }

  function Pow16(k: nat): nat
  {
    if k == 0 then 1 else 16 * Pow16(k - 1)
  }

  /** s.padStart(n, "0") */
  function PadStart(s: string, n: nat): (r: string)
    ensures |r| == if |s| >= n then |s| else n
    decreases n - |s|
  {
    if |s| >= n then s else PadStart("0" + s, n)
  }

  /** The random colour "#" + Math.floor(random * 0xFFFFFF) in six hex digits; `code` is that floor. */
  function SeriesColor(code: nat): (color: string)
    requires code < 16777215
    ensures |color| == 7 && color[0] == '#'
  {
    ToHexLength(code, 6);
    assert Pow16(6) == 16777216;
    "#" + PadStart(ToHex(code), 6)
  }

  /** The regression settings of a new series: no fit, red, solid, automatic. */
  const DefaultRegression := RegressionSettings(NoRegression, None, None, "#ff0000", 2.0, Solid, AutoMode, None, None)

  /**
   * createSeries: a visible series with no fit; an empty name becomes
   * "Series n" with n one more than the number of existing series. The id
   * (crypto.randomUUID) and the colour draw are parameters.
   */
  function CreateSeries(name: string, data: seq<DataPoint>, existingCount: nat, id: string, colorCode: nat): (s: Series)
    requires colorCode < 16777215
    ensures s.id == id && s.data == data && s.visible && s.regressionPoints == []
    ensures s.regression.kind == NoRegression && s.regression.mode == AutoMode
    ensures s.regression.parameters.None? && s.regression.manualPoints.None?
    ensures name != "" ==> s.name == name
    ensures name == "" ==> s.name == "Series " + NatToString(existingCount + 1)
    ensures |s.color| == 7 && s.color[0] == '#'
  {
    Series(id, if name != "" then name else "Series " + NatToString(existingCount + 1), data, true,
           SeriesColor(colorCode), 2.0, false, Solid, 5.0, Circle, DefaultRegression, [])
  }

  // ---------------------------------------------------------------------------
  // trimCanvas: the background colour

  function HexValue(c: char): Option<nat>
  {
    if '0' <= c <= '9' then Some(c as int - '0' as int)
    else if 'a' <= c <= 'f' then Some(c as int - 'a' as int + 10)
    else if 'A' <= c <= 'F' then Some(c as int - 'A' as int + 10)
    else None
  }

  /** The whitespace parseInt skips: ECMAScript's WhiteSpace and LineTerminator characters. */
  predicate IsJsSpace(c: char)
  {
    var k := c as int;
    (0x09 <= k <= 0x0D) || k == 0x20 || k == 0xA0 || k == 0x1680 || (0x2000 <= k <= 0x200A)
    || k == 0x2028 || k == 0x2029 || k == 0x202F || k == 0x205F || k == 0x3000 || k == 0xFEFF
  }

  /**
   * parseInt(s, 16) of two characters: leading whitespace and then one sign
   * are skipped, a "0x" or "0X" prefix is dropped, and the leading hex
   * digits give the value; NaN (None) when no digit is left. A negative zero
   * is 0, since === does not tell -0 from 0.
   */
  function ParseHexPair(s: string): (v: Option<int>)
    requires |s| == 2
    ensures v.Some? ==> -16 < v.value < 256
    ensures HexValue(s[0]).Some? && HexValue(s[1]).Some? ==> v == Some(16 * HexValue(s[0]).value + HexValue(s[1]).value)
    ensures HexValue(s[0]).Some? && HexValue(s[1]).None? && !(s[0] == '0' && (s[1] == 'x' || s[1] == 'X')) ==>
      v == HexValue(s[0])
  {
    var a, b := s[0], s[1];
    if IsJsSpace(a) then
      if b == '+' || b == '-' then None else HexValue(b)
    else if a == '+' then HexValue(b)
    else if a == '-' then
      var h := HexValue(b);
      if h.Some? then Some(-(h.value as int)) else None
    else if a == '0' && (b == 'x' || b == 'X') then None
    else
      var h0 := HexValue(a);
      var h1 := HexValue(b);
      if h0.None? then None
      else if h1.None? then h0
      else Some(16 * h0.value + h1.value)
  }

  /** The cases that are not two hex digits: whitespace, a sign, a bare "0x", a trailing non-digit. */
  lemma ParseHexPairExamples()
    ensures ParseHexPair(" f") == Some(15) && ParseHexPair("+f") == Some(15) && ParseHexPair("-f") == Some(-15)
    ensures ParseHexPair("-0") == Some(0) && ParseHexPair("0x") == None && ParseHexPair("0X") == None
    ensures ParseHexPair("fg") == Some(15) && ParseHexPair("g0") == None && ParseHexPair("  ") == None
    ensures ParseHexPair(" -") == None && ParseHexPair("--") == None
  {
    assert IsJsSpace(' ');
  }

  /** "#-0-0-0" reads as black, as each "-0" is negative zero. */
  lemma NegativeZeroBackground()
    ensures Background("#-0-0-0") == Rgb(Some(0), Some(0), Some(0))
  {
    var hex := "#-0-0-0"[1..];
    assert hex[0..2] == "-0" && hex[2..4] == "-0" && hex[4..6] == "-0";
  }

  /** A channel of the background colour; NaN never equals a pixel value. */
  type Channel = Option<int>

  datatype Rgb = Rgb(r: Channel, g: Channel, b: Channel)

  const White := Rgb(Some(255), Some(255), Some(255))

  /** The background colour: "#rgb" with each digit doubled, "#rrggbb", and white for anything else. */
  function Background(color: string): Rgb
  {
    if |color| >= 1 && color[0] == '#' then
      var hex := color[1..];
      if |hex| == 3 then Rgb(ParseHexPair([hex[0], hex[0]]), ParseHexPair([hex[1], hex[1]]), ParseHexPair([hex[2], hex[2]]))
      else if |hex| == 6 then Rgb(ParseHexPair(hex[0..2]), ParseHexPair(hex[2..4]), ParseHexPair(hex[4..6]))
      else White
    else White
  }

  predicate IsHex(c: char) { HexValue(c).Some? }

  /** Six hex digits give the three byte values; three give each digit doubled (17 times its value); the rest give white. */
  lemma BackgroundOf(color: string)
    ensures (|color| != 4 && |color| != 7) || color[0] != '#' ==> Background(color) == White
    ensures |color| == 7 && color[0] == '#' && (forall i :: 1 <= i < 7 ==> IsHex(color[i])) ==>
      Background(color) == Rgb(Some(16 * HexValue(color[1]).value + HexValue(color[2]).value),
                               Some(16 * HexValue(color[3]).value + HexValue(color[4]).value),
                               Some(16 * HexValue(color[5]).value + HexValue(color[6]).value))
    ensures |color| == 4 && color[0] == '#' && (forall i :: 1 <= i < 4 ==> IsHex(color[i])) ==>
      Background(color) == Rgb(Some(17 * HexValue(color[1]).value), Some(17 * HexValue(color[2]).value),
                               Some(17 * HexValue(color[3]).value))
  {
    if |color| == 7 && color[0] == '#' && (forall i :: 1 <= i < 7 ==> IsHex(color[i])) {
      var hex := color[1..];
      assert hex[0..2] == [color[1], color[2]] && hex[2..4] == [color[3], color[4]] && hex[4..6] == [color[5], color[6]];
    }
  }

  /** isBg: a transparent pixel, or one whose RGB is the background colour. */
  predicate IsBgPixel(r: int, g: int, b: int, a: int, bg: Rgb)
  {
    a == 0 || (bg.r == Some(r) && bg.g == Some(g) && bg.b == Some(b))
  }

  // ---------------------------------------------------------------------------
  // trimCanvas: the bounding box of the non-background pixels

  /** Pixel (x, y) of a width-w RGBA image starts at byte (y * w + x) * 4. */
  function PixelIndex(w: nat, x: nat, y: nat): nat
  {
    (y * w + x) * 4
  }

  lemma PixelInRange(w: nat, h: nat, x: nat, y: nat, n: nat)
    requires x < w && y < h && n == 4 * w * h
    ensures PixelIndex(w, x, y) + 3 < n
  {
    assert y * w + x < (y + 1) * w;
    assert (y + 1) * w <= h * w by {
      MulMono(y + 1, h, w);
    }
  }

  lemma MulMono(a: nat, b: nat, c: nat)
    requires a <= b
    ensures a * c <= b * c
  {
  }

  /** The RGBA image: its bytes, width and height. */
  datatype Image = Image(data: seq<int>, width: nat, height: nat)

  predicate WellSized(img: Image)
  {
    |img.data| == 4 * img.width * img.height
  }

  predicate BgAt(img: Image, bg: Rgb, x: nat, y: nat)
    requires WellSized(img) && x < img.width && y < img.height
  {
    PixelInRange(img.width, img.height, x, y, |img.data|);
    var i := PixelIndex(img.width, x, y);
    IsBgPixel(img.data[i], img.data[i + 1], img.data[i + 2], img.data[i + 3], bg)
  }

  /** Every pixel of row y is background. */
  predicate RowBlank(img: Image, bg: Rgb, y: nat)
    requires WellSized(img) && y < img.height
  {
    forall x: nat :: x < img.width ==> BgAt(img, bg, x, y)
  }

  /** Every pixel of column x in rows y0 .. y1-1 is background. */
  predicate ColBlank(img: Image, bg: Rgb, x: nat, y0: nat, y1: nat)
    requires WellSized(img) && x < img.width && y1 <= img.height
  {
    forall y: nat :: y0 <= y < y1 ==> BgAt(img, bg, x, y)
  }

  /** The inner loop over a row: whether some pixel of it is not background. */
  method RowHasContent(img: Image, bg: Rgb, y: nat) returns (found: bool)
    requires WellSized(img) && y < img.height
    ensures found <==> !RowBlank(img, bg, y)
  {
    found := false;
    var x := 0;
    while x < img.width
      invariant 0 <= x <= img.width
      invariant forall x': nat :: x' < x ==> BgAt(img, bg, x', y)
    {
      if !BgAt(img, bg, x, y) {
        return true;
      }
      x := x + 1;
    }
  }

  /** The inner loop over a column, between rows y0 and y1. */
  method ColHasContent(img: Image, bg: Rgb, x: nat, y0: nat, y1: nat) returns (found: bool)
    requires WellSized(img) && x < img.width && y1 <= img.height
    ensures found <==> !ColBlank(img, bg, x, y0, y1)
  {
    found := false;
    var y := y0;
    while y < y1
      invariant y0 <= y && (y0 <= y1 ==> y <= y1)
      invariant forall y': nat :: y0 <= y' < y && y' < y1 ==> BgAt(img, bg, x, y')
    {
      if !BgAt(img, bg, x, y) {
        return true;
      }
      y := y + 1;
    }
  }

  /** The content box [left, right) x [top, bottom) before padding. */
  datatype Box = Box(top: nat, bottom: nat, left: nat, right: nat)

  predicate HasContent(img: Image, bg: Rgb)
    requires WellSized(img)
  {
    exists y: nat :: y < img.height && !RowBlank(img, bg, y)
  }

  /**
   * The rows above top and from bottom on, and the columns left of left and
   * from right on (within the rows kept), are all background.
   */
  predicate Encloses(img: Image, bg: Rgb, b: Box)
    requires WellSized(img)
  {
    b.top <= b.bottom <= img.height && b.left <= b.right <= img.width
    && (forall y: nat :: y < b.top ==> RowBlank(img, bg, y))
    && (forall y: nat :: b.bottom <= y < img.height ==> RowBlank(img, bg, y))
    && (forall x: nat :: x < b.left ==> ColBlank(img, bg, x, b.top, b.bottom))
    && (forall x: nat :: b.right <= x < img.width ==> ColBlank(img, bg, x, b.top, b.bottom))
  }

  /** Each edge of the box touches content: its first and last rows and columns are not blank. */
  predicate Tight(img: Image, bg: Rgb, b: Box)
    requires WellSized(img)
  {
    b.top < b.bottom <= img.height && b.left < b.right <= img.width
    && !RowBlank(img, bg, b.top) && !RowBlank(img, bg, b.bottom - 1)
    && !ColBlank(img, bg, b.left, b.top, b.bottom) && !ColBlank(img, bg, b.right - 1, b.top, b.bottom)
  }

  /** The four scans of trimCanvas. */
  method ContentBox(img: Image, bg: Rgb) returns (b: Box)
    requires WellSized(img)
    ensures Encloses(img, bg, b)
    ensures HasContent(img, bg) ==> Tight(img, bg, b)
    ensures !HasContent(img, bg) ==> b == Box(0, img.height, 0, img.width)
  {
    var top := TopRow(img, bg);
    var bottom := BottomRow(img, bg, top);
    var left := LeftColumn(img, bg, top, bottom);
    var right := RightColumn(img, bg, top, bottom, left);
    b := Box(top, bottom, left, right);
    if !HasContent(img, bg) {
      BlankColumns(img, bg, top, bottom);
    } else {
      ContentColumn(img, bg, top, bottom);
    }
  }

  /** At most one box encloses the content with every edge touching it. */
  lemma TightBoxUnique(img: Image, bg: Rgb, b1: Box, b2: Box)
    requires WellSized(img)
    requires Encloses(img, bg, b1) && Tight(img, bg, b1)
    requires Encloses(img, bg, b2) && Tight(img, bg, b2)
    ensures b1 == b2
  {
    assert !RowBlank(img, bg, b1.top) && !RowBlank(img, bg, b2.top);
    assert !RowBlank(img, bg, b1.bottom - 1) && !RowBlank(img, bg, b2.bottom - 1);
    assert b1.top == b2.top && b1.bottom == b2.bottom;
    assert !ColBlank(img, bg, b1.left, b2.top, b2.bottom) && !ColBlank(img, bg, b2.left, b1.top, b1.bottom);
    assert !ColBlank(img, bg, b1.right - 1, b2.top, b2.bottom) && !ColBlank(img, bg, b2.right - 1, b1.top, b1.bottom);
  }

  lemma ContentColumn(img: Image, bg: Rgb, top: nat, bottom: nat)
    requires WellSized(img) && top < bottom <= img.height && !RowBlank(img, bg, top)
    ensures exists x: nat :: x < img.width && !ColBlank(img, bg, x, top, bottom)
  {
    var x: nat :| x < img.width && !BgAt(img, bg, x, top);
    assert !ColBlank(img, bg, x, top, bottom);
  }

  lemma BlankColumns(img: Image, bg: Rgb, top: nat, bottom: nat)
    requires WellSized(img) && top <= bottom <= img.height && !HasContent(img, bg)
    ensures forall x: nat :: x < img.width ==> ColBlank(img, bg, x, top, bottom)
  {
    forall x: nat, y: nat | x < img.width && top <= y < bottom
      ensures BgAt(img, bg, x, y)
    {
      assert RowBlank(img, bg, y);
    }
  }

  /** The first loop: the first row with content, or 0. */
  method TopRow(img: Image, bg: Rgb) returns (top: nat)
    requires WellSized(img)
    ensures top <= img.height && (forall y: nat :: y < top ==> RowBlank(img, bg, y))
    ensures HasContent(img, bg) ==> top < img.height && !RowBlank(img, bg, top)
    ensures !HasContent(img, bg) ==> top == 0
  {
    var y := 0;
    while y < img.height
      invariant 0 <= y <= img.height
      invariant forall y': nat :: y' < y ==> RowBlank(img, bg, y')
    {
      var found := RowHasContent(img, bg, y);
      if found {
        return y;
      }
      y := y + 1;
    }
    return 0;
  }

  /** The second loop: one past the last row with content at or below top, or the height. */
  method BottomRow(img: Image, bg: Rgb, top: nat) returns (bottom: nat)
    requires WellSized(img) && top <= img.height
    requires HasContent(img, bg) ==> top < img.height && !RowBlank(img, bg, top)
    ensures top <= bottom <= img.height && (forall y: nat :: bottom <= y < img.height ==> RowBlank(img, bg, y))
    ensures HasContent(img, bg) ==> top < bottom && !RowBlank(img, bg, bottom - 1)
    ensures !HasContent(img, bg) ==> bottom == img.height
  {
    var y := img.height;
    while y > top
      invariant top <= y <= img.height
      invariant forall y': nat :: y <= y' < img.height ==> RowBlank(img, bg, y')
    {
      var found := RowHasContent(img, bg, y - 1);
      if found {
        return y;
      }
      y := y - 1;
    }
    return img.height;
  }

  /** The third loop: the first column with content between top and bottom, or 0. */
  method LeftColumn(img: Image, bg: Rgb, top: nat, bottom: nat) returns (left: nat)
    requires WellSized(img) && top <= bottom <= img.height
    ensures left <= img.width && (forall x: nat :: x < left ==> ColBlank(img, bg, x, top, bottom))
    ensures (exists x: nat :: x < img.width && !ColBlank(img, bg, x, top, bottom)) ==>
      left < img.width && !ColBlank(img, bg, left, top, bottom)
    ensures (forall x: nat :: x < img.width ==> ColBlank(img, bg, x, top, bottom)) ==> left == 0
  {
    var x := 0;
    while x < img.width
      invariant 0 <= x <= img.width
      invariant forall x': nat :: x' < x ==> ColBlank(img, bg, x', top, bottom)
    {
      var found := ColHasContent(img, bg, x, top, bottom);
      if found {
        return x;
      }
      x := x + 1;
    }
    return 0;
  }

  /** The fourth loop: one past the last column with content at or right of left, or the width. */
  method RightColumn(img: Image, bg: Rgb, top: nat, bottom: nat, left: nat) returns (right: nat)
    requires WellSized(img) && top <= bottom <= img.height && left <= img.width
    requires forall x: nat :: x < left ==> ColBlank(img, bg, x, top, bottom)
    ensures left <= right <= img.width && (forall x: nat :: right <= x < img.width ==> ColBlank(img, bg, x, top, bottom))
    ensures (exists x: nat :: x < img.width && !ColBlank(img, bg, x, top, bottom)) ==>
      left < right && !ColBlank(img, bg, right - 1, top, bottom)
    ensures (forall x: nat :: x < img.width ==> ColBlank(img, bg, x, top, bottom)) ==> right == img.width
  {
    var x := img.width;
    while x > left
      invariant left <= x <= img.width
      invariant forall x': nat :: x <= x' < img.width ==> ColBlank(img, bg, x', top, bottom)
    {
      var found := ColHasContent(img, bg, x - 1, top, bottom);
      if found {
        return x;
      }
      x := x - 1;
    }
    return img.width;
  }

  const Padding: nat := 20

  /** What trimCanvas returns: the canvas itself, or the crop rectangle of the new canvas. */
  datatype Trimmed = Original | Cropped(left: nat, top: nat, width: nat, height: nat)

  /** The box widened by 20 pixels on each side and cut to the image. */
  function Pad(b: Box, width: nat, height: nat): (p: (int, int, int, int))
  {
    (MaxInt(0, b.top - Padding), MinInt(height, b.bottom + Padding),
     MaxInt(0, b.left - Padding), MinInt(width, b.right + Padding))
  }

  /**
   * The crop of trimCanvas: the padded box when both its sides are
   * positive, otherwise the original canvas. A crop lies inside the image
   * and contains the content box.
   */
  function Crop(b: Box, width: nat, height: nat): (t: Trimmed)
    requires b.top <= b.bottom <= height && b.left <= b.right <= width
    ensures t.Cropped? ==>
      t.width > 0 && t.height > 0
      && t.left + t.width <= width && t.top + t.height <= height
      && t.left <= b.left && b.right <= t.left + t.width
      && t.top <= b.top && b.bottom <= t.top + t.height
    ensures t.Original? <==> width == 0 || height == 0
  {
    var p := Pad(b, width, height);
    var w := p.3 - p.2;
    var h := p.1 - p.0;
    if w <= 0 || h <= 0 then Original else Cropped(p.2, p.0, w, h)
  }

  /** trimCanvas over the image and its background colour string. */
  method TrimCanvas(img: Image, backgroundColor: string) returns (t: Trimmed)
    requires WellSized(img)
    ensures exists b ::
      Encloses(img, Background(backgroundColor), b)
      && (HasContent(img, Background(backgroundColor)) ==> Tight(img, Background(backgroundColor), b))
      && b.top <= b.bottom <= img.height && b.left <= b.right <= img.width
      && t == Crop(b, img.width, img.height)
    ensures !HasContent(img, Background(backgroundColor)) ==> t == Crop(Box(0, img.height, 0, img.width), img.width, img.height)
  {
    var bg := Background(backgroundColor);
    var b := ContentBox(img, bg);
    t := Crop(b, img.width, img.height);
  }
}
